=== FILE: README.md ===
# learnbestia backend rules, modelled in Dafny

This project models the rule sets of the learnbestia Django backend, an
online-course platform where instructors sell courses and students buy,
follow and discuss them. The covered areas are:

- the **commerce** flow: coupons, the cart, order creation from a cart,
  payment of an order with enrolment in its courses, and the gate in front
  of transaction verification;
- the **instructor wallet**: balance arithmetic, the one-shot PENDING to
  SUCCESS wallet-transaction transition, and withdrawal requests;
- **course access**: the participant rule, the student and instructor
  permission mixins, course-scoped lookups, and `OrderField` numbering;
- the **real-time events** of a course: the websocket consumer's admission
  and group membership, the chat and question-comment handlers, and the
  broadcast envelope;
- **accounts**: registration by email, Google and the two blockchain
  providers; the four logins; and the change, forgot and reset password
  flows.

The Django store is one immutable `Db` value (module `Db`) with one
sequence of rows per table, in insertion order. `create` appends a row,
`save`/`update` rewrite rows, and `delete` filters them out; `get` is "exactly one
match", and `.first()` is the first match in the table's order. Django orders `.first()` by primary key, or by the model's ordering; every modelled `.first()` filters on a unique column (email, wallet id, id), so the order does not change its result, and the newest-OTP lookup is modelled as a maximum (`AuthSerializers.NewestOtp`). Each
operation is a pure function from the store and its arguments to a new
store and an answer. A raised exception is an `Err` of the `Error`
datatype (module `Common`), named after the Python exception. Error
replies and messages carry the source's strings verbatim.

Several inputs are parameters rather than modelled code:

- the clock (`now`);
- random draws: UUIDs, order and transaction refs, the superuser's name
  token, the OTP code;
- the JWT token pair;
- the password validators and the email-address check;
- the Google and signed-message verifiers;
- the OTP signer's `unsign`;
- the file store's `base64_to_file`.

Passwords are an idealised hash: `check_password` is equality with the raw
password that was set.

Module layout:

- `Common`: results, errors, time, and filter/first/sort over tables.
- `Base`: `core/models/base.py`.
- `UserModel`, `CourseModel`, `Sales`: the models.
- `Db`: the store.
- `Commerce` and `Payment`: `core/service.py` plus the order and
  transaction models.
- `FieldChecks`: the DRF field checks (`CharField`, `ChoiceField`, `UUIDField`).
- `SalesSerializers`.
- `Withdrawal` and `WalletService`: the instructor app.
- `AccountService` and `Permissions`: the account and instructor apps.
- `Utils`, `ConsumerService` and `CourseConsumer`: real time.
- `AuthService` and `AuthSerializers`: authentication.

A defect in the source is modelled twice. A member suffixed `AsWritten`
(or a plainly named one, where noted below) does what the code does. A
second member does what was evidently intended, and the rest of the
model builds on it. Lemmas pin down the difference; see "## Findings".
The handlers of `core/consumers/service.py` are modelled as if that module
loaded, which as written it does not (`ConsumerService.ServiceImportFailsAsWritten`);
its `AsWritten` handler models the method bodies as written.

Where the code and its own comments or names disagree, the model follows
the code:

- `Coupon.redeem_coupon` decrements only the coupon object in memory.
- `Transaction.verify` never touches the transaction's status.
- The social-registration message is a plain string: its
  `{user.auth_provider}` is literal and its two halves join without a
  space.
- The blockchain registration's address assertion says "Email must be
  provided".
- Google login reads the verifier's answer under the key `"data"`, while
  Google registration reads `"email"`.
- The consumer's `self.close()` for a missing or anonymous user is not
  awaited, so admission fails only when `is_course_participant` raises.

## Model

| member | source | states |
|---|---|---|
| Base.IdStr | backend/core/models/base.py:24-26 | `id_str` is the 36-character 8-4-4-4-12 form, hyphens at 8, 13, 18 and 23 |
| Base.IdStrRoundTrip | backend/core/models/base.py:24-26 | parsing `id_str` back as a UUID gives the same id |
| Base.IdStrInjective | backend/core/models/base.py:24-26 | distinct ids have distinct `id_str` |
| Base.MaxOrder | backend/core/models/base.py:37-46 | `latest(order)` over the rows sharing the `for_fields` values: None iff there is no sibling, otherwise the largest sibling order, attained by some sibling |
| Base.PreSave | backend/core/models/base.py:34-51 | an explicit order is kept; a missing one is 0 iff no sibling exists, otherwise the largest sibling order plus one, so it exceeds every sibling's order |
| Base.PreSaveIgnoresOtherScopes | backend/core/models/base.py:37-43 | a row outside the `for_fields` scope never changes the number a new row gets |
| UserModel.NormalizeEmail | backend/core/models/user.py:70 | None becomes ""; an address with no '@' is kept as given; otherwise the result keeps the stripped address's length and its '@' |
| UserModel.Strip | backend/instructor/serializers/instructor.py:22 | the trimming a `CharField()` applies, `str.strip()` over Python's whitespace set: never longer, no whitespace at either end, and every other character kept |
| UserModel.StripPadded | backend/instructor/serializers/instructor.py:22 | one space on either side of text with no whitespace at its ends is trimmed away, leaving the text |
| UserModel.CreateUser | backend/core/models/user.py:66-79 | every keyword given in `extra_fields` is stored (a flag by the value the column converts it to); staff and superuser default to False, and the other fields take the model's defaults (no wallet id, empty names, not an instructor, active, EMAIL); the email is normalised, the password set, and the address-or-email constraint holds |
| UserModel.CreateSuperuser | backend/core/models/user.py:81-93 | succeeds iff each of `is_staff` and `is_superuser` is absent or exactly True, so False and true non-bool values are refused; a bad `is_staff` is reported before a bad `is_superuser`, each with its own ValueError message; on success both flags are True, the first name defaults to "Admin " plus the token, the given keywords are stored and the model's defaults fill the rest |
| UserModel.AddBalance | backend/core/models/user.py:190-193 | the balance rises by exactly the amount; the wallet's id, owner and active flag are unchanged |
| UserModel.SubtractBalance | backend/core/models/user.py:195-198 | the balance falls by exactly the amount, with no lower bound; the wallet's id, owner and active flag are unchanged |
| UserModel.BalanceLaws | backend/core/models/user.py:190-201 | subtracting undoes adding and vice versa; `has_balance(x)` holds iff subtracting x leaves a non-negative balance; overdrawing gives a negative balance |
| UserModel.WalletTxVerify | backend/core/models/user.py:214-219 | a PENDING transaction becomes SUCCESS and credits its amount to the wallet whatever its type; any other status changes nothing |
| UserModel.WalletTxVerifyOnce | backend/core/models/user.py:214-219 | verifying a second time changes nothing, and a pending DEBIT of a positive amount still raises the balance |
| UserModel.ParsePaymentMethod | backend/core/models/user.py:48-54 | a value names a payment method iff it is one of the six stored values "fiat", "erc_usdt", "erc_usdc", "dot", "bestia_coin" and "internal", and the method it names has that value |
| UserModel.PaymentMethodRoundTrip | backend/core/models/user.py:48-54 | every payment method's stored value is a listed choice and reads back to that method |
| CourseModel.MessageType | backend/core/models/course.py:33-36 | every chat payload kind is one of audio, text and file |
| CourseModel.JsonData | backend/core/models/course.py:319-337 | a text payload renders as `{"content"}` and audio and image payloads as `{"file"}` |
| CourseModel.JsonDataDetermines | backend/core/models/course.py:319-337 | the message type and the rendered payload together determine the payload |
| CourseModel.InstructorOf | backend/core/models/user.py:136-137 | `user.instructor` is an Instructor row of that user, or absent when the user has none |
| CourseModel.IsParticipant | backend/core/models/course.py:85-93 | true iff the user is enrolled, or is flagged instructor and their Instructor row owns or co-instructs the course; a flagged user without an Instructor row raises DoesNotExist; an unflagged user takes part only through enrolment |
| CourseModel.ParticipantRule | backend/core/models/course.py:79-93 | with one Instructor row per user, participation is exactly enrolled, or instructor and (owner or co-instructor) |
| CourseModel.ValidateRating | backend/core/models/course.py:271-273 | a rating is accepted iff it lies in 1..5, with the validators' own messages below and above |
| CourseModel.SaveCategory | backend/core/models/course.py:46-49 | an empty slug is derived from the name; an existing slug is preserved |
| CourseModel.SaveCategoryIdempotent | backend/core/models/course.py:46-49 | saving a category twice is saving it once |
| Db.Enrol | backend/core/models/course.py:127-132 | an enrolment row is refused with the `user_course_unique` IntegrityError iff the user is already enrolled in the course; otherwise it is appended |
| Db.EnrolKeepsUnique | backend/core/models/course.py:127-132 | enrolling keeps at most one row per (user, course), and the user is enrolled afterwards |
| Sales.Redeem | backend/core/models/sales.py:51-56 | an invalid coupon answers False and is unchanged; a valid one answers True, and a limited one loses exactly one use, while an unlimited one is untouched |
| Sales.RedeemExhausts | backend/core/models/sales.py:43-56 | inside its window a coupon with n uses admits exactly n redemptions and is invalid once they are spent; an unlimited coupon never runs out |
| Sales.DiscountPrice | backend/core/models/sales.py:58-60 | with a discount in 0..100 the price lies between 0 and the undiscounted price; a discount of 0 keeps it and 100 makes it 0 |
| Sales.DiscountShare | backend/core/models/sales.py:58-60 | the discounted price is the (100 - discount) percent share, and a larger discount never gives a higher price |
| Sales.CartItemPrice | backend/core/models/sales.py:93-103 | the plain course price without a coupon or with an invalid one; otherwise discounted iff the coupon's course list is empty or lists the course |
| Sales.CalculatePrice | backend/core/models/sales.py:148-159 | an order item costs what the cart rule gives, and the coupon object is redeemed exactly when a discount applies |
| Sales.SaveItemPrice | backend/core/models/sales.py:161-164 | an unset or zero price is computed; any other price is kept and nothing is redeemed |
| Sales.RevalidateCoupon | backend/core/models/sales.py:75-79 | an invalid coupon is removed from the cart; a valid one and a coupon-less cart are left as they are |
| Sales.RevalidateIdempotent | backend/core/models/sales.py:75-79 | revalidating twice is revalidating once |
| Sales.DrawRef | backend/core/models/sales.py:118-123 | the save loop of `Order` (and of `Transaction`, user.py:246-251): an existing ref is kept; otherwise the ref is a non-empty draw no stored row holds, or no draw qualified |
| Sales.DrawRefStable | backend/core/models/sales.py:118-123 | saving again never replaces a ref once set |
| Commerce.CartOf | backend/core/service.py:16-17 | `user.cart` is that user's cart, and raises DoesNotExist iff the user has none |
| Commerce.ItemsOf | backend/core/service.py:37-39 | exactly the items of the cart |
| Commerce.IsEmptyMeansNoItem | backend/core/models/sales.py:71-73 | `is_empty` holds iff no item belongs to the cart |
| Commerce.ApplyCoupon | backend/core/service.py:42-47 | an invalid coupon changes nothing; a valid one becomes the user's cart coupon; it fails iff the user has no cart; only the carts table changes, and in it only the rows of the user's cart |
| Commerce.RemoveCoupon | backend/core/service.py:50-53 | the user's cart is left without a coupon; it fails iff the user has no cart; only the rows of that cart in the carts table change |
| Commerce.ApplyThenRemove | backend/core/service.py:42-53 | removing an applied coupon leaves the cart as removing alone would |
| Commerce.AddToCart | backend/core/service.py:56-61 | get-or-create on (cart, course): no cart raises DoesNotExist; exactly one stored item for the pair leaves the store unchanged, and more than one raises MultipleObjectsReturned; a new course is appended; the pair is present afterwards, and only cart items change |
| Commerce.AddToCartIdempotent | backend/core/service.py:56-61 | with at most one item per course, adding never fails, keeps that invariant, and adding the same course again leaves the store unchanged |
| Commerce.RemoveFromCart | backend/core/service.py:64-68 | every item of the course in the user's cart goes and every other item stays; removing an absent course is a no-op |
| Commerce.AddThenRemoveRestores | backend/core/service.py:56-68 | adding a course the cart lacks and then removing it gives back the store as it was |
| Commerce.ClearCart | backend/core/models/sales.py:81-82 | the cart's items go, every other cart's items stay, and the cart is empty |
| Commerce.NewestFirst | backend/core/models/base.py:22 | the default `-created_at` ordering is a permutation of the rows, newest first |
| Commerce.MakeItems | backend/core/models/sales.py:125-130 | one order item per cart item, in order and for the same course; it fails iff some course is unknown; the coupon object only loses uses |
| Commerce.UnlimitedCouponPricesAsCart | backend/core/models/sales.py:148-159 | with no coupon or an unlimited one, each order item costs exactly what the cart showed for it |
| Commerce.TotalPrice | backend/core/models/sales.py:112-116 | None iff the order has no item; the sum itself is tied to a checkout's new rows by `Commerce.CreateOrderOneItemPerCartItem` |
| Commerce.PlaceItems | backend/core/models/sales.py:125-133 | appends the planned order items, empties the cart, and writes the coupon object back only when saving is enabled; the cart's rows hold the revalidated cart when revalidation changed it and every other cart row is kept; no table but order items, carts, cart items and coupons changes |
| Commerce.CartOfAfterPlaceItems | backend/core/models/sales.py:75-79 | after the items of the user's cart are placed, the user's cart is that cart as `revalidate_coupon` left it |
| Commerce.PlaceItemsOnePerCartItem | backend/core/models/sales.py:125-133 | the new rows are exactly one order item per cart item, for the same course, and are the order's only items |
| Commerce.CreateOrderWith | backend/core/service.py:70-92 | no cart raises DoesNotExist; an empty cart raises CartIsEmpty before anything is written; on success the order carries the cart's coupon, and an INITIALIZED ORDER_PAY transaction for the order's total points at it; both refs are non-empty draws that no stored order, or transaction, holds; the cart is empty, no one is enrolled, and no table outside orders, order items, carts, cart items, coupons and transactions changes |
| Commerce.CheckoutRevalidatesCartCoupon | backend/core/models/sales.py:75-79 | after a checkout the user's cart is the revalidated cart: it loses its coupon exactly when the order's priced coupon object is no longer valid, and a cart without a coupon stays without |
| Commerce.CreateOrder | backend/core/service.py:70-92 | as written, a checkout never writes the coupons table, and CartIsEmpty leaves the store unchanged |
| Commerce.CreateOrderOneItemPerCartItem | backend/core/service.py:76-92 | a checkout creates exactly one order item per cart item, for the same course, and charges the sum of their prices |
| Commerce.CreateOrderSavingCoupon | backend/core/service.py:70-92 | the checkout with the redeemed coupon saved; CartIsEmpty leaves the store unchanged |
| Commerce.PlaceItemsSavingOnlyCoupons | backend/core/models/sales.py:125-133 | saving the coupon object changes neither the outcome of placing the items nor any table but the coupons |
| Commerce.CheckoutAsWrittenOnlyMissesCoupons | backend/core/service.py:70-92 | the checkout as written and the one saving the coupon give the same outcome, and on success the same store except for the coupons table |
| Commerce.MakeItemsRedeems | backend/core/models/sales.py:153-159 | a limited coupon that discounts at least one item is redeemed at least once |
| Commerce.PlannedConsumesCoupon | backend/core/models/sales.py:148-159 | pricing a cart against a limited coupon that discounts some item leaves the order's coupon object with fewer uses |
| Commerce.PlaceItemsConsumesCoupon | backend/core/models/sales.py:125-133 | with the coupon saved, placing the items stores a coupon with fewer uses |
| Commerce.CouponNeverConsumed | backend/core/models/sales.py:51-56 | as written, a single-use coupon redeemed at checkout is stored unchanged and stays valid for the next order |
| Commerce.SavedCouponIsConsumed | backend/core/models/sales.py:51-56 | with the coupon saved, a checkout that discounts some item consumes a stored use |
| Payment.EnrolEach | backend/core/models/sales.py:139-140 | enrols the buyer in each course in turn; succeeds iff the courses are distinct and none was taken, the first refusal stops the loop, and earlier rows stay |
| Payment.ItemsOfOrder | backend/core/models/sales.py:139 | `orderitem_set.all()` holds exactly the order's items |
| Payment.OrderTxVerify | backend/core/models/sales.py:135-140 | the order is saved as PAID, and its buyer is enrolled in every item's course, or the unique constraint stops it with the earlier rows kept |
| Payment.PaidOrderEnrols | backend/core/models/sales.py:135-140 | after a successful payment the buyer is enrolled in the course of every item of the order |
| Payment.PaidOrderMakesParticipant | backend/core/models/course.py:85-87 | after payment the buyer is a participant of each purchased course |
| Payment.PayingTwiceFails | backend/core/models/course.py:127-132 | paying the same order again fails on the enrolment constraint |
| Payment.WalletTxVerifyStored | backend/core/models/user.py:214-219 | a stored pending transaction is saved as SUCCESS and its wallet's stored amount rises by the transaction's amount; another status writes nothing; a missing wallet rolls back |
| Payment.WalletTxCreditsOnce | backend/core/models/user.py:214-219 | verifying the stored wallet transaction again writes nothing |
| Payment.CreditedSoleWallet | backend/core/models/user.py:214-219 | with unique wallet ids, verifying a pending transaction leaves the instructor exactly one wallet, the old one credited with the amount |
| Payment.CreditRaisesWalletBalance | backend/instructor/services/wallet.py:17-20 | verifying a pending wallet transaction raises the balance `get_wallet_balance` reports for the wallet's owner by exactly its amount |
| Payment.TxVerify | backend/core/models/user.py:253-254 | `Transaction.verify` dispatches to the order's or the wallet transaction's `tx_verify`, raises AttributeError for a dangling item, and never writes the transactions table |
| Payment.VerifyTransaction | backend/core/service.py:95-99 | any failure of `verify` becomes a ValidationError carrying it under "detail", and the item's writes stay |
| Payment.VerifyTransactionMarking | backend/core/models/user.py:236-239 | the intended verification: the same answer and writes, plus the transaction marked VERIFIED on success |
| SalesSerializers.CourseField | backend/core/serializers/sales.py:41-47 | a missing `course` is "This field is required." and a non-UUID "Must be a valid UUID.", both under "course"; an unknown id is NotFound; otherwise it is the course with that id |
| SalesSerializers.AddToCartRequest | backend/core/serializers/sales.py:41-52 | the `course` field's errors are reported; otherwise the item is added exactly as `add_to_cart` does, and a success names an existing course |
| SalesSerializers.RemoveFromCartRequest | backend/core/serializers/sales.py:55-66 | the `course` field's errors are reported; otherwise removal runs exactly as `remove_from_cart` does, and a success names an existing course |
| SalesSerializers.AddByIdString | backend/core/serializers/sales.py:44-47 | a course sent by its `id_str` is the course added |
| SalesSerializers.CouponByCode | backend/core/serializers/sales.py:72-77 | accepted iff exactly one coupon has the code and it is valid; no match is NotFound, several raise MultipleObjectsReturned, and an invalid one is CouponIsInvalid |
| SalesSerializers.CouponField | backend/core/serializers/sales.py:69-77 | the `coupon` `CharField` is checked first (missing, blank after trimming, or holding NUL, each with its message); then the trimmed code is looked up |
| SalesSerializers.ApplyCouponRequest | backend/core/serializers/sales.py:69-81 | the field's and the lookup's errors are reported; otherwise the coupon is applied as `apply_coupon` does |
| SalesSerializers.ApplyCouponRequestSetsCoupon | backend/core/serializers/sales.py:69-81 | an accepted request passes the `CharField` check and puts on the user's cart the valid coupon whose code is the trimmed value sent |
| SalesSerializers.PaddedCodeApplies | backend/core/serializers/sales.py:70 | a code sent with a space on each side applies exactly as the code itself does |
| SalesSerializers.PurchaseCheck | backend/core/serializers/sales.py:95-104 | passes iff every cart item's course exists and does not list the user among its students; a refusal names an already purchased course |
| SalesSerializers.PaymentField | backend/core/serializers/sales.py:91-93 | the `payment_method` `ChoiceField`: a missing value is "This field is required.", a value outside the six choices is `"<value>" is not a valid choice.`, and an accepted value is the method stored under that value |
| SalesSerializers.CreateOrderRequestWith | backend/core/serializers/sales.py:84-114 | no cart raises DoesNotExist before any field is checked; then the `payment_method` error; then a refused purchase check; none of them writes; a success answers a fresh transaction ref, the order's `id_str` and the method the request named, every cart course was unpurchased, and the store is the checkout's |
| SalesSerializers.CreateOrderRequestAsWritten | backend/core/serializers/sales.py:84-114 | as written the request ends in `create_order` for the method sent, which leaves the coupons table as it was |
| SalesSerializers.CreateOrderRequest | backend/core/serializers/sales.py:84-114 | the request with the redeemed coupon saved ends in that checkout's store for the method sent |
| SalesSerializers.RequestAsWrittenOnlyMissesCoupons | backend/core/serializers/sales.py:84-114 | both requests answer alike, and the stores differ only in the coupons table |
| SalesSerializers.VerifyGate | backend/core/serializers/sales.py:120-128 | passes iff exactly one transaction has the ref and it is INITIALIZED; an unknown ref and any other status are InvalidTransaction, and a duplicated ref raises MultipleObjectsReturned |
| SalesSerializers.TransactionField | backend/core/serializers/sales.py:117-128 | the `transaction` `CharField` is checked first (missing, blank after trimming, or holding NUL); then the gate runs on the trimmed ref |
| SalesSerializers.VerifyRequestAsWritten | backend/core/serializers/sales.py:117-131 | the field's or the gate's error with nothing written, or verification of the gated transaction as `verify_transaction` does it |
| SalesSerializers.VerifyRequest | backend/core/serializers/sales.py:117-131 | the field and the gate, then verification that marks the transaction |
| SalesSerializers.VerifyGateNeverCloses | backend/core/serializers/sales.py:125-126 | as written, after a successful verification the same ref passes the gate again |
| SalesSerializers.VerifyGateCloses | backend/core/serializers/sales.py:125-126 | with the transaction marked, a request that verified once is refused with InvalidTransaction from then on |
| FieldChecks.CharError | backend/instructor/serializers/instructor.py:22 | a `CharField()`: accepted iff present, not blank after trimming Python's whitespace, and free of NUL; missing, blank and NUL each get their own message |
| FieldChecks.CharField | backend/core/serializers/sales.py:70 | a lone `CharField()` gives the trimmed value iff the field is accepted, and otherwise its message under the field's name |
| FieldChecks.ChoiceError | backend/instructor/serializers/instructor.py:50 | a `ChoiceField`: accepted iff present and one of the choices; missing is "This field is required." and another value `"<value>" is not a valid choice.` |
| FieldChecks.UuidError | backend/core/serializers/sales.py:42 | a `UUIDField`: accepted iff present and a UUID; missing is "This field is required." |
| Withdrawal.ValidateCrypto | backend/instructor/serializers/instructor.py:20-22 | valid iff `coin_type` is a listed coin and `wallet_address` is accepted as a `CharField` (not blank after trimming Python's whitespace, no NUL); the value is trimmed; every failing field is reported and no other |
| Withdrawal.ValidateFiat | backend/instructor/serializers/instructor.py:25-28 | valid iff bank name, account number and account name are all accepted as `CharField`s (not blank after trimming Python's whitespace, no NUL); the values are trimmed; every failing field is reported and no other |
| Withdrawal.ValidateInfo | backend/instructor/serializers/instructor.py:62-66 | "crypto" details go through the crypto serializer and anything else through the fiat one |
| Withdrawal.AmountError | backend/instructor/serializers/instructor.py:51 | `DecimalField(max_digits=12, decimal_places=2)`: an amount in cents is accepted iff it has at most ten digits before the point |
| Withdrawal.WithdrawalFieldErrors | backend/instructor/serializers/instructor.py:49-52 | the `type`, `amount` and `info` field errors: each field is reported iff it fails, a missing one with "This field is required.", a type outside crypto and fiat with the choice message, and an amount over the digit bound with its message |
| Withdrawal.ValidateWithdrawal | backend/instructor/serializers/instructor.py:49-69 | valid iff the three fields are present, the type is crypto or fiat, 0 < amount < 10^12 cents, amount <= balance, and the details fit the type; the field errors come first, then "Amount must be greater than zero.", then "Insufficient wallet balance.", both as non-field errors |
| Withdrawal.WithdrawWholeBalance | backend/instructor/serializers/instructor.py:51-60 | the whole balance may be withdrawn iff it fits the amount field, one cent more is "Insufficient wallet balance.", and the largest amount the field takes passes iff the balance covers it |
| Withdrawal.Render | backend/instructor/serializers/instructor.py:31-38 | crypto and fiat details render through their own serializers' fields, and anything else as its string |
| Withdrawal.RenderValidateRoundTrip | backend/instructor/serializers/instructor.py:20-38 | validating the rendering of well-formed details for their type gives them back |
| Withdrawal.ValidatedIsWellFormed | backend/instructor/serializers/instructor.py:62-67 | every details record validation accepts is well-formed |
| WalletService.WalletOf | backend/instructor/services/wallet.py:19 | `get(instructor=...)` succeeds iff exactly one wallet is the instructor's, and raises DoesNotExist or MultipleObjectsReturned otherwise |
| WalletService.GetInstructorWallet | backend/instructor/services/wallet.py:12-15 | an existing wallet is returned unchanged; with none, an empty active wallet is created; the result is the instructor's wallet |
| WalletService.GetWalletTwice | backend/instructor/services/wallet.py:12-15 | a second call returns the same wallet and writes nothing |
| WalletService.WalletBalance | backend/instructor/services/wallet.py:17-20 | the stored amount of the instructor's wallet; a missing wallet is an error, not zero |
| WalletService.NewWalletIsEmpty | backend/instructor/services/wallet.py:12-20 | a wallet the service creates has balance 0 |
| WalletService.WalletTransactions | backend/instructor/services/wallet.py:22-32 | exactly the wallet's transactions, filtered by type only when a type is given, newest first by the inherited `-created_at` ordering; the wallet is created when missing |
| WalletService.TypedListingNarrowsFull | backend/instructor/services/wallet.py:29-32 | the listing for one type holds exactly the full listing's transactions of that type |
| WalletService.WithdrawalRequests | backend/instructor/services/wallet.py:34-37 | exactly the instructor's requests, newest first |
| WalletService.CreateWithdrawal | backend/instructor/serializers/instructor.py:71-88 | succeeds iff validation does; it then writes one details row of the requested kind and one request with that amount and type pointing at it, and answers the request with its details rendered |
| WalletService.WithdrawalKeepsBalance | backend/instructor/serializers/instructor.py:54-88 | requesting a withdrawal changes no wallet balance, and the amount lies within the balance checked |
| AccountService.OrderHistory | backend/account/service.py:26-28 | exactly the user's orders, newest first |
| AccountService.CourseModules | backend/account/service.py:31-33 | exactly the course's modules, in ascending order |
| AccountService.ModuleContents | backend/account/service.py:36-38 | exactly the module's contents, in ascending order |
| AccountService.GetContent | backend/account/service.py:41-47 | ActionNotAllowed iff the kwarg is missing or no content with the id lies in a module of the course; otherwise that content |
| AccountService.GetContentFindsCourseContent | backend/account/service.py:41-47 | with unique ids, a content is found by its id iff its module belongs to the course |
| AccountService.GetQuestionDetails | backend/account/service.py:84-90 | the question with the id if it belongs to the course; ActionNotAllowed iff the kwarg is missing or no such question exists |
| AccountService.QuestionOfOtherCourse | backend/account/service.py:84-90 | a question of another course is never handed out |
| AccountService.GetCourseChatRoom | backend/account/service.py:99-101 | get-or-create: the `(room, created)` pair; created iff the course had no room, and only then is a room appended |
| AccountService.ChatRoomOncePerCourse | backend/account/service.py:99-101 | keeps one room per course, and asking again returns the same room uncreated |
| Permissions.GetCourse | backend/account/permissions.py:23-29 | the course named by the kwarg; ActionNotAllowed iff the kwarg is missing or the course unknown |
| Permissions.IsCourseStudentAsWritten | backend/account/permissions.py:13-19 | False iff the requester is not an active user, who is refused without a query; for anyone else the query raises FieldError |
| Permissions.IsCourseStudent | backend/account/permissions.py:13-19 | the intended check: an authenticated requester enrolled in the course |
| Permissions.StudentGateIsParticipantRule | backend/core/models/course.py:85-93 | for users who are not instructors, the intended student gate agrees with `is_participant` |
| Permissions.CheckStudentPermissionsAsWritten | backend/account/permissions.py:31-43 | a failing course lookup is ActionNotAllowed, an anonymous requester is NotAuthenticated, and anyone else hits the FieldError |
| Permissions.CheckStudentPermissions | backend/account/permissions.py:31-43 | admits iff the course exists, the requester is enrolled in it and the view's own checks pass; the course lookup fails first, then the student check |
| Permissions.StudentMixinAdmitsNobody | backend/account/permissions.py:18 | as written, no request gets past the student mixin |
| Permissions.EnrolledStudentAdmitted | backend/account/permissions.py:31-43 | with the intended check, an enrolled student is admitted exactly when the view's own checks pass |
| Permissions.IsInstructor | backend/instructor/permissions.py:14-19 | true iff the requester is authenticated and has an Instructor row |
| Permissions.IsCourseInstructorAsWritten | backend/instructor/permissions.py:22-28 | False iff the requester is not an instructor; for an instructor, reading `obj.instructor` raises AttributeError |
| Permissions.IsCourseInstructor | backend/instructor/permissions.py:22-28 | the intended check: the requester's Instructor row owns the course |
| Permissions.OwnerGateIsParticipant | backend/core/models/course.py:79-80 | the intended gate is `Course.is_instructor`, and an owner flagged as instructor is a participant |
| Permissions.CheckInstructorPermissionsAsWritten | backend/instructor/permissions.py:40-52 | a failing course lookup is ActionNotAllowed, a non-instructor is denied, and an instructor hits the AttributeError |
| Permissions.CheckInstructorPermissions | backend/instructor/permissions.py:40-52 | admits iff the course exists, the requester's Instructor row owns it and the view's own checks pass |
| Permissions.InstructorMixinAdmitsNobody | backend/instructor/permissions.py:28 | as written, no request gets past the instructor mixin, not even the owner's |
| Permissions.OwnerAdmitted | backend/instructor/permissions.py:40-48 | with the intended check the owner is admitted when the view agrees, and another instructor is refused |
| Utils.ChannelName | backend/core/utils.py:121-122 | the group name is "course_" followed by the id |
| Utils.ChannelNameInjective | backend/core/utils.py:121-122 | distinct course ids never share a group |
| Utils.ImportFrom | backend/core/consumers/service.py:44 | `from core.utils import ...` succeeds iff the module defines every name, and otherwise raises ImportError naming the first missing one |
| Utils.Extension | backend/core/utils.py:109 | the text after the last dot, or the whole path when there is none |
| Utils.MoveCourseFile | backend/core/utils.py:104-114 | a missing path is FileExistsError, then an unlisted type is TypeError, then a wrong extension is TypeError, each with its message; the new name is `<slug>-<id>.<extension>` |
| Utils.MovedNameNamesInstance | backend/core/utils.py:111-114 | the id can be read back from the new name, so two instances never get the same name |
| Utils.MoveKeepsKind | backend/core/utils.py:109-114 | a renamed file passes the same checks again |
| ConsumerService.ServiceImportFailsAsWritten | backend/core/consumers/service.py:44 | as written `core/utils.py` defines no `base64_to_file`, so loading the module raises ImportError for that name |
| ConsumerService.ServiceImportResolves | backend/core/consumers/service.py:44 | with a `base64_to_file` defined in `core/utils.py`, the module's import succeeds |
| ConsumerService.Timestamp | backend/core/consumers/service.py:90 | `created_at` has the fixed width 20 of "%d/%m/%Y, %H:%M:%S"; the microseconds are dropped, and `ConsumerService.TimestampRoundTrip` reads the rest back |
| ConsumerService.TimestampRoundTrip | backend/core/consumers/service.py:90 | the rendered timestamp reads back to the instant with its microseconds set to zero |
| ConsumerService.TimestampSameSecond | backend/core/consumers/service.py:90 | two instants render alike iff they fall in the same second |
| ConsumerService.LookupId | backend/core/consumers/service.py:74 | `get(id=value)`: a value that is not a UUID string is a validation error, an unknown id is DoesNotExist, and otherwise the row with that id |
| ConsumerService.ChatStart | backend/core/consumers/service.py:72-75 | `room_id` is read, the room is fetched by id alone, then `user` is read |
| ConsumerService.ChatCatch | backend/core/consumers/service.py:92-99 | a missing room is "course chat does not exist", a KeyError is "provided data is invalid", and every reply is one of the three error strings |
| ConsumerService.ChatHandlerAsWritten | backend/core/consumers/service.py:68-99 | as written nothing is stored; a missing `room_id` is "provided data is invalid", an unknown room "course chat does not exist", and a malformed room id and every event that gets past the room lookup answer "unknown" |
| ConsumerService.CreateChatData | backend/core/consumers/service.py:101-127 | audio, text and file become the audio ("AUDIO_"), text and image ("IMAGE_") payloads; any other type gives None; a missing key is a KeyError |
| ConsumerService.MessageFields | backend/core/consumers/service.py:86-91 | a reply carries id, user and created_at plus exactly the payload's keys |
| ConsumerService.ChatHandlerWithCourseKeyword | backend/core/consumers/service.py:83-85 | with only the signature fixed, the payload row is written but no message, and the reply is "unknown" |
| ConsumerService.ChatHandler | backend/core/consumers/service.py:71-99 | the intended handler: a well-formed event from a user stores one payload and one message in the room and answers the message's fields; otherwise it answers one of the three error strings and stores no message |
| ConsumerService.TextMessageLostAsWritten | backend/core/consumers/service.py:77 | as written, a well-formed text message in an existing room answers "unknown" and stores nothing |
| ConsumerService.TextMessageOrphanPayload | backend/core/consumers/service.py:83-85 | with the `course=` keyword kept, the same message answers "unknown" and leaves an orphan payload row |
| ConsumerService.TextMessageDelivered | backend/core/consumers/service.py:71-91 | the intended handler delivers the same message |
| ConsumerService.ChatReplyReadsBack | backend/core/consumers/service.py:86-91 | the reply's id reads back to the message's id, and its created_at to the message's instant up to the second |
| ConsumerService.ChatReplyDeterminesPayload | backend/core/consumers/service.py:86-91 | given the message type, the reply determines the payload |
| ConsumerService.PayloadField | backend/core/consumers/service.py:89 | the payload's key in a reply holds the payload's value; the message's own keys never shadow it |
| ConsumerService.QuestionCommentHandler | backend/core/consumers/service.py:133-152 | a missing key is "provided data is invalid" and an unknown question "course question does not exist"; other failures escape; the comment is created only once all three keys are read, and the reply carries its fields |
| ConsumerService.CommentUnderNamedQuestion | backend/core/consumers/service.py:135-140 | the comment lands under the question the event names, whatever course it was sent to |
| ConsumerService.ParseEventType | backend/core/consumers/course.py:14-20 | a type string is accepted iff it is one of the five event names, and it names the event it parses to |
| ConsumerService.EventNameRoundTrip | backend/core/consumers/service.py:27-33 | every event type has its own name among the five |
| ConsumerService.EventHandler | backend/core/consumers/service.py:173 | only "chat" and "question_comment" have a handler |
| ConsumerService.SendMessage | backend/core/consumers/service.py:161-170 | to the group `course_<id>`, with type "send.message" and data `{type, data}` |
| ConsumerService.SendMessageReachesOneCourse | backend/core/consumers/service.py:161-170 | messages for different courses go to different groups |
| CourseConsumer.ValidateEvent | backend/core/consumers/course.py:13-21 | accepted iff `type` is one of the five names and `data` is a dictionary |
| CourseConsumer.EventRoundTrip | backend/core/consumers/course.py:13-21 | an event is accepted back from the message it is sent as |
| CourseConsumer.IsCourseParticipant | backend/core/consumers/course.py:25-32 | StopConsumer for an unknown course and for a non-participant; the course iff a signed-in participant; a missing or anonymous user raises |
| CourseConsumer.Connect | backend/core/consumers/course.py:34-46 | a refused admission joins nothing and takes no step; an admitted one joins `course_<id>`, then accepts |
| CourseConsumer.OnlyParticipantsJoin | backend/core/consumers/course.py:39-44 | a channel joins a course's group only for that course and a signed-in participant |
| CourseConsumer.Disconnect | backend/core/consumers/course.py:51-55 | leaves the joined group; after a refused connect, reading `course_name` raises |
| CourseConsumer.ConnectDisconnectRestores | backend/core/consumers/course.py:34-55 | connecting and disconnecting leaves the groups as they were |
| CourseConsumer.ToClient | backend/core/consumers/course.py:48-49 | a client receives the group message's data unchanged |
| CourseConsumer.BroadcastReachesClients | backend/core/consumers/service.py:161-170 | what a service sends for a course reaches that course's clients as `{type, data}` |
| AuthService.RegisterUser | backend/authentication/service.py:10-17 | first name, email and password are required in that order; it succeeds iff the email is free; the row copies them with last name defaulting to "" and the EMAIL provider |
| AuthService.RegisterSocialUser | backend/authentication/service.py:20-43 | email, name and provider are asserted in that order; refused iff any user holds the email, whatever their provider; otherwise the user gets the provider, the name, and the OAuth secret as password |
| AuthService.RegisterBlockchainAccount | backend/authentication/service.py:46-68 | address, first name and provider are asserted; a taken wallet id is refused naming the holder's provider; otherwise it succeeds iff a last name is given; the new user gets the wallet id, the provider and no email |
| AuthService.RegistrationsKeepUnique | backend/core/models/user.py:100-105 | every registration keeps emails and wallet ids unique |
| AuthService.SetNewPassword | backend/authentication/service.py:76-79 | only the user's row changes, and only its password |
| AuthService.SendResetPasswordEmail | backend/authentication/service.py:82-94 | appends one PASSWORD_RESET OTP for the user holding the signed code |
| AuthSerializers.ProfileHidesPassword | backend/authentication/serializers/user.py:6-11 | the serialized user never carries the password and determines every other field |
| AuthSerializers.TakenEmailError | backend/authentication/serializers/register.py:39-44 | a valid address is refused iff a user already holds it, with "User with email already exists" |
| AuthSerializers.PasswordError | backend/authentication/serializers/register.py:46-51 | the password validators run on the trimmed value only once the field itself is accepted (present, not blank after trimming Python's whitespace, no NUL), and their message is the field's error |
| AuthSerializers.EmailRegisterForm | backend/authentication/serializers/register.py:33-51 | valid iff the first name, the optional last name, a free address and an accepted password all pass, each text field not blank after trimming Python's whitespace and free of NUL; a taken address is reported on "email" |
| AuthSerializers.EmailRegisterSave | backend/authentication/serializers/register.py:53-58 | appends one EMAIL user with the validated fields and a password that checks, and answers the user's data with the tokens |
| AuthSerializers.EmailRegister | backend/authentication/serializers/register.py:33-58 | a request whose fields validate always registers, never reaching the unique constraint |
| AuthSerializers.GoogleRegisterSave | backend/authentication/serializers/register.py:18-30 | the verified data is tagged GOOGLE; it registers iff the verifier answers an email and a name and the email is free; the user is logged in at once |
| AuthSerializers.GoogleRegister | backend/authentication/serializers/register.py:15-30 | a missing, blank (after trimming Python's whitespace) or NUL-holding token is a field error; otherwise the token is registered as above |
| AuthSerializers.BlockchainRegisterForm | backend/authentication/serializers/register.py:61-65 | valid iff message, signature and first name are accepted as `CharField`s (not blank after trimming Python's whitespace, no NUL) and a given last name is too |
| AuthSerializers.BlockchainAccount | backend/authentication/serializers/register.py:67-84 | the account gets the verified address, the serializer's provider and a last name defaulting to ""; only a failed signature or a taken wallet id refuses |
| AuthSerializers.BlockchainRegisterSaveAsWritten | backend/authentication/serializers/register.py:77-86 | as written it always fails; a created account ends in a TypeError and is rolled back |
| AuthSerializers.BlockchainRegisterSave | backend/authentication/serializers/register.py:77-86 | the intended save answers the new user's data with the tokens iff the account is created |
| AuthSerializers.BlockchainRegisterAsWritten | backend/authentication/serializers/register.py:61-86 | as written, no blockchain registration succeeds |
| AuthSerializers.BlockchainRegister | backend/authentication/serializers/register.py:61-114 | for either provider, field validation and then the intended save |
| AuthSerializers.EmailLoginForm | backend/authentication/serializers/login.py:13-15 | valid iff the email is a valid address and the password is not blank after trimming Python's whitespace and free of NUL |
| AuthSerializers.EmailLoginValidated | backend/authentication/serializers/login.py:17-35 | succeeds iff the first active EMAIL user with the email has that password, answering that user; an unknown account and a wrong password give the same AuthenticationFailed `{"details": "Invalid Credentials"}` |
| AuthSerializers.EmailLogin | backend/authentication/serializers/login.py:13-35 | field errors first, then the credential check |
| AuthSerializers.EmailLoginIsCredentialCheck | backend/authentication/serializers/login.py:18-27 | with unique emails, login succeeds for an active EMAIL account exactly when its password matches |
| AuthSerializers.EmailRegisterThenLogin | backend/authentication/serializers/login.py:17-29 | a user who just registered by email logs in with the same email and password |
| AuthSerializers.CreatedUserLogsIn | backend/core/models/user.py:66-79 | a user `create_user` stores under a fresh email logs in with its password and no other when it is active and of the EMAIL provider, which the defaults give; otherwise, and when made without a password, it never does |
| AuthSerializers.CreatedSuperuserLogsIn | backend/core/models/user.py:81-93 | the same for a user `create_superuser` accepts |
| AuthSerializers.GoogleLoginValidated | backend/authentication/serializers/login.py:41-59 | the verifier's answer is read under "data" (missing is a KeyError); AuthenticationFailed `{"details": "Account not registered with us"}` iff no active GOOGLE user has that email; otherwise such a user is logged in |
| AuthSerializers.GoogleLogin | backend/authentication/serializers/login.py:38-59 | a missing, blank (after trimming Python's whitespace) or NUL-holding token is a field error; otherwise the token is checked as above |
| AuthSerializers.GoogleRegisterThenLogin | backend/authentication/serializers/login.py:41-59 | after a Google registration, a verifier answer without "data" makes the same token's login a KeyError, and one whose "data" is the registered email logs the new user in |
| AuthSerializers.GoogleLoginMissesData | backend/authentication/serializers/login.py:45 | an answer with "email" and "name" but no "data" registers and then fails to log in |
| AuthSerializers.BlockchainLoginForm | backend/authentication/serializers/login.py:62-64 | valid iff message and signature are not blank after trimming Python's whitespace and free of NUL |
| AuthSerializers.BlockchainLoginValidatedAsWritten | backend/authentication/serializers/login.py:66-80 | as written, a verified signature always ends in FieldError("provider") |
| AuthSerializers.BlockchainLoginValidated | backend/authentication/serializers/login.py:66-86 | the intended login: AuthenticationFailed `{"details": "Account not registered with us"}` iff no active user of the provider holds the verified address; otherwise such a user is logged in |
| AuthSerializers.BlockchainLoginAsWritten | backend/authentication/serializers/login.py:62-113 | as written, no blockchain login succeeds |
| AuthSerializers.BlockchainLogin | backend/authentication/serializers/login.py:62-113 | for either provider, field validation and then the intended login |
| AuthSerializers.BlockchainRegisterThenLogin | backend/authentication/serializers/login.py:73-75 | a just-registered wallet logs in with the intended serializer, and as written it is refused with FieldError("provider") |
| AuthSerializers.ChangePasswordForm | backend/authentication/serializers/password.py:11-35 | valid iff the user is a UUID, the current password is not blank after trimming Python's whitespace and free of NUL, and the new one passes the field checks and the validators |
| AuthSerializers.ChangePasswordValidated | backend/authentication/serializers/password.py:16-40 | "Account not Found" iff no EMAIL account has the id; "Current Password is Incorrect" iff the password does not match; otherwise only that password changes |
| AuthSerializers.ChangePassword | backend/authentication/serializers/password.py:11-40 | field errors first, then the account check |
| AuthSerializers.ChangeThenLogin | backend/authentication/serializers/password.py:16-40 | after a password change an active account logs in with the new password and no other |
| AuthSerializers.ForgotPasswordValidated | backend/authentication/serializers/password.py:46-58 | succeeds iff an EMAIL user has the email; that user gets a reset OTP, and the answer is `{"id": id_str}` |
| AuthSerializers.ForgotPassword | backend/authentication/serializers/password.py:43-58 | an invalid email is a field error; otherwise as above |
| AuthSerializers.NewestOtp | backend/authentication/serializers/password.py:75-78 | none iff the user has no OTP; otherwise an OTP of the user created no earlier than any other |
| AuthSerializers.NewOtpIsNewest | backend/authentication/serializers/password.py:75-78 | an OTP created after all the user's others is the newest |
| AuthSerializers.ResetPasswordForm | backend/authentication/serializers/password.py:61-64 | valid iff the user is a UUID, the code is not blank after trimming Python's whitespace and free of NUL, and the password passes the field checks and the validators |
| AuthSerializers.ResetPasswordValidated | backend/authentication/serializers/password.py:66-93 | "Account not Found" iff no active EMAIL account has the id; InvalidSession iff it has no OTP; InvalidCode iff the newest OTP does not sign the code; otherwise the password is set |
| AuthSerializers.ResetPassword | backend/authentication/serializers/password.py:61-93 | field errors first, then the reset checks |
| AuthSerializers.ResetChecksNewestOnly | backend/authentication/serializers/password.py:75-80 | a code matching an older OTP but not the newest is InvalidCode |
| AuthSerializers.ResetAfterForgot | backend/authentication/serializers/password.py:66-82 | the code of a freshly issued reset OTP resets the password |
| AuthSerializers.LoginAfterReset | backend/authentication/serializers/password.py:91-93 | after a reset the account logs in with the new password and with no other |

## Left out

- HTTP views, URL routing and pagination are not modelled. The output-only `ModelSerializer`s are not modelled either, except that `UserSerializer` is reduced to the user without its password (`Profile`). The request serializers' declared fields are modelled through `FieldChecks`.
- JWT issuance is a `Tokens` parameter. Password hashing is idealised as equality with the raw password. The Google, Ethereum and Polkadot verifiers, the password validators, the email-address check and the OTP `TimestampSigner` are function parameters. All of these are cryptography or library code.
- The reset email itself (`user.email_user`) is not modelled. It is I/O.
- The Channels transport (`accept`, `send_json`, `group_send`, `get_channel_layer`) is reduced to a set of (group, channel) pairs and a list of steps. It is asynchronous library code.
- `base64_to_file` is a parameter. It is not defined in `core/utils.py`, so the import at `core/consumers/service.py:44` fails as written (see "## Findings"); the handlers are modelled assuming the import resolves.
- Logging (`logger.info` in the consumer's `connect`) is not modelled. It is an output-only effect.
- The disk operations of `core/utils.py` (`file_upload_logic`, `append_chunk_to_file`, `cleanup_temp_media_files`, and the storage calls of `move_course_file`) are left out. They are file I/O. `move_course_file` is modelled up to the new file name.
- Randomness (`secrets.token_urlsafe`, `uuid4`, the OTP code and the superuser name token) is a parameter. `Sales.DrawRef` models the ref loops of `Order.save` and `Transaction.save` over a given finite list of draws. The source loops until a free ref comes up, so a checkout requires draws that hold one (`Commerce.RefsAvailable`); a draw sequence that never does, on which the source would not terminate, is outside the model.
- `timezone.now()` is a parameter.
- Column widths (`max_length`) are not modelled. In particular `token_urlsafe(18)` yields 24 characters, while the `ref` columns of `Order` and `Transaction` have `max_length=20`; whether a save then fails or truncates depends on the database engine, which is not part of this model.
- `CharField`'s surrogate-character validator is not modelled: a Dafny `char` cannot hold a lone surrogate, so such input cannot be written.
- A field's errors are one message; DRF gives a list, and a field that fails several validators lists them all. The model keeps the first.
- AuthSerializers.TakenEmailError: the taken-address error is kept as the plain message under "email". `validate_email` raises `{"detail": ...}`, so DRF nests it as `{"email": {"detail": [...]}}`.
- Withdrawal.WithdrawalFieldErrors: `info` is a `DictField`; a value that is not a dictionary ("Expected a dictionary of items but got type ...") cannot be written, since the body holds a map. The amount is given in cents, so the `DecimalField` text parsing ("A valid number is required.") is not modelled.
- UserModel.CreateSuperuser: a non-bool flag value is modelled by what the column stores it as. Values a `BooleanField` cannot convert, and `None`, are not modelled. Neither are keywords that name no User field, which make the model constructor raise TypeError.
- Withdrawal.AmountError: states the "no more than 12 digits in total" error for amounts written with two decimal places. An amount written without decimals and over ten whole digits gets DRF's "no more than 10 digits before the decimal point" message instead; amounts with more than two decimals are not modelled, since amounts are integer cents.
- `CourseChatRoom.blocked_users` is not modelled. No modelled operation reads or writes it.
- Sales.DiscountPrice: computes with exact rationals. It leaves out the float step in `Decimal(self.discount / 100)` and the two-decimal rounding of the price columns. Money is otherwise integer cents.
- UserModel.NormalizeEmail: states the None case, the no-'@' case, and that the stripped length and the '@' survive. It does not state the exact lower-cased domain, and lower-casing is ASCII only.
- The misspelt `email_isnull` of the User check constraint is not modelled. `UserModel.CreateUser` states the constraint as its name intends, address or email present.
- Django's UUID parsing is reduced to 32 hexadecimal digits with optional hyphens. The `urn:`, brace and integer forms are left out.
- `account/service.py` has read-only listings with no rule beyond a filter and a sort. They are left out: `get_user_profile`, `get_user_courses`, the announcement and question listings and details, `get_announcement_comments`, `get_course_questions_comment` and `get_content_notes`.
- `get_course_chat_messages` is left out. It filters by the `(room, created)` pair that `get_course_chat_room` returns.
- `CoreService.get_user_cart`, `get_course_reviews`, `get_module_contents`, `get_course_modules` and `get_cart_contents` are not modelled separately. They are the same filters as the account listings and `Commerce.ItemsOf`.
- `Cart.total_price` is not modelled. It returns the item queryset and nothing reads it.
- Generic foreign keys are reduced to a tagged reference (an order or a wallet transaction; a payload kind). The content-type tables are left out.
- `InstructorWallet.amount` is read as stored. The `F("amount")` expression that `add_balance` leaves on the instance is left out.
- `backend/instructor/services/dashboard.py`, `core/blockchain.py`, `core/middlewares.py` and the contract scripts are not part of this model. They are aggregates, network calls and deployment code.
- `WithdrawalRequest`, `CryptoWithdrawalInfo`, `FiatWithdrawalInfo` and `Coins` are not part of the source files. They are modelled as plain records, with the coin choices as a parameter.
- Commerce.CreateOrderSavingCoupon: its own contract states only the empty-cart case. Its other guarantees come from `Commerce.CreateOrderWith`, of which it is an instance, and its coupon behaviour is stated by `Commerce.SavedCouponIsConsumed`.
- The `atomic` decorators are modelled as all-or-nothing results where a rollback matters: wallet transactions, blockchain registration and the chat handlers. Concurrent requests are not modelled.

## Findings

| source | as written | input that shows it | evidently intended | confidence | as-written member | corrected member |
|---|---|---|---|---|---|---|
| backend/core/models/sales.py:51-56 | `redeem_coupon` decrements the in-memory coupon shared by the order, and nothing saves it | a coupon with `uses=1` applied to a cart of one discounted course: after checkout the stored coupon still has one use and is still valid | a redeemed use is recorded, so a single-use coupon is spent | medium, not executed | Commerce.CouponNeverConsumed | Commerce.SavedCouponIsConsumed |
| backend/core/models/user.py:253-254 | `Transaction.verify` calls the item's `tx_verify` and never updates the transaction's status | verify a ref once, then send the same ref again: the gate at `core/serializers/sales.py:125` still sees INITIALIZED and runs `tx_verify` again | a verified transaction is marked VERIFIED and the gate refuses it afterwards | medium, not executed | SalesSerializers.VerifyGateNeverCloses | SalesSerializers.VerifyGateCloses |
| backend/core/consumers/service.py:44 | `from core.utils import get_course_channel_name, base64_to_file`, but `core/utils.py` defines no `base64_to_file` | loading the module: ImportError, so no handler of the module can run | a `base64_to_file` in `core/utils.py` that writes the upload and answers its path | high, not executed | ConsumerService.ServiceImportFailsAsWritten | ConsumerService.ServiceImportResolves |
| backend/core/consumers/service.py:101-102 | `create_chat_data` is a classmethod declared with the single parameter `data`, so `cls.create_chat_data(data)` raises TypeError | with the import of line 44 resolved, any text event in an existing room: the reply is "unknown" and nothing is stored | a one-argument function of the event that picks the payload | high, not executed | ConsumerService.TextMessageLostAsWritten | ConsumerService.TextMessageDelivered |
| backend/core/consumers/service.py:84 | the message is created with `course=obj`, but the field is `room` | the same text event with the import resolved and the signature fixed: TypeError, the reply is "unknown", and the payload row stays because the exception is caught inside the transaction | `room=obj` | high, not executed | ConsumerService.TextMessageOrphanPayload | ConsumerService.TextMessageDelivered |
| backend/instructor/permissions.py:28 | `obj.instructor` is read from a Course, whose field is `owner` | the owner of an existing course requests a view with the mixin: AttributeError | compare `obj.owner` with the requester's Instructor | high, not executed | Permissions.InstructorMixinAdmitsNobody | Permissions.OwnerAdmitted |
| backend/account/permissions.py:18 | `obj.students.filter(user=user)` filters User rows, which have no field `user` | an enrolled, authenticated student requests a view with the mixin: FieldError | `obj.students.filter(id=user.id)` | medium, not executed | Permissions.StudentMixinAdmitsNobody | Permissions.EnrolledStudentAdmitted |
| backend/authentication/serializers/login.py:74 | the user filter names `provider=`, but the User field is `auth_provider` (also line 101) | a registered Ethereum wallet signs in: FieldError | `auth_provider=` | high, not executed | AuthSerializers.BlockchainLoginValidatedAsWritten | AuthSerializers.BlockchainRegisterThenLogin |
| backend/authentication/serializers/register.py:86 | `{**user, **login_data}` unpacks a model instance, which is not a mapping (also line 114) | any verified Ethereum registration with a free wallet id: TypeError, and the new row is rolled back | merge the serialized user data with the tokens, as the email registration does | high, not executed | AuthSerializers.BlockchainRegisterSaveAsWritten | AuthSerializers.BlockchainRegisterSave |

=== FILE: account_service.dfy ===
/**
  The student-side lookups of backend/account/service.py: the order history,
  the modules and contents of a course in their `order`, the lookups of a
  content or a question scoped to one course, and the chat room of a course.

  The URL keyword arguments are the `<uuid:...>` path converters' values: a
  key is either absent or holds a UUID, and a UUID object is always truthy,
  so "missing or falsy" is "absent".
 */
module AccountService {
  import opened Common
  import opened Base
  import opened UserModel
  import opened CourseModel
  import opened Sales
  import opened Db

  // ---------------------------------------------------------------------
  // Ordered listings

  /** `get_order_history`: the user's orders, newest first. */
  function OrderHistory(db: Db, user: Uuid): (r: seq<Order>)
    ensures forall o :: o in r <==> o in db.orders && o.user == user
    ensures forall a, b :: 0 <= a < b < |r| ==> Ord(r[b].createdAt) <= Ord(r[a].createdAt)
  {
    var mine := Filter(db.orders, (o: Order) => o.user == user);
    var r := SortBy(mine, (o: Order) => -Ord(o.createdAt));
    SameMembers(r, mine);
    r
  }

  /** `get_course_modules`: the modules of the course, in ascending `order`. */
  function CourseModules(db: Db, course: Uuid): (r: seq<CourseModule>)
    ensures forall m :: m in r <==> m in db.modules && m.course == course
    ensures forall a, b :: 0 <= a < b < |r| ==> r[a].order <= r[b].order
  {
    var mine := Filter(db.modules, (m: CourseModule) => m.course == course);
    var r := SortBy(mine, (m: CourseModule) => m.order as int);
    SameMembers(r, mine);
    r
  }

  /** `get_module_contents`: the contents of the module, in ascending `order`. */
  function ModuleContents(db: Db, moduleId: Uuid): (r: seq<Content>)
    ensures forall c :: c in r <==> c in db.contents && c.courseModule == moduleId
    ensures forall a, b :: 0 <= a < b < |r| ==> r[a].order <= r[b].order
  {
    var mine := Filter(db.contents, (c: Content) => c.courseModule == moduleId);
    var r := SortBy(mine, (c: Content) => c.order as int);
    SameMembers(r, mine);
    r
  }

  // ---------------------------------------------------------------------
  // Lookups scoped to a course

  /** The `module__course=course` join: the content's module belongs to the course. */
  predicate ModuleOfCourse(db: Db, moduleId: Uuid, course: Uuid) {
    exists m :: m in db.modules && m.id == moduleId && m.course == course
  }

  /** The rows `Content.objects.get(id=id, module__course=course)` selects from. */
  function ContentMatch(db: Db, id: Uuid, course: Uuid): Content -> bool {
    (c: Content) => c.id == id && ModuleOfCourse(db, c.courseModule, course)
  }

  /** Primary keys are unique in a table. */
  predicate UniqueContentIds(db: Db) {
    forall a, b :: 0 <= a < b < |db.contents| ==> db.contents[a].id != db.contents[b].id
  }

  /** `get_content`: a missing kwarg and a content outside the course's modules are both
      `ActionNotAllowed`; two rows for one primary key would make `get` raise. */
  function GetContent(db: Db, kwargs: map<string, Uuid>, course: Course): (r: Result<Content>)
    ensures "content" !in kwargs ==> r == Err(ActionNotAllowed)
    ensures r.Ok? ==> "content" in kwargs && r.value in db.contents && r.value.id == kwargs["content"]
                      && ModuleOfCourse(db, r.value.courseModule, course.id)
    ensures r == Err(ActionNotAllowed) <==>
      "content" !in kwargs
      || forall c :: c in db.contents ==> !(c.id == kwargs["content"] && ModuleOfCourse(db, c.courseModule, course.id))
    ensures r.Err? ==> r.error == ActionNotAllowed || r.error == MultipleObjectsReturned("Content")
  {
    if "content" !in kwargs then Err(ActionNotAllowed)
    else
      var matches := Filter(db.contents, ContentMatch(db, kwargs["content"], course.id));
      if |matches| == 0 then Err(ActionNotAllowed)
      else
        assert matches[0] in matches;
        if |matches| > 1 then Err(MultipleObjectsReturned("Content"))
        else Ok(matches[0])
  }

  /** Every content of one of the course's modules is found by its id, and no other. */
  lemma GetContentFindsCourseContent(db: Db, c: Content, course: Course)
    requires UniqueContentIds(db)
    requires c in db.contents
    ensures GetContent(db, map["content" := c.id], course) ==
      (if ModuleOfCourse(db, c.courseModule, course.id) then Ok(c) else Err(ActionNotAllowed))
  {
    var p := ContentMatch(db, c.id, course.id);
    var matches := Filter(db.contents, p);
    if ModuleOfCourse(db, c.courseModule, course.id) {
      assert p(c);
      OnlyMatch(db.contents, p, c);
    }
  }

  /** With unique ids, the rows of one id that a filter keeps are that one row. */
  lemma {:induction false} OnlyMatch(s: seq<Content>, p: Content -> bool, c: Content)
    requires forall a, b :: 0 <= a < b < |s| ==> s[a].id != s[b].id
    requires c in s && p(c)
    requires forall x :: p(x) ==> x.id == c.id
    ensures Filter(s, p) == [c]
  {
    if s[0] == c {
      assert forall x :: x in s[1..] ==> x.id != c.id by {
        forall x | x in s[1..] ensures x.id != c.id {
          var k :| 0 <= k < |s[1..]| && s[1..][k] == x;
          assert s[k + 1] == x;
        }
      }
      FilterNone(s[1..], p);
    } else {
      assert s[0].id != c.id by {
        var k :| 0 <= k < |s| && s[k] == c;
      }
      OnlyMatch(s[1..], p, c);
    }
  }

  /** The rows `CourseQuestion.objects.get(id=id, course=course)` selects from. */
  function QuestionMatch(id: Uuid, course: Uuid): CourseQuestion -> bool {
    (q: CourseQuestion) => q.id == id && q.course == course
  }

  /** `get_question_details`: a question of another course, or none, is
      `ActionNotAllowed`. A missing kwarg looks up `id=None`, which no row has. */
  function GetQuestionDetails(db: Db, course: Course, kwargs: map<string, Uuid>): (r: Result<CourseQuestion>)
    ensures r.Ok? ==> "question" in kwargs && r.value in db.questions && r.value.id == kwargs["question"]
                      && r.value.course == course.id
    ensures r == Err(ActionNotAllowed) <==>
      "question" !in kwargs
      || forall q :: q in db.questions ==> !(q.id == kwargs["question"] && q.course == course.id)
    ensures r.Err? ==> r.error == ActionNotAllowed || r.error == MultipleObjectsReturned("CourseQuestion")
  {
    if "question" !in kwargs then Err(ActionNotAllowed)
    else
      var matches := Filter(db.questions, QuestionMatch(kwargs["question"], course.id));
      if |matches| == 0 then Err(ActionNotAllowed)
      else
        assert matches[0] in matches;
        if |matches| > 1 then Err(MultipleObjectsReturned("CourseQuestion"))
        else Ok(matches[0])
  }

  /** A question asked in another course is never handed out, whatever its id. */
  lemma QuestionOfOtherCourse(db: Db, q: CourseQuestion, course: Course)
    requires q in db.questions && q.course != course.id
    requires forall x :: x in db.questions && x.id == q.id ==> x == q
    ensures GetQuestionDetails(db, course, map["question" := q.id]) == Err(ActionNotAllowed)
  {
  }

  // ---------------------------------------------------------------------
  // get_course_chat_room

  /** The one-to-one `CourseChatRoom.course`: at most one room per course. */
  predicate OneRoomPerCourse(rooms: seq<ChatRoom>) {
    forall a, b :: 0 <= a < b < |rooms| ==> rooms[a].course != rooms[b].course
  }

  function RoomOf(course: Uuid): ChatRoom -> bool {
    (r: ChatRoom) => r.course == course
  }

  /** `get_course_chat_room`: `get_or_create(course=course)`, answered as the
      `(room, created)` pair itself. A new room blocks nobody. */
  function GetCourseChatRoom(db: Db, course: Uuid, newId: Uuid): (r: (Db, ChatRoom, bool))
    ensures r.0 == db.(rooms := r.0.rooms)
    ensures r.1 in r.0.rooms && r.1.course == course
    ensures r.2 <==> forall x :: x in db.rooms ==> x.course != course
    ensures r.2 ==> r.0.rooms == db.rooms + [r.1] && r.1 == ChatRoom(newId, course)
    ensures !r.2 ==> r.0 == db && r.1 in db.rooms
  {
    match First(db.rooms, RoomOf(course))
    case Some(room) => (db, room, false)
    case None =>
      var room := ChatRoom(newId, course);
      (db.(rooms := db.rooms + [room]), room, true)
  }

  /** Get-or-create keeps one room per course, and asking again returns the same room
      without creating another. */
  lemma ChatRoomOncePerCourse(db: Db, course: Uuid, id1: Uuid, id2: Uuid)
    requires OneRoomPerCourse(db.rooms)
    ensures OneRoomPerCourse(GetCourseChatRoom(db, course, id1).0.rooms)
    ensures var (db1, room, _) := GetCourseChatRoom(db, course, id1);
      GetCourseChatRoom(db1, course, id2) == (db1, room, false)
  {
    var (db1, room, created) := GetCourseChatRoom(db, course, id1);
    if created {
      var s := db1.rooms;
      forall a, b | 0 <= a < b < |s| ensures s[a].course != s[b].course {
        if b == |db.rooms| {
          assert s[a] == db.rooms[a] && db.rooms[a] in db.rooms;
        } else {
          assert s[a] == db.rooms[a] && s[b] == db.rooms[b];
        }
      }
      FirstOfAppend(db.rooms, room, RoomOf(course));
    }
  }
}

=== FILE: auth_serializers.dfy ===
/**
  The request serializers of backend/authentication/serializers: register,
  login and the change, forgot and reset password flows.

  DRF first validates every declared field (and its `validate_<field>`
  method) and reports all failing fields together; only then does the
  serializer's `validate` run, and then `save`. Character fields trim
  surrounding whitespace, and the validated values are the trimmed ones.

  The verifiers are parameters: `isEmail` is Django's email validator,
  `validatePassword` the configured password validators (None when they
  accept), `googleVerify` the Google token check, `verify` the SIWE/SIWS
  signature check returning the signing address (its failure is an
  `AuthenticationFailed` under "detail"), and `unsign` the timestamp signer that turns a
  stored OTP back into its code (None for a bad or expired signature). The
  JWT pair a login issues is the parameter `tokens`.
 */
module AuthSerializers {
  import opened Common
  import opened Base
  import opened UserModel
  import opened FieldChecks
  import opened Db
  import opened AuthService

  const INVALID_EMAIL: string := "Enter a valid email address."
  const EMAIL_TAKEN: string := "User with email already exists"
  /** The key the login serializers raise `AuthenticationFailed` under (the signature
      verifiers use "detail"). */
  const DETAILS: string := "details"
  const INVALID_CREDENTIALS: string := "Invalid Credentials"
  const NOT_REGISTERED: string := "Account not registered with us"
  const ACCOUNT_NOT_FOUND: string := "Account not Found"
  const CURRENT_INCORRECT: string := "Current Password is Incorrect"
  /** What `{**user}` raises for a model instance. */
  const NOT_A_MAPPING: string := "'User' object is not a mapping"

  // ---------------------------------------------------------------------
  // Fields

  /** An `EmailField()`: a character field whose trimmed value is an address. */
  function EmailError(data: map<string, string>, key: string, isEmail: string -> bool): (e: Option<string>)
    ensures e.None? <==> CharFieldOk(data, key) && isEmail(Strip(data[key]))
  {
    match CharError(data, key)
    case Some(m) => Some(m)
    case None => if isEmail(Strip(data[key])) then None else Some(INVALID_EMAIL)
  }

  /** A `CharField()` whose `validate_<field>` runs the password validators on the trimmed
      value, once the field itself is valid. */
  function PasswordError(data: map<string, string>, key: string, validatePassword: string -> Option<string>): (e: Option<string>)
    ensures e.None? <==> CharFieldOk(data, key) && validatePassword(Strip(data[key])).None?
    ensures CharFieldOk(data, key) ==> e == validatePassword(Strip(data[key]))
  {
    match CharError(data, key)
    case Some(m) => Some(m)
    case None => validatePassword(Strip(data[key]))
  }

  /** An `EmailField()` on its own. */
  function EmailField(data: map<string, string>, key: string, isEmail: string -> bool): (r: Result<string>)
    ensures r.Ok? <==> EmailError(data, key, isEmail).None?
    ensures r.Ok? ==> CharFieldOk(data, key) && r.value == Strip(data[key]) && isEmail(r.value)
    ensures r.Err? ==> r.error == FieldErrors(map[key := EmailError(data, key, isEmail).value])
  {
    match EmailError(data, key, isEmail)
    case Some(m) => Err(FieldErrors(map[key := m]))
    case None => Ok(Strip(data[key]))
  }

  /** The trimmed value of an optional character field. */
  function OptionalValue(data: map<string, string>, key: string): Option<string> {
    if key in data then Some(Strip(data[key])) else None
  }

  // ---------------------------------------------------------------------
  // What a login answers

  datatype Tokens = Tokens(access: string, refresh: string)

  /** `UserSerializer(user).data`: every field of the user but the write-only password. */
  datatype UserData = UserData(id: Uuid, email: Option<string>, walletId: Option<string>, firstName: string,
                               lastName: string, isInstructor: bool, isActive: bool, isStaff: bool,
                               isSuperuser: bool, authProvider: string)

  function Profile(u: User): UserData {
    UserData(u.id, u.email, u.walletId, u.firstName, u.lastName, u.isInstructor, u.isActive, u.isStaff,
             u.isSuperuser, u.authProvider)
  }

  /** `{**data, **login_data}`: the user's data with the access and refresh tokens. */
  datatype LoggedIn = LoggedIn(user: UserData, tokens: Tokens)

  /** The serialized user never carries the password, and determines everything else. */
  lemma ProfileHidesPassword(u: User, v: User)
    ensures Profile(u) == Profile(v) <==> u.(password := v.password) == v
  {
  }


  // ---------------------------------------------------------------------
  // EmailRegisterSerializer

  /** `validate_email` on a valid address: refused when any user already holds it. */
  function TakenEmailError(db: Db, data: map<string, string>, isEmail: string -> bool): (e: Option<string>)
    ensures e.None? <==> EmailError(data, "email", isEmail).None?
                         && forall x :: x in db.users ==> x.email != Some(Strip(data["email"]))
    ensures EmailError(data, "email", isEmail).None? && e.Some? ==> e == Some(EMAIL_TAKEN)
  {
    match EmailError(data, "email", isEmail)
    case Some(m) => Some(m)
    case None => if Exists(db.users, EmailIs(Strip(data["email"]))) then Some(EMAIL_TAKEN) else None
  }

  /** Field errors of an email registration. */
  function EmailRegisterErrors(db: Db, data: map<string, string>, isEmail: string -> bool,
                               validatePassword: string -> Option<string>): (errs: map<string, string>)
    ensures errs == map[] <==>
      && CharFieldOk(data, "first_name") && ("last_name" !in data || CharFieldOk(data, "last_name"))
      && TakenEmailError(db, data, isEmail).None? && PasswordError(data, "password", validatePassword).None?
    ensures TakenEmailError(db, data, isEmail).Some? ==> "email" in errs && errs["email"] == TakenEmailError(db, data, isEmail).value
  {
    var e0 := AddError(map[], "first_name", CharError(data, "first_name"));
    var e1 := AddError(e0, "last_name", OptionalCharError(data, "last_name"));
    var e2 := AddError(e1, "email", TakenEmailError(db, data, isEmail));
    AddError(e2, "password", PasswordError(data, "password", validatePassword))
  }

  /** The validated fields of an email registration. */
  datatype RegisterForm = RegisterForm(firstName: string, lastName: Option<string>, email: string, password: string)

  /** Field validation of `EmailRegisterSerializer`: a first name, an optional last name, an
      address no user holds yet, and a password the validators accept; every failing field
      is reported. */
  function EmailRegisterForm(db: Db, data: map<string, string>, isEmail: string -> bool,
                             validatePassword: string -> Option<string>): (r: Result<RegisterForm>)
    ensures r.Ok? <==>
      && CharFieldOk(data, "first_name") && ("last_name" !in data || CharFieldOk(data, "last_name"))
      && EmailError(data, "email", isEmail).None?
      && (forall x :: x in db.users ==> x.email != Some(Strip(data["email"])))
      && PasswordError(data, "password", validatePassword).None?
    ensures r.Ok? ==> r.value == RegisterForm(Strip(data["first_name"]), OptionalValue(data, "last_name"),
                                              Strip(data["email"]), Strip(data["password"]))
    ensures r.Err? ==> r.error.FieldErrors?
    ensures EmailError(data, "email", isEmail).None? && (exists x :: x in db.users && x.email == Some(Strip(data["email"]))) ==>
      r.Err? && "email" in r.error.fields && r.error.fields["email"] == EMAIL_TAKEN
  {
    var errs := EmailRegisterErrors(db, data, isEmail, validatePassword);
    if errs != map[] then Err(FieldErrors(errs))
    else Ok(RegisterForm(Strip(data["first_name"]), OptionalValue(data, "last_name"), Strip(data["email"]), Strip(data["password"])))
  }

  /** `self.validated_data` as `register_user` reads it: `last_name` only when sent. */
  function RegisterData(f: RegisterForm): map<string, string> {
    var m := map["first_name" := f.firstName, "email" := f.email, "password" := f.password];
    if f.lastName.Some? then m["last_name" := f.lastName.value] else m
  }

  /** `save` of `EmailRegisterSerializer`: `register_user` on the validated fields, and the
      new user's data with the login tokens. */
  function EmailRegisterSave(db: Db, id: Uuid, f: RegisterForm, tokens: Tokens): (r: Result<(Db, LoggedIn)>)
    ensures r.Ok? <==> forall x :: x in db.users ==> x.email != Some(f.email)
    ensures r.Err? ==> r.error == IntegrityError("email")
    ensures r.Ok? ==>
      && |r.value.0.users| == |db.users| + 1
      && var u := r.value.0.users[|db.users|];
      && r.value.0 == db.(users := db.users + [u])
      && u.id == id && u.email == Some(f.email) && CheckPassword(u, f.password)
      && u.firstName == f.firstName && u.lastName == OrElse(f.lastName, "")
      && u.authProvider == EMAIL && u.isActive && u.walletId.None?
      && r.value.1 == LoggedIn(Profile(u), tokens)
  {
    match RegisterUser(db, id, RegisterData(f))
    case Err(e) => Err(e)
    case Ok((db1, u)) => Ok((db1, LoggedIn(Profile(u), tokens)))
  }

  /** `EmailRegisterSerializer`: the serializer's own email check keeps `register_user` from
      reaching the unique constraint, so a request whose fields validate always registers. */
  function EmailRegister(db: Db, id: Uuid, data: map<string, string>, isEmail: string -> bool,
                         validatePassword: string -> Option<string>, tokens: Tokens): (r: Result<(Db, LoggedIn)>)
    ensures r.Ok? <==> EmailRegisterForm(db, data, isEmail, validatePassword).Ok?
    ensures r.Err? ==> r.error == EmailRegisterForm(db, data, isEmail, validatePassword).error
    ensures r.Ok? ==> r == EmailRegisterSave(db, id, EmailRegisterForm(db, data, isEmail, validatePassword).value, tokens)
  {
    match EmailRegisterForm(db, data, isEmail, validatePassword)
    case Err(e) => Err(e)
    case Ok(f) => EmailRegisterSave(db, id, f, tokens)
  }

  // ---------------------------------------------------------------------
  // GoogleRegisterSerializer

  /** `validate` and `save` of `GoogleRegisterSerializer` on a token: the verified data is
      tagged with the GOOGLE provider, overriding any provider the verifier returned, and
      handed to `register_social_user`; the new user is logged in at once. */
  function GoogleRegisterSave(db: Db, id: Uuid, token: string, googleVerify: string -> Result<map<string, string>>,
                              oauthSecret: string, tokens: Tokens): (r: Result<(Db, LoggedIn)>)
    ensures googleVerify(token).Err? ==> r == Err(googleVerify(token).error)
    ensures r.Ok? <==> googleVerify(token).Ok? && var info := googleVerify(token).value;
                       "email" in info && "name" in info && forall x :: x in db.users ==> x.email != Some(info["email"])
    ensures r.Ok? ==>
      var info := googleVerify(token).value;
      && |r.value.0.users| == |db.users| + 1
      && var u := r.value.0.users[|db.users|];
      && r.value.0 == db.(users := db.users + [u])
      && u.authProvider == GOOGLE && u.email == Some(info["email"]) && u.firstName == info["name"]
      && CheckPassword(u, oauthSecret) && r.value.1 == LoggedIn(Profile(u), tokens)
  {
    match googleVerify(token)
    case Err(e) => Err(e)
    case Ok(info) =>
      match RegisterSocialUser(db, id, info["provider" := GOOGLE], oauthSecret)
      case Err(e) => Err(e)
      case Ok((db1, u)) => Ok((db1, LoggedIn(Profile(u), tokens)))
  }

  function GoogleRegister(db: Db, id: Uuid, data: map<string, string>,
                          googleVerify: string -> Result<map<string, string>>, oauthSecret: string,
                          tokens: Tokens): (r: Result<(Db, LoggedIn)>)
    ensures CharField(data, "auth_token").Err? ==> r == Err(CharField(data, "auth_token").error)
    ensures CharField(data, "auth_token").Ok? ==>
      r == GoogleRegisterSave(db, id, CharField(data, "auth_token").value, googleVerify, oauthSecret, tokens)
  {
    match CharField(data, "auth_token")
    case Err(e) => Err(e)
    case Ok(token) => GoogleRegisterSave(db, id, token, googleVerify, oauthSecret, tokens)
  }

  // ---------------------------------------------------------------------
  // EthereumRegisterSerializer and PolkadotRegisterSerializer

  /** A signed message and its signature, as the SIWE/SIWS serializers take them. */
  datatype SignedForm = SignedForm(message: string, signature: string)

  datatype WalletForm = WalletForm(signed: SignedForm, firstName: string, lastName: Option<string>)

  function BlockchainRegisterErrors(data: map<string, string>): (errs: map<string, string>)
    ensures errs == map[] <==>
      CharFieldOk(data, "message") && CharFieldOk(data, "signature") && CharFieldOk(data, "first_name")
      && ("last_name" !in data || CharFieldOk(data, "last_name"))
  {
    var e0 := AddError(map[], "message", CharError(data, "message"));
    var e1 := AddError(e0, "signature", CharError(data, "signature"));
    var e2 := AddError(e1, "first_name", CharError(data, "first_name"));
    AddError(e2, "last_name", OptionalCharError(data, "last_name"))
  }

  /** Field validation shared by the two blockchain registrations: message, signature and
      first name are required, the last name is optional. */
  function BlockchainRegisterForm(data: map<string, string>): (r: Result<WalletForm>)
    ensures r.Ok? <==> CharFieldOk(data, "message") && CharFieldOk(data, "signature") && CharFieldOk(data, "first_name")
                       && ("last_name" !in data || CharFieldOk(data, "last_name"))
    ensures r.Ok? ==> r.value == WalletForm(SignedForm(Strip(data["message"]), Strip(data["signature"])),
                                            Strip(data["first_name"]), OptionalValue(data, "last_name"))
    ensures r.Err? ==> r.error.FieldErrors?
  {
    var errs := BlockchainRegisterErrors(data);
    if errs != map[] then Err(FieldErrors(errs))
    else Ok(WalletForm(SignedForm(Strip(data["message"]), Strip(data["signature"])),
                       Strip(data["first_name"]), OptionalValue(data, "last_name")))
  }

  /** `validate` of the blockchain serializers: the address that signed the message. */
  function SignedAddress(f: SignedForm, verify: (string, string) -> Result<string>): Result<string> {
    verify(f.message, f.signature)
  }

  /** The keyword arguments `save` passes to `register_blockchain_account`. */
  function WalletData(f: WalletForm, address: string, provider: string): map<string, string> {
    map["first_name" := f.firstName, "last_name" := OrElse(f.lastName, ""), "address" := address, "provider" := provider]
  }

  /** `validate` and the account creation of either blockchain serializer: the account gets
      the verified address, the serializer's provider and a last name defaulting to "".
      Since `save` always passes a last name, only a taken wallet id refuses a verified
      request. */
  function BlockchainAccount(db: Db, id: Uuid, f: WalletForm, provider: string,
                             verify: (string, string) -> Result<string>): (r: Result<(Db, User)>)
    ensures SignedAddress(f.signed, verify).Err? ==> r == Err(SignedAddress(f.signed, verify).error)
    ensures SignedAddress(f.signed, verify).Ok? ==>
      match First(db.users, WalletIs(SignedAddress(f.signed, verify).value))
      case Some(x) => r == Err(ValidationError("User with wallet id already exist for " + x.authProvider + " provider"))
      case None => r.Ok?
    ensures r.Ok? ==>
      var u := r.value.1;
      && r.value.0 == db.(users := db.users + [u]) && u.id == id
      && u.walletId.Some? && SignedAddress(f.signed, verify) == Ok(u.walletId.value)
      && (forall x :: x in db.users ==> x.walletId != u.walletId)
      && u.authProvider == provider && u.firstName == f.firstName && u.lastName == OrElse(f.lastName, "")
      && u.email.None? && u.isActive
  {
    match SignedAddress(f.signed, verify)
    case Err(e) => Err(e)
    case Ok(address) => RegisterBlockchainAccount(db, id, WalletData(f, address, provider))
  }

  /** `save` of the blockchain registrations as written: after the account is created,
      `{**user}` raises, and the atomic block rolls the new row back. Nothing registers. */
  function BlockchainRegisterSaveAsWritten(db: Db, id: Uuid, f: WalletForm, provider: string,
                                           verify: (string, string) -> Result<string>, tokens: Tokens): (r: Result<(Db, LoggedIn)>)
    ensures r.Err?
    ensures BlockchainAccount(db, id, f, provider, verify).Ok? ==> r == Err(TypeError(NOT_A_MAPPING))
    ensures BlockchainAccount(db, id, f, provider, verify).Err? ==> r == Err(BlockchainAccount(db, id, f, provider, verify).error)
  {
    match BlockchainAccount(db, id, f, provider, verify)
    case Err(e) => Err(e)
    case Ok(_) => Err(TypeError(NOT_A_MAPPING))
  }

  /** `save` of the blockchain registrations as evidently intended: the serialized user
      merged with the login tokens, as the other registrations answer. */
  function BlockchainRegisterSave(db: Db, id: Uuid, f: WalletForm, provider: string,
                                  verify: (string, string) -> Result<string>, tokens: Tokens): (r: Result<(Db, LoggedIn)>)
    ensures r.Ok? <==> BlockchainAccount(db, id, f, provider, verify).Ok?
    ensures r.Err? ==> r.error == BlockchainAccount(db, id, f, provider, verify).error
    ensures r.Ok? ==>
      var (db1, u) := BlockchainAccount(db, id, f, provider, verify).value;
      r.value == (db1, LoggedIn(Profile(u), tokens))
  {
    match BlockchainAccount(db, id, f, provider, verify)
    case Err(e) => Err(e)
    case Ok((db1, u)) => Ok((db1, LoggedIn(Profile(u), tokens)))
  }

  function BlockchainRegisterAsWritten(db: Db, id: Uuid, data: map<string, string>, provider: string,
                                       verify: (string, string) -> Result<string>, tokens: Tokens): (r: Result<(Db, LoggedIn)>)
    ensures r.Err?
    ensures BlockchainRegisterForm(data).Err? ==> r == Err(BlockchainRegisterForm(data).error)
    ensures BlockchainRegisterForm(data).Ok? ==>
      r == BlockchainRegisterSaveAsWritten(db, id, BlockchainRegisterForm(data).value, provider, verify, tokens)
  {
    match BlockchainRegisterForm(data)
    case Err(e) => Err(e)
    case Ok(f) => BlockchainRegisterSaveAsWritten(db, id, f, provider, verify, tokens)
  }

  function BlockchainRegister(db: Db, id: Uuid, data: map<string, string>, provider: string,
                              verify: (string, string) -> Result<string>, tokens: Tokens): (r: Result<(Db, LoggedIn)>)
    ensures BlockchainRegisterForm(data).Err? ==> r == Err(BlockchainRegisterForm(data).error)
    ensures BlockchainRegisterForm(data).Ok? ==>
      r == BlockchainRegisterSave(db, id, BlockchainRegisterForm(data).value, provider, verify, tokens)
  {
    match BlockchainRegisterForm(data)
    case Err(e) => Err(e)
    case Ok(f) => BlockchainRegisterSave(db, id, f, provider, verify, tokens)
  }

  // ---------------------------------------------------------------------
  // EmailLoginSerializer

  datatype LoginForm = LoginForm(email: string, password: string)

  function EmailLoginErrors(data: map<string, string>, isEmail: string -> bool): (errs: map<string, string>)
    ensures errs == map[] <==> EmailError(data, "email", isEmail).None? && CharFieldOk(data, "password")
  {
    var e0 := AddError(map[], "email", EmailError(data, "email", isEmail));
    AddError(e0, "password", CharError(data, "password"))
  }

  function EmailLoginForm(data: map<string, string>, isEmail: string -> bool): (r: Result<LoginForm>)
    ensures r.Ok? <==> EmailError(data, "email", isEmail).None? && CharFieldOk(data, "password")
    ensures r.Ok? ==> r.value == LoginForm(Strip(data["email"]), Strip(data["password"]))
    ensures r.Err? ==> r.error.FieldErrors?
  {
    var errs := EmailLoginErrors(data, isEmail);
    if errs != map[] then Err(FieldErrors(errs))
    else Ok(LoginForm(Strip(data["email"]), Strip(data["password"])))
  }

  /** The users an email login considers. */
  function EmailLoginMatch(email: string): User -> bool {
    (u: User) => u.email == Some(email) && u.authProvider == EMAIL && u.isActive
  }

  /** `validate` and `save` of `EmailLoginSerializer`: the first active EMAIL-provider user
      with the email is logged in if its password matches. An unknown account and a wrong
      password get the same answer. */
  function EmailLoginValidated(db: Db, f: LoginForm, tokens: Tokens): (r: Result<LoggedIn>)
    ensures var found := First(db.users, EmailLoginMatch(f.email));
      && (r.Ok? <==> found.Some? && CheckPassword(found.value, f.password))
      && (r.Ok? ==> r.value == LoggedIn(Profile(found.value), tokens))
    ensures r.Err? ==> r.error == AuthenticationFailed(DETAILS, INVALID_CREDENTIALS)
  {
    match First(db.users, EmailLoginMatch(f.email))
    case None => Err(AuthenticationFailed(DETAILS, INVALID_CREDENTIALS))
    case Some(u) =>
      if !CheckPassword(u, f.password) then Err(AuthenticationFailed(DETAILS, INVALID_CREDENTIALS))
      else Ok(LoggedIn(Profile(u), tokens))
  }

  function EmailLogin(db: Db, data: map<string, string>, isEmail: string -> bool, tokens: Tokens): (r: Result<LoggedIn>)
    ensures EmailLoginForm(data, isEmail).Err? ==> r == Err(EmailLoginForm(data, isEmail).error)
    ensures EmailLoginForm(data, isEmail).Ok? ==> r == EmailLoginValidated(db, EmailLoginForm(data, isEmail).value, tokens)
  {
    match EmailLoginForm(data, isEmail)
    case Err(e) => Err(e)
    case Ok(f) => EmailLoginValidated(db, f, tokens)
  }

  /** With unique emails an email login succeeds exactly for an active EMAIL account holding
      the email and the password, and answers with that account. */
  lemma EmailLoginIsCredentialCheck(db: Db, f: LoginForm, tokens: Tokens, u: User)
    requires UniqueEmails(db.users)
    requires u in db.users && EmailLoginMatch(f.email)(u)
    ensures EmailLoginValidated(db, f, tokens) ==
      (if CheckPassword(u, f.password) then Ok(LoggedIn(Profile(u), tokens))
       else Err(AuthenticationFailed(DETAILS, INVALID_CREDENTIALS)))
  {
    EmailHolder(db.users, u, First(db.users, EmailLoginMatch(f.email)).value);
  }

  /** A user who has just registered by email logs in with the same email and password. */
  lemma EmailRegisterThenLogin(db: Db, id: Uuid, f: RegisterForm, t1: Tokens, t2: Tokens)
    requires EmailRegisterSave(db, id, f, t1).Ok?
    ensures var (db1, answer) := EmailRegisterSave(db, id, f, t1).value;
      EmailLoginValidated(db1, LoginForm(f.email, f.password), t2) == Ok(LoggedIn(answer.user, t2))
  {
    var db1 := EmailRegisterSave(db, id, f, t1).value.0;
    FirstOfAppend(db.users, db1.users[|db.users|], EmailLoginMatch(f.email));
  }

  /** A user `create_user` makes and stores under a fresh email logs in by email with the
      password it was given, and with no other, provided it is active and of the EMAIL
      provider (the defaults); one made without a password never logs in. */
  lemma CreatedUserLogsIn(db: Db, id: Uuid, email: Option<string>, password: Option<string>,
                          extra: ExtraFields, raw: string, tokens: Tokens)
    requires forall x :: x in db.users ==> x.email != Some(NormalizeEmail(email))
    ensures var u := CreateUser(id, email, password, extra);
      EmailLoginValidated(db.(users := db.users + [u]), LoginForm(NormalizeEmail(email), raw), tokens)
        == (if password == Some(raw) && u.isActive && u.authProvider == EMAIL then Ok(LoggedIn(Profile(u), tokens))
            else Err(AuthenticationFailed(DETAILS, INVALID_CREDENTIALS)))
  {
    var u := CreateUser(id, email, password, extra);
    if u.isActive && u.authProvider == EMAIL {
      FirstOfAppend(db.users, u, EmailLoginMatch(NormalizeEmail(email)));
    }
  }

  /** The same for `create_superuser`: an active EMAIL superuser logs in by email with its
      password. */
  lemma CreatedSuperuserLogsIn(db: Db, id: Uuid, email: Option<string>, password: Option<string>,
                               extra: ExtraFields, token: string, raw: string, tokens: Tokens)
    requires CreateSuperuser(id, email, password, extra, token).Ok?
    requires forall x :: x in db.users ==> x.email != Some(NormalizeEmail(email))
    ensures var u := CreateSuperuser(id, email, password, extra, token).value;
      EmailLoginValidated(db.(users := db.users + [u]), LoginForm(NormalizeEmail(email), raw), tokens)
        == (if password == Some(raw) && u.isActive && u.authProvider == EMAIL then Ok(LoggedIn(Profile(u), tokens))
            else Err(AuthenticationFailed(DETAILS, INVALID_CREDENTIALS)))
  {
    var u := CreateSuperuser(id, email, password, extra, token).value;
    if u.isActive && u.authProvider == EMAIL {
      FirstOfAppend(db.users, u, EmailLoginMatch(NormalizeEmail(email)));
    }
  }

  // ---------------------------------------------------------------------
  // GoogleLoginSerializer

  function SocialMatch(email: string, provider: string): User -> bool {
    (u: User) => u.email == Some(email) && u.authProvider == provider && u.isActive
  }

  /** `validate` and `save` of `GoogleLoginSerializer`: the verifier's payload is read under
      the key "data", and the first active GOOGLE-provider user with that email is logged
      in. */
  function GoogleLoginValidated(db: Db, token: string, googleVerify: string -> Result<map<string, string>>,
                                tokens: Tokens): (r: Result<LoggedIn>)
    ensures googleVerify(token).Err? ==> r == Err(googleVerify(token).error)
    ensures googleVerify(token).Ok? && "data" !in googleVerify(token).value ==> r == Err(KeyError("data"))
    ensures googleVerify(token).Ok? && "data" in googleVerify(token).value ==>
      (r == Err(AuthenticationFailed(DETAILS, NOT_REGISTERED)) <==>
         forall x :: x in db.users ==> !SocialMatch(googleVerify(token).value["data"], GOOGLE)(x))
    ensures r.Ok? ==> exists u :: u in db.users && SocialMatch(googleVerify(token).value["data"], GOOGLE)(u)
                                  && r.value == LoggedIn(Profile(u), tokens)
  {
    match googleVerify(token)
    case Err(e) => Err(e)
    case Ok(info) =>
      if "data" !in info then Err(KeyError("data"))
      else match First(db.users, SocialMatch(info["data"], GOOGLE))
        case None => Err(AuthenticationFailed(DETAILS, NOT_REGISTERED))
        case Some(u) => Ok(LoggedIn(Profile(u), tokens))
  }

  function GoogleLogin(db: Db, data: map<string, string>, googleVerify: string -> Result<map<string, string>>,
                       tokens: Tokens): (r: Result<LoggedIn>)
    ensures CharField(data, "auth_token").Err? ==> r == Err(CharField(data, "auth_token").error)
    ensures CharField(data, "auth_token").Ok? ==>
      r == GoogleLoginValidated(db, CharField(data, "auth_token").value, googleVerify, tokens)
  {
    match CharField(data, "auth_token")
    case Err(e) => Err(e)
    case Ok(token) => GoogleLoginValidated(db, token, googleVerify, tokens)
  }

  /** Registering with Google and then logging in with the same token: the login reads the
      verifier's answer under "data", which registration never needs, so an answer without
      it fails with KeyError("data") right after registration succeeded; an answer whose
      "data" is the registered email logs the new user in. */
  lemma GoogleRegisterThenLogin(db: Db, id: Uuid, token: string, googleVerify: string -> Result<map<string, string>>,
                                oauthSecret: string, t1: Tokens, t2: Tokens)
    requires GoogleRegisterSave(db, id, token, googleVerify, oauthSecret, t1).Ok?
    ensures var info := googleVerify(token).value;
      "data" !in info ==> GoogleLoginValidated(GoogleRegisterSave(db, id, token, googleVerify, oauthSecret, t1).value.0,
                                               token, googleVerify, t2) == Err(KeyError("data"))
    ensures var info := googleVerify(token).value;
      var (db1, answer) := GoogleRegisterSave(db, id, token, googleVerify, oauthSecret, t1).value;
      "data" in info && info["data"] == info["email"] ==>
        GoogleLoginValidated(db1, token, googleVerify, t2) == Ok(LoggedIn(answer.user, t2))
  {
    var info := googleVerify(token).value;
    var db1 := GoogleRegisterSave(db, id, token, googleVerify, oauthSecret, t1).value.0;
    var u := db1.users[|db.users|];
    if "data" in info && info["data"] == info["email"] {
      assert RegisterSocialUser(db, id, info["provider" := GOOGLE], oauthSecret).Ok?;
      FirstOfAppend(db.users, u, SocialMatch(info["data"], GOOGLE));
    }
  }

  /** The verifier answer that shows it: "email" and "name" but no "data". */
  lemma GoogleLoginMissesData(db: Db, id: Uuid, token: string, oauthSecret: string, t1: Tokens, t2: Tokens)
    requires forall x :: x in db.users ==> x.email != Some("a@b.c")
    ensures var verify := (s: string) => Ok(map["email" := "a@b.c", "name" := "A"]);
      && GoogleRegisterSave(db, id, token, verify, oauthSecret, t1).Ok?
      && GoogleLoginValidated(GoogleRegisterSave(db, id, token, verify, oauthSecret, t1).value.0,
                              token, verify, t2) == Err(KeyError("data"))
  {
    var verify := (s: string) => Ok(map["email" := "a@b.c", "name" := "A"]);
    GoogleRegisterThenLogin(db, id, token, verify, oauthSecret, t1, t2);
  }

  // ---------------------------------------------------------------------
  // EthereumLoginSerializer and PolkadotLoginSerializer

  function BlockchainLoginErrors(data: map<string, string>): (errs: map<string, string>)
    ensures errs == map[] <==> CharFieldOk(data, "message") && CharFieldOk(data, "signature")
  {
    var e0 := AddError(map[], "message", CharError(data, "message"));
    AddError(e0, "signature", CharError(data, "signature"))
  }

  function BlockchainLoginForm(data: map<string, string>): (r: Result<SignedForm>)
    ensures r.Ok? <==> CharFieldOk(data, "message") && CharFieldOk(data, "signature")
    ensures r.Ok? ==> r.value == SignedForm(Strip(data["message"]), Strip(data["signature"]))
    ensures r.Err? ==> r.error.FieldErrors?
  {
    var errs := BlockchainLoginErrors(data);
    if errs != map[] then Err(FieldErrors(errs))
    else Ok(SignedForm(Strip(data["message"]), Strip(data["signature"])))
  }

  /** `validate` of the blockchain logins as written: once the signature checks out, the
      user filter names `provider`, which the user model does not have, and the query
      raises. */
  function BlockchainLoginValidatedAsWritten(db: Db, f: SignedForm, provider: string,
                                             verify: (string, string) -> Result<string>, tokens: Tokens): (r: Result<LoggedIn>)
    ensures r.Err?
    ensures r.error == if SignedAddress(f, verify).Err? then SignedAddress(f, verify).error else FieldError("provider")
  {
    match SignedAddress(f, verify)
    case Err(e) => Err(e)
    case Ok(_) => Err(FieldError("provider"))
  }

  function WalletLoginMatch(address: string, provider: string): User -> bool {
    (u: User) => u.walletId == Some(address) && u.authProvider == provider && u.isActive
  }

  /** `validate` and `save` of the blockchain logins as evidently intended: the first active
      user of the provider holding the verified address is logged in. */
  function BlockchainLoginValidated(db: Db, f: SignedForm, provider: string,
                                    verify: (string, string) -> Result<string>, tokens: Tokens): (r: Result<LoggedIn>)
    ensures SignedAddress(f, verify).Err? ==> r == Err(SignedAddress(f, verify).error)
    ensures SignedAddress(f, verify).Ok? ==>
      var address := SignedAddress(f, verify).value;
      && (r == Err(AuthenticationFailed(DETAILS, NOT_REGISTERED)) <==>
            forall x :: x in db.users ==> !WalletLoginMatch(address, provider)(x))
      && (r.Ok? ==> exists u :: u in db.users && WalletLoginMatch(address, provider)(u)
                                && r.value == LoggedIn(Profile(u), tokens))
  {
    match SignedAddress(f, verify)
    case Err(e) => Err(e)
    case Ok(address) =>
      match First(db.users, WalletLoginMatch(address, provider))
      case None => Err(AuthenticationFailed(DETAILS, NOT_REGISTERED))
      case Some(u) => Ok(LoggedIn(Profile(u), tokens))
  }

  function BlockchainLoginAsWritten(db: Db, data: map<string, string>, provider: string,
                                    verify: (string, string) -> Result<string>, tokens: Tokens): (r: Result<LoggedIn>)
    ensures r.Err?
    ensures BlockchainLoginForm(data).Err? ==> r == Err(BlockchainLoginForm(data).error)
    ensures BlockchainLoginForm(data).Ok? ==>
      r == BlockchainLoginValidatedAsWritten(db, BlockchainLoginForm(data).value, provider, verify, tokens)
  {
    match BlockchainLoginForm(data)
    case Err(e) => Err(e)
    case Ok(f) => BlockchainLoginValidatedAsWritten(db, f, provider, verify, tokens)
  }

  function BlockchainLogin(db: Db, data: map<string, string>, provider: string,
                           verify: (string, string) -> Result<string>, tokens: Tokens): (r: Result<LoggedIn>)
    ensures BlockchainLoginForm(data).Err? ==> r == Err(BlockchainLoginForm(data).error)
    ensures BlockchainLoginForm(data).Ok? ==>
      r == BlockchainLoginValidated(db, BlockchainLoginForm(data).value, provider, verify, tokens)
  {
    match BlockchainLoginForm(data)
    case Err(e) => Err(e)
    case Ok(f) => BlockchainLoginValidated(db, f, provider, verify, tokens)
  }

  /** With the intended serializers, a wallet that has just registered signs in with the
      same provider and any message the verifier ties to the same address; as written, the
      same login is refused. */
  lemma BlockchainRegisterThenLogin(db: Db, id: Uuid, f: WalletForm, provider: string,
                                    verify: (string, string) -> Result<string>, t1: Tokens, t2: Tokens,
                                    login: SignedForm)
    requires BlockchainRegisterSave(db, id, f, provider, verify, t1).Ok?
    requires SignedAddress(login, verify) == SignedAddress(f.signed, verify)
    ensures var (db1, answer) := BlockchainRegisterSave(db, id, f, provider, verify, t1).value;
      && BlockchainLoginValidated(db1, login, provider, verify, t2) == Ok(LoggedIn(answer.user, t2))
      && BlockchainLoginValidatedAsWritten(db1, login, provider, verify, t2) == Err(FieldError("provider"))
  {
    var (db1, u) := BlockchainAccount(db, id, f, provider, verify).value;
    FirstOfAppend(db.users, u, WalletLoginMatch(u.walletId.value, provider));
  }

  // ---------------------------------------------------------------------
  // ChangePasswordSerializer

  datatype ChangeForm = ChangeForm(user: Uuid, current: string, newPassword: string)

  /** The field errors of the change and reset serializers: a user id, a required
      secret field, and a new password the validators accept. */
  function UserSecretPasswordErrors(data: map<string, string>, secret: string, password: string,
                                    validatePassword: string -> Option<string>): (errs: map<string, string>)
    ensures errs == map[] <==> UuidError(data, "user").None? && CharFieldOk(data, secret)
                               && PasswordError(data, password, validatePassword).None?
  {
    var e0 := AddError(map[], "user", UuidError(data, "user"));
    var e1 := AddError(e0, secret, CharError(data, secret));
    AddError(e1, password, PasswordError(data, password, validatePassword))
  }

  /** Field validation of `ChangePasswordSerializer`; the new password's validators run
      before the account is looked up. */
  function ChangePasswordForm(data: map<string, string>, validatePassword: string -> Option<string>): (r: Result<ChangeForm>)
    ensures r.Ok? <==> UuidError(data, "user").None? && CharFieldOk(data, "current_password")
                       && PasswordError(data, "new_password", validatePassword).None?
    ensures r.Ok? ==> r.value == ChangeForm(ParseUuid(data["user"]).value, Strip(data["current_password"]),
                                            Strip(data["new_password"]))
    ensures r.Err? ==> r.error.FieldErrors?
  {
    var errs := UserSecretPasswordErrors(data, "current_password", "new_password", validatePassword);
    if errs != map[] then Err(FieldErrors(errs))
    else Ok(ChangeForm(ParseUuid(data["user"]).value, Strip(data["current_password"]), Strip(data["new_password"])))
  }

  /** `User.objects.get(id=..., auth_provider=EMAIL)`; the id is the primary key. */
  function ChangeMatch(id: Uuid): User -> bool {
    (u: User) => u.id == id && u.authProvider == EMAIL
  }

  /** `validate` and `save` of `ChangePasswordSerializer`: an EMAIL-provider account (active
      or not) whose current password matches gets the new one; nothing else changes. */
  function ChangePasswordValidated(db: Db, f: ChangeForm): (r: Result<Db>)
    ensures var found := First(db.users, ChangeMatch(f.user));
      && (r == Err(ValidationError(ACCOUNT_NOT_FOUND)) <==> found.None?)
      && (r == Err(ValidationError(CURRENT_INCORRECT)) <==> found.Some? && !CheckPassword(found.value, f.current))
      && (r.Ok? <==> found.Some? && CheckPassword(found.value, f.current))
    ensures r.Ok? ==> r.value == SetNewPassword(db, f.user, f.newPassword)
  {
    match First(db.users, ChangeMatch(f.user))
    case None => Err(ValidationError(ACCOUNT_NOT_FOUND))
    case Some(u) =>
      if !CheckPassword(u, f.current) then Err(ValidationError(CURRENT_INCORRECT))
      else Ok(SetNewPassword(db, f.user, f.newPassword))
  }

  function ChangePassword(db: Db, data: map<string, string>, validatePassword: string -> Option<string>): (r: Result<Db>)
    ensures ChangePasswordForm(data, validatePassword).Err? ==> r == Err(ChangePasswordForm(data, validatePassword).error)
    ensures ChangePasswordForm(data, validatePassword).Ok? ==> r == ChangePasswordValidated(db, ChangePasswordForm(data, validatePassword).value)
  {
    match ChangePasswordForm(data, validatePassword)
    case Err(e) => Err(e)
    case Ok(f) => ChangePasswordValidated(db, f)
  }

  /** After a password change the account logs in by email with the new password and with
      no other, the current one included. */
  lemma ChangeThenLogin(db: Db, f: ChangeForm, login: LoginForm, tokens: Tokens)
    requires UniqueEmails(db.users)
    requires ChangePasswordValidated(db, f).Ok?
    requires var u := First(db.users, ChangeMatch(f.user)).value;
      u.email == Some(login.email) && u.isActive
    ensures var u := First(db.users, ChangeMatch(f.user)).value;
      EmailLoginValidated(ChangePasswordValidated(db, f).value, login, tokens) ==
        (if login.password == f.newPassword then Ok(LoggedIn(Profile(u), tokens))
         else Err(AuthenticationFailed(DETAILS, INVALID_CREDENTIALS)))
  {
    var u := First(db.users, ChangeMatch(f.user)).value;
    LoginAfterReset(db, u, f.newPassword, login, tokens);
  }

  // ---------------------------------------------------------------------
  // ForgotPasswordSerializer

  function ForgotMatch(email: string): User -> bool {
    (u: User) => u.email == Some(email) && u.authProvider == EMAIL
  }

  /** `validate` and `save` of `ForgotPasswordSerializer`: the first EMAIL-provider user with
      the email (active or not) gets a new reset OTP, and the answer is that user's id. */
  function ForgotPasswordValidated(db: Db, email: string, otpId: Uuid, signedCode: string, now: DateTime): (r: Result<(Db, map<string, string>)>)
    ensures r.Ok? <==> Exists(db.users, ForgotMatch(email))
    ensures r.Err? ==> r.error == ValidationError(ACCOUNT_NOT_FOUND)
    ensures r.Ok? ==> exists u :: u in db.users && ForgotMatch(email)(u)
                                  && r.value == (SendResetPasswordEmail(db, u, otpId, signedCode, now).0, map["id" := IdStr(u.id)])
  {
    match First(db.users, ForgotMatch(email))
    case None => Err(ValidationError(ACCOUNT_NOT_FOUND))
    case Some(u) => Ok((SendResetPasswordEmail(db, u, otpId, signedCode, now).0, map["id" := IdStr(u.id)]))
  }

  function ForgotPassword(db: Db, data: map<string, string>, isEmail: string -> bool, otpId: Uuid,
                          signedCode: string, now: DateTime): (r: Result<(Db, map<string, string>)>)
    ensures EmailField(data, "email", isEmail).Err? ==> r == Err(EmailField(data, "email", isEmail).error)
    ensures EmailField(data, "email", isEmail).Ok? ==>
      r == ForgotPasswordValidated(db, EmailField(data, "email", isEmail).value, otpId, signedCode, now)
  {
    match EmailField(data, "email", isEmail)
    case Err(e) => Err(e)
    case Ok(email) => ForgotPasswordValidated(db, email, otpId, signedCode, now)
  }

  // ---------------------------------------------------------------------
  // ResetPasswordSerializer

  /** `OTPToken.objects.filter(user=user).order_by("-created_at").first()`: an OTP of the
      user created no earlier than any other (the first such in the table on a tie). */
  function NewestOtp(otps: seq<OtpToken>, user: Uuid): (r: Option<OtpToken>)
    ensures r.None? <==> forall o :: o in otps ==> o.user != user
    ensures r.Some? ==> r.value in otps && r.value.user == user
    ensures r.Some? ==> forall o :: o in otps && o.user == user ==> Ord(o.createdAt) <= Ord(r.value.createdAt)
  {
    if |otps| == 0 then None
    else
      var rest := NewestOtp(otps[1..], user);
      assert forall o :: o in otps ==> o == otps[0] || o in otps[1..];
      if otps[0].user != user then rest
      else if rest.None? || Ord(rest.value.createdAt) <= Ord(otps[0].createdAt) then Some(otps[0])
      else rest
  }

  /** An OTP created after every other OTP of its user is the newest one. */
  lemma NewOtpIsNewest(otps: seq<OtpToken>, otp: OtpToken)
    requires forall o :: o in otps && o.user == otp.user ==> Ord(o.createdAt) < Ord(otp.createdAt)
    ensures NewestOtp(otps + [otp], otp.user) == Some(otp)
  {
    assert otp in otps + [otp];
  }

  datatype ResetForm = ResetForm(user: Uuid, code: string, password: string)

  /** Field validation of `ResetPasswordSerializer`. */
  function ResetPasswordForm(data: map<string, string>, validatePassword: string -> Option<string>): (r: Result<ResetForm>)
    ensures r.Ok? <==> UuidError(data, "user").None? && CharFieldOk(data, "code")
                       && PasswordError(data, "password", validatePassword).None?
    ensures r.Ok? ==> r.value == ResetForm(ParseUuid(data["user"]).value, Strip(data["code"]), Strip(data["password"]))
    ensures r.Err? ==> r.error.FieldErrors?
  {
    var errs := UserSecretPasswordErrors(data, "code", "password", validatePassword);
    if errs != map[] then Err(FieldErrors(errs))
    else Ok(ResetForm(ParseUuid(data["user"]).value, Strip(data["code"]), Strip(data["password"])))
  }

  /** The users a reset considers: the id, the EMAIL provider, and active. */
  function ResetMatch(id: Uuid): User -> bool {
    (u: User) => u.id == id && u.authProvider == EMAIL && u.isActive
  }

  /** `validate` and `save` of `ResetPasswordSerializer`: the account must be an active EMAIL
      account with an OTP, and the code must be the one in its newest OTP; older OTPs are
      never consulted. */
  function ResetPasswordValidated(db: Db, f: ResetForm, unsign: string -> Option<string>): (r: Result<Db>)
    ensures (r == Err(ValidationError(ACCOUNT_NOT_FOUND))) <==> forall x :: x in db.users ==> !ResetMatch(f.user)(x)
    ensures Exists(db.users, ResetMatch(f.user)) ==>
      var u := First(db.users, ResetMatch(f.user)).value;
      var newest := NewestOtp(db.otps, u.id);
      && (r == Err(InvalidSession) <==> newest.None?)
      && (r == Err(InvalidCode) <==> newest.Some? && unsign(newest.value.code) != Some(f.code))
      && (r.Ok? <==> newest.Some? && unsign(newest.value.code) == Some(f.code))
      && (r.Ok? ==> r.value == SetNewPassword(db, u.id, f.password))
  {
    match First(db.users, ResetMatch(f.user))
    case None => Err(ValidationError(ACCOUNT_NOT_FOUND))
    case Some(u) =>
      match NewestOtp(db.otps, u.id)
      case None => Err(InvalidSession)
      case Some(otp) =>
        if unsign(otp.code) != Some(f.code) then Err(InvalidCode)
        else Ok(SetNewPassword(db, u.id, f.password))
  }

  function ResetPassword(db: Db, data: map<string, string>, validatePassword: string -> Option<string>,
                         unsign: string -> Option<string>): (r: Result<Db>)
    ensures ResetPasswordForm(data, validatePassword).Err? ==> r == Err(ResetPasswordForm(data, validatePassword).error)
    ensures ResetPasswordForm(data, validatePassword).Ok? ==>
      r == ResetPasswordValidated(db, ResetPasswordForm(data, validatePassword).value, unsign)
  {
    match ResetPasswordForm(data, validatePassword)
    case Err(e) => Err(e)
    case Ok(f) => ResetPasswordValidated(db, f, unsign)
  }

  /** Only the newest OTP counts: a code that matches an older OTP of the account, but not
      the newest one, is refused. */
  lemma ResetChecksNewestOnly(db: Db, f: ResetForm, unsign: string -> Option<string>, u: User,
                              older: OtpToken, newer: OtpToken)
    requires UniqueIds(db.users) && u in db.users && ResetMatch(f.user)(u)
    requires older in db.otps && newer in db.otps && older.user == u.id && newer.user == u.id
    requires forall o :: o in db.otps && o.user == u.id && o != newer ==> Ord(o.createdAt) < Ord(newer.createdAt)
    requires unsign(older.code) == Some(f.code) && unsign(newer.code) != Some(f.code)
    ensures ResetPasswordValidated(db, f, unsign) == Err(InvalidCode)
  {
    IdHolder(db.users, u, First(db.users, ResetMatch(u.id)).value);
  }

  /** A reset OTP issued to an active EMAIL account is the one a reset checks: the code it
      signs resets the account's password. */
  lemma ResetAfterForgot(db: Db, u: User, otpId: Uuid, signedCode: string, now: DateTime,
                         f: ResetForm, unsign: string -> Option<string>)
    requires UniqueIds(db.users) && u in db.users && ResetMatch(f.user)(u)
    requires forall o :: o in db.otps && o.user == u.id ==> Ord(o.createdAt) < Ord(now)
    requires unsign(signedCode) == Some(f.code)
    ensures var db1 := SendResetPasswordEmail(db, u, otpId, signedCode, now).0;
      ResetPasswordValidated(db1, f, unsign) == Ok(SetNewPassword(db1, u.id, f.password))
  {
    var otp := SendResetPasswordEmail(db, u, otpId, signedCode, now).1;
    IdHolder(db.users, u, First(db.users, ResetMatch(u.id)).value);
    NewOtpIsNewest(db.otps, otp);
  }

  /** After a password reset the account logs in with the new password and with no other. */
  lemma LoginAfterReset(db: Db, u: User, raw: string, login: LoginForm, tokens: Tokens)
    requires UniqueEmails(db.users)
    requires u in db.users && EmailLoginMatch(login.email)(u)
    ensures EmailLoginValidated(SetNewPassword(db, u.id, raw), login, tokens) ==
      (if login.password == raw then Ok(LoggedIn(Profile(u), tokens))
       else Err(AuthenticationFailed(DETAILS, INVALID_CREDENTIALS)))
  {
    var q := EmailLoginMatch(login.email);
    EmailHolder(db.users, u, First(db.users, q).value);
    FirstAfterUpdate(db.users, IdIs(u.id), WithPassword(raw), q);
  }
}

=== FILE: auth_service.dfy ===
/**
  Account creation and the reset-password code of
  backend/authentication/service.py: the email, social and blockchain
  registrations with their uniqueness checks, and the OTP a reset creates.

  `data` dictionaries map keys to strings. Password hashing is the idealised
  `Hashed(raw)` of the user model; the OAuth secret, the OTP code and its
  signature are parameters, and sending the email is left out.
 */
module AuthService {
  import opened Common
  import opened Base
  import opened UserModel
  import opened Db

  /** `models.User()`: no email, no wallet, active, no flags, the EMAIL provider, no
      password. */
  function NewUser(id: Uuid): User {
    User(id, None, None, "", "", false, true, false, false, EMAIL, Unset)
  }

  function EmailIs(email: string): User -> bool {
    (u: User) => u.email == Some(email)
  }

  function WalletIs(address: string): User -> bool {
    (u: User) => u.walletId == Some(address)
  }

  /** The unique constraint of `User.email` (NULLs excepted). */
  predicate UniqueEmails(users: seq<User>) {
    forall a, b :: 0 <= a < b < |users| && users[a].email.Some? ==> users[a].email != users[b].email
  }

  /** The unique constraint of `User.wallet_id` (NULLs excepted). */
  predicate UniqueWallets(users: seq<User>) {
    forall a, b :: 0 <= a < b < |users| && users[a].walletId.Some? ==> users[a].walletId != users[b].walletId
  }

  /** Primary keys of the user table. */
  predicate UniqueIds(users: seq<User>) {
    forall a, b :: 0 <= a < b < |users| ==> users[a].id != users[b].id
  }

  /** Under the email constraint, the holder of an email is the only row with it. */
  lemma EmailHolder(users: seq<User>, u: User, y: User)
    requires UniqueEmails(users)
    requires u in users && y in users && u.email.Some? && y.email == u.email
    ensures y == u
  {
    var i :| 0 <= i < |users| && users[i] == u;
    var j :| 0 <= j < |users| && users[j] == y;
  }

  /** A primary key names one row. */
  lemma IdHolder(users: seq<User>, u: User, y: User)
    requires UniqueIds(users)
    requires u in users && y in users && y.id == u.id
    ensures y == u
  {
    var i :| 0 <= i < |users| && users[i] == u;
    var j :| 0 <= j < |users| && users[j] == y;
  }

  /** Appending a row whose key no row has keeps a table's keys unique. */
  lemma AppendKeepsUnique(users: seq<User>, u: User)
    requires UniqueEmails(users) && UniqueWallets(users)
    requires u.email.Some? ==> forall x :: x in users ==> x.email != u.email
    requires u.walletId.Some? ==> forall x :: x in users ==> x.walletId != u.walletId
    ensures UniqueEmails(users + [u]) && UniqueWallets(users + [u])
  {
    var s := users + [u];
    forall a, b | 0 <= a < b < |s| && s[a].email.Some? ensures s[a].email != s[b].email {
      if b == |users| {
        assert s[a] == users[a] && users[a] in users;
      } else {
        assert s[a] == users[a] && s[b] == users[b];
      }
    }
    forall a, b | 0 <= a < b < |s| && s[a].walletId.Some? ensures s[a].walletId != s[b].walletId {
      if b == |users| {
        assert s[a] == users[a] && users[a] in users;
      } else {
        assert s[a] == users[a] && s[b] == users[b];
      }
    }
  }

  // ---------------------------------------------------------------------
  // register_user

  /** `register_user`: first name, email and password are read from `data` (in that
      order; a missing one is a KeyError), the last name defaults to "". The email is
      stored as given; a second row with it is refused by the unique constraint. */
  function RegisterUser(db: Db, id: Uuid, data: map<string, string>): (r: Result<(Db, User)>)
    ensures "first_name" !in data ==> r == Err(KeyError("first_name"))
    ensures "first_name" in data && "email" !in data ==> r == Err(KeyError("email"))
    ensures "first_name" in data && "email" in data && "password" !in data ==> r == Err(KeyError("password"))
    ensures r.Ok? <==> "first_name" in data && "email" in data && "password" in data
                       && forall x :: x in db.users ==> x.email != Some(data["email"])
    ensures r.Err? && "first_name" in data && "email" in data && "password" in data ==> r.error == IntegrityError("email")
    ensures r.Ok? ==>
      var (db1, u) := r.value;
      && db1 == db.(users := db.users + [u]) && u.id == id
      && u.firstName == data["first_name"] && u.email == Some(data["email"])
      && u.lastName == (if "last_name" in data then data["last_name"] else "")
      && u.authProvider == EMAIL && u.isActive && u.walletId.None?
      && CheckPassword(u, data["password"])
  {
    if "first_name" !in data then Err(KeyError("first_name"))
    else if "email" !in data then Err(KeyError("email"))
    else if "password" !in data then Err(KeyError("password"))
    else
      var u := NewUser(id).(firstName := data["first_name"],
                            lastName := if "last_name" in data then data["last_name"] else "",
                            email := Some(data["email"]),
                            password := SetPassword(Some(data["password"])));
      if Exists(db.users, EmailIs(data["email"])) then Err(IntegrityError("email"))
      else Ok((db.(users := db.users + [u]), u))
  }

  // ---------------------------------------------------------------------
  // register_social_user

  /** The message of the duplicate-email refusal; the braces are not an f-string, so they
      appear literally. */
  const SOCIAL_EMAIL_TAKEN: string := "User with similar email alreadyexist for {user.auth_provider} provider"

  /** `register_social_user`: email, name and provider must be given; any user already
      holding the email refuses the registration, whatever that user's provider. The new
      user's password is the OAuth secret. */
  function RegisterSocialUser(db: Db, id: Uuid, data: map<string, string>, oauthSecret: string): (r: Result<(Db, User)>)
    ensures "email" !in data ==> r == Err(AssertionError("Email must be provided"))
    ensures "email" in data && "name" !in data ==> r == Err(AssertionError("Name must be provided"))
    ensures "email" in data && "name" in data && "provider" !in data ==> r == Err(AssertionError("Provider must be provided"))
    ensures "email" in data && "name" in data && "provider" in data ==>
      (r == Err(ValidationError(SOCIAL_EMAIL_TAKEN)) <==> exists x :: x in db.users && x.email == Some(data["email"]))
    ensures r.Ok? ==>
      var (db1, u) := r.value;
      && db1 == db.(users := db.users + [u]) && u.id == id
      && u.email == Some(data["email"]) && u.firstName == data["name"] && u.authProvider == data["provider"]
      && u.walletId.None? && u.isActive && CheckPassword(u, oauthSecret)
  {
    if "email" !in data then Err(AssertionError("Email must be provided"))
    else if "name" !in data then Err(AssertionError("Name must be provided"))
    else if "provider" !in data then Err(AssertionError("Provider must be provided"))
    else if Exists(db.users, EmailIs(data["email"])) then Err(ValidationError(SOCIAL_EMAIL_TAKEN))
    else
      var u := NewUser(id).(email := Some(data["email"]), firstName := data["name"],
                            authProvider := data["provider"], password := SetPassword(Some(oauthSecret)));
      Ok((db.(users := db.users + [u]), u))
  }

  // ---------------------------------------------------------------------
  // register_blockchain_account

  /** `register_blockchain_account(**data)`: address, first name and provider must be
      given (the address assertion's message says "Email"); a taken wallet id is refused
      naming the holder's provider. `data.get("last_name")` is None when absent, and the
      NOT NULL column refuses it. No password is set. */
  function RegisterBlockchainAccount(db: Db, id: Uuid, data: map<string, string>): (r: Result<(Db, User)>)
    ensures "address" !in data ==> r == Err(AssertionError("Email must be provided"))
    ensures "address" in data && "first_name" !in data ==> r == Err(AssertionError("First name must be provided"))
    ensures "address" in data && "first_name" in data && "provider" !in data ==> r == Err(AssertionError("Provider must be provided"))
    ensures "address" in data && "first_name" in data && "provider" in data ==>
      match First(db.users, WalletIs(data["address"]))
      case Some(x) => r == Err(ValidationError("User with wallet id already exist for " + x.authProvider + " provider"))
      case None => r.Ok? <==> "last_name" in data
    ensures r.Ok? ==>
      var (db1, u) := r.value;
      && db1 == db.(users := db.users + [u]) && u.id == id
      && u.walletId == Some(data["address"]) && u.email.None?
      && u.firstName == data["first_name"] && u.lastName == data["last_name"] && u.authProvider == data["provider"]
      && u.isActive && u.password == Unset
  {
    if "address" !in data then Err(AssertionError("Email must be provided"))
    else if "first_name" !in data then Err(AssertionError("First name must be provided"))
    else if "provider" !in data then Err(AssertionError("Provider must be provided"))
    else match First(db.users, WalletIs(data["address"]))
      case Some(x) => Err(ValidationError("User with wallet id already exist for " + x.authProvider + " provider"))
      case None =>
        if "last_name" !in data then Err(IntegrityError("last_name"))
        else
          var u := NewUser(id).(walletId := Some(data["address"]), firstName := data["first_name"],
                                lastName := data["last_name"], authProvider := data["provider"]);
          Ok((db.(users := db.users + [u]), u))
  }

  /** Every registration keeps emails and wallet ids unique. */
  lemma RegistrationsKeepUnique(db: Db, id: Uuid, data: map<string, string>, secret: string)
    requires UniqueEmails(db.users) && UniqueWallets(db.users)
    ensures RegisterUser(db, id, data).Ok? ==>
      UniqueEmails(RegisterUser(db, id, data).value.0.users) && UniqueWallets(RegisterUser(db, id, data).value.0.users)
    ensures RegisterSocialUser(db, id, data, secret).Ok? ==>
      UniqueEmails(RegisterSocialUser(db, id, data, secret).value.0.users)
      && UniqueWallets(RegisterSocialUser(db, id, data, secret).value.0.users)
    ensures RegisterBlockchainAccount(db, id, data).Ok? ==>
      UniqueEmails(RegisterBlockchainAccount(db, id, data).value.0.users)
      && UniqueWallets(RegisterBlockchainAccount(db, id, data).value.0.users)
  {
    RegisteredKeepsUnique(db, RegisterUser(db, id, data));
    RegisteredKeepsUnique(db, RegisterSocialUser(db, id, data, secret));
    RegisteredKeepsUnique(db, RegisterBlockchainAccount(db, id, data));
  }

  /** A registration that appends a user whose email and wallet are free keeps the
      constraints. */
  lemma RegisteredKeepsUnique(db: Db, r: Result<(Db, User)>)
    requires UniqueEmails(db.users) && UniqueWallets(db.users)
    requires r.Ok? ==> r.value.0 == db.(users := db.users + [r.value.1])
    requires r.Ok? && r.value.1.email.Some? ==> forall x :: x in db.users ==> x.email != r.value.1.email
    requires r.Ok? && r.value.1.walletId.Some? ==> forall x :: x in db.users ==> x.walletId != r.value.1.walletId
    ensures r.Ok? ==> UniqueEmails(r.value.0.users) && UniqueWallets(r.value.0.users)
  {
    if r.Ok? {
      AppendKeepsUnique(db.users, r.value.1);
    }
  }

  // ---------------------------------------------------------------------
  // Passwords and OTPs

  function IdIs(id: Uuid): User -> bool {
    (u: User) => u.id == id
  }

  function WithPassword(raw: string): User -> User {
    (u: User) => u.(password := SetPassword(Some(raw)))
  }

  /** `set_new_password`: the user's row gets the new password; nothing else changes. */
  function SetNewPassword(db: Db, id: Uuid, raw: string): (r: Db)
    ensures r == db.(users := r.users) && |r.users| == |db.users|
    ensures forall k :: 0 <= k < |db.users| ==>
      r.users[k] == if db.users[k].id == id then db.users[k].(password := Hashed(raw)) else db.users[k]
  {
    db.(users := Update(db.users, IdIs(id), WithPassword(raw)))
  }

  /** `send_reset_password_email`: a new OTP for the user with reason PASSWORD_RESET,
      holding the signed code. */
  function SendResetPasswordEmail(db: Db, user: User, otpId: Uuid, signedCode: string, now: DateTime): (r: (Db, OtpToken))
    ensures r.1.user == user.id && r.1.reason == PasswordReset && r.1.code == signedCode && r.1.createdAt == now
    ensures r.0 == db.(otps := db.otps + [r.1])
  {
    var otp := OtpToken(otpId, user.id, PasswordReset, signedCode, now);
    (db.(otps := db.otps + [otp]), otp)
  }
}

=== FILE: base_model.dfy ===
/**
  The abstract base of every model (backend/core/models/base.py): the UUID
  primary key with its string form `id_str`, and `OrderField`, the positive
  integer field that numbers a row after the last row of its scope.
 */
module Base {
  import opened Common

  newtype Nibble = x: int | 0 <= x < 16

  /** A UUID as its 32 hexadecimal digits, most significant first. */
  type Uuid = s: seq<Nibble> | |s| == 32 witness seq(32, _ => 0)

  // ---------------------------------------------------------------------
  // id_str: str(uuid)

  /** Lower-case hexadecimal digit of a nibble, as Python's uuid prints it. */
  function HexChar(n: Nibble): char {
    if n < 10 then ('0' as int + n as int) as char else ('a' as int + n as int - 10) as char
  }

  /** Value of a hexadecimal digit of either case, as `int(hex, 16)` reads it. */
  function HexValue(c: char): Option<Nibble> {
    if '0' <= c <= '9' then Some((c as int - '0' as int) as Nibble)
    else if 'a' <= c <= 'f' then Some((c as int - 'a' as int + 10) as Nibble)
    else if 'A' <= c <= 'F' then Some((c as int - 'A' as int + 10) as Nibble)
    else None
  }

  function Hex(s: seq<Nibble>): (r: string)
    ensures |r| == |s|
  {
    if |s| == 0 then "" else [HexChar(s[0])] + Hex(s[1..])
  }

  /** `BaseModel.id_str`: the canonical 8-4-4-4-12 form of the UUID. */
  function IdStr(u: Uuid): (r: string)
    ensures |r| == 36
    ensures r[8] == '-' && r[13] == '-' && r[18] == '-' && r[23] == '-'
  {
    Hex(u[..8]) + "-" + Hex(u[8..12]) + "-" + Hex(u[12..16]) + "-" + Hex(u[16..20]) + "-" + Hex(u[20..])
  }

  function DropHyphens(s: string): string {
    if |s| == 0 then "" else (if s[0] == '-' then "" else [s[0]]) + DropHyphens(s[1..])
  }

  function ParseHex(s: string): (r: Option<seq<Nibble>>)
    ensures r.Some? ==> |r.value| == |s|
  {
    if |s| == 0 then Some([])
    else match (HexValue(s[0]), ParseHex(s[1..]))
      case (Some(n), Some(rest)) => Some([n] + rest)
      case _ => None
  }

  /** The UUID a client-supplied id string names: hyphens are dropped and exactly
      32 hexadecimal digits must remain (what UUIDField accepts in a lookup). */
  function ParseUuid(s: string): (r: Option<Uuid>)
    ensures r.Some? ==> |DropHyphens(s)| == 32
  {
    var h := DropHyphens(s);
    if |h| != 32 then None
    else match ParseHex(h)
      case Some(n) => var u: Uuid := n; Some(u)
      case None => None
  }

  lemma HexAppend(a: seq<Nibble>, b: seq<Nibble>)
    ensures Hex(a + b) == Hex(a) + Hex(b)
  {
    if |a| > 0 {
      assert (a + b)[0] == a[0] && (a + b)[1..] == a[1..] + b;
      HexAppend(a[1..], b);
      assert Hex(a) == [HexChar(a[0])] + Hex(a[1..]);
    } else {
      assert a + b == b;
    }
  }

  lemma DropHyphensAppend(a: string, b: string)
    ensures DropHyphens(a + b) == DropHyphens(a) + DropHyphens(b)
  {
    if |a| > 0 {
      assert (a + b)[0] == a[0] && (a + b)[1..] == a[1..] + b;
      DropHyphensAppend(a[1..], b);
      assert DropHyphens(a) == (if a[0] == '-' then "" else [a[0]]) + DropHyphens(a[1..]);
    } else {
      assert a + b == b;
    }
  }

  lemma DropHyphensOfHex(s: seq<Nibble>)
    ensures DropHyphens(Hex(s)) == Hex(s)
  {
    if |s| > 0 {
      DropHyphensOfHex(s[1..]);
    }
  }

  lemma {:induction false} ParseHexOfHex(s: seq<Nibble>)
    ensures ParseHex(Hex(s)) == Some(s)
  {
    if |s| > 0 {
      ParseHexOfHex(s[1..]);
      assert Hex(s)[1..] == Hex(s[1..]);
      assert HexValue(HexChar(s[0])) == Some(s[0]);
      assert [s[0]] + s[1..] == s;
    }
  }

  /** Hyphens removed, the string form is the 32 digits in order. */
  lemma DigitsOfIdStr(u: Uuid)
    ensures DropHyphens(IdStr(u)) == Hex(u)
  {
    HyphensOfIdStr(u);
    HexOfGroups(u);
  }

  /** The five groups of digits, in order. */
  function Groups(u: Uuid): string {
    Hex(u[..8]) + (Hex(u[8..12]) + (Hex(u[12..16]) + (Hex(u[16..20]) + Hex(u[20..]))))
  }

  lemma HyphensOfIdStr(u: Uuid)
    ensures DropHyphens(IdStr(u)) == Groups(u)
  {
    var a, b, c, d, e := u[..8], u[8..12], u[12..16], u[16..20], u[20..];
    var r3 := Hex(d) + "-" + Hex(e);
    var r2 := Hex(c) + "-" + r3;
    var r1 := Hex(b) + "-" + r2;
    assert IdStr(u) == Hex(a) + "-" + r1;
    DropSegment(a, r1);
    DropSegment(b, r2);
    DropSegment(c, r3);
    DropSegment(d, Hex(e));
    DropHyphensOfHex(e);
  }

  lemma HexOfGroups(u: Uuid)
    ensures Hex(u) == Groups(u)
  {
    var a, b, c, d, e := u[..8], u[8..12], u[12..16], u[16..20], u[20..];
    assert u == a + (b + (c + (d + e)));
    HexAppend(d, e);
    HexAppend(c, d + e);
    HexAppend(b, c + (d + e));
    HexAppend(a, b + (c + (d + e)));
  }

  /** A segment of digits followed by a hyphen loses only the hyphen. */
  lemma DropSegment(x: seq<Nibble>, rest: string)
    ensures DropHyphens(Hex(x) + "-" + rest) == Hex(x) + DropHyphens(rest)
  {
    DropHyphensAppend(Hex(x) + "-", rest);
    DropHyphensAppend(Hex(x), "-");
    DropHyphensOfHex(x);
    assert DropHyphens("-") == "";
  }

  /** Reading back the string form gives the same UUID. */
  lemma {:induction false} IdStrRoundTrip(u: Uuid)
    ensures ParseUuid(IdStr(u)) == Some(u)
  {
    DigitsOfIdStr(u);
    ParseHexOfHex(u);
  }

  /** Distinct rows have distinct `id_str`. */
  lemma IdStrInjective(a: Uuid, b: Uuid)
    ensures IdStr(a) == IdStr(b) ==> a == b
  {
    IdStrRoundTrip(a);
    IdStrRoundTrip(b);
  }

  // ---------------------------------------------------------------------
  // OrderField.pre_save

  /** A row as OrderField sees it: the values of its scope fields and its order. */
  datatype OrderedRow = OrderedRow(scope: map<string, Uuid>, order: nat)

  function FieldValue(scope: map<string, Uuid>, f: string): Option<Uuid> {
    if f in scope then Some(scope[f]) else None
  }

  /** Rows that agree with the instance on every `for_fields` entry; with no
      `for_fields` every row of the table is a sibling. */
  predicate Sibling(forFields: seq<string>, instance: map<string, Uuid>, row: OrderedRow) {
    forall i :: 0 <= i < |forFields| ==> FieldValue(row.scope, forFields[i]) == FieldValue(instance, forFields[i])
  }

  /** `qs.latest("order").order`, or None when the scope is empty. */
  function MaxOrder(forFields: seq<string>, instance: map<string, Uuid>, table: seq<OrderedRow>): (r: Option<nat>)
    ensures r.None? <==> forall k :: 0 <= k < |table| ==> !Sibling(forFields, instance, table[k])
    ensures r.Some? ==> forall k :: 0 <= k < |table| && Sibling(forFields, instance, table[k]) ==> table[k].order <= r.value
    ensures r.Some? ==> exists k :: 0 <= k < |table| && Sibling(forFields, instance, table[k]) && table[k].order == r.value
  {
    if |table| == 0 then None
    else
      var rest := MaxOrder(forFields, instance, table[1..]);
      assert forall k :: 1 <= k < |table| ==> table[k] == table[1..][k - 1];
      if !Sibling(forFields, instance, table[0]) then rest
      else match rest
        case None => Some(table[0].order)
        case Some(m) => if table[0].order >= m then Some(table[0].order) else Some(m)
  }

  /** `OrderField.pre_save`: the order value the row is saved with. */
  function PreSave(current: Option<nat>, forFields: seq<string>, instance: map<string, Uuid>, table: seq<OrderedRow>): (r: nat)
    ensures current.Some? ==> r == current.value
    ensures current.None? ==> forall k :: 0 <= k < |table| && Sibling(forFields, instance, table[k]) ==> table[k].order < r
    ensures current.None? ==>
      (r == 0 <==> forall k :: 0 <= k < |table| ==> !Sibling(forFields, instance, table[k]))
    ensures current.None? && r > 0 ==>
      exists k :: 0 <= k < |table| && Sibling(forFields, instance, table[k]) && table[k].order + 1 == r
  {
    match current
    case Some(o) => o
    case None =>
      match MaxOrder(forFields, instance, table)
      case None => 0
      case Some(m) => m + 1
  }

  /** Rows outside the instance's scope never influence the number it gets. */
  lemma {:induction false} PreSaveIgnoresOtherScopes(current: Option<nat>, forFields: seq<string>, instance: map<string, Uuid>,
                                   table: seq<OrderedRow>, other: OrderedRow)
    requires !Sibling(forFields, instance, other)
    ensures PreSave(current, forFields, instance, table + [other]) == PreSave(current, forFields, instance, table)
  {
    MaxOrderIgnoresOtherScopes(forFields, instance, table, other);
  }

  lemma {:induction false} MaxOrderIgnoresOtherScopes(forFields: seq<string>, instance: map<string, Uuid>,
                                   table: seq<OrderedRow>, other: OrderedRow)
    requires !Sibling(forFields, instance, other)
    ensures MaxOrder(forFields, instance, table + [other]) == MaxOrder(forFields, instance, table)
  {
    if |table| > 0 {
      var t := table + [other];
      assert t[0] == table[0] && t[1..] == table[1..] + [other];
      MaxOrderIgnoresOtherScopes(forFields, instance, table[1..], other);
    } else {
      assert (table + [other])[1..] == [];
    }
  }
}

=== FILE: commerce.dfy ===
/**
  The purchase flow over the database (backend/core/service.py and the
  store-level methods of backend/core/models/sales.py and user.py): the
  user's cart and its coupon, turning the cart into an order with its items
  and payment transaction, and verifying a transaction, which marks the order
  paid and enrols its buyer.

  An operation that can fail half-way returns the database as the failure
  left it next to the outcome; `Order.create_order` is atomic, the rest is not.
 */
module Commerce {
  import opened Common
  import opened Base
  import opened UserModel
  import opened CourseModel
  import opened Sales
  import opened Db

  // ---------------------------------------------------------------------
  // The cart

  /** `user.cart`, which raises when the user has no cart. */
  function CartOf(db: Db, user: Uuid): (r: Result<Cart>)
    ensures r.Ok? ==> r.value in db.carts && r.value.user == user
    ensures r.Err? <==> forall c :: c in db.carts ==> c.user != user
    ensures r.Err? ==> r.error == DoesNotExist("Cart")
  {
    match First(db.carts, (c: Cart) => c.user == user)
    case None => Err(DoesNotExist("Cart"))
    case Some(c) => Ok(c)
  }

  /** `CartItem.objects.filter(cart=cart)`. */
  function ItemsOf(db: Db, cart: Uuid): (r: seq<CartItem>)
    ensures forall i :: i in r <==> i in db.cartItems && i.cart == cart
  {
    Filter(db.cartItems, (i: CartItem) => i.cart == cart)
  }

  /** `Cart.is_empty`. */
  predicate IsEmpty(db: Db, cart: Uuid) {
    |ItemsOf(db, cart)| == 0
  }

  lemma IsEmptyMeansNoItem(db: Db, cart: Uuid)
    ensures IsEmpty(db, cart) <==> forall i :: i in db.cartItems ==> i.cart != cart
  {
    if !IsEmpty(db, cart) {
      assert ItemsOf(db, cart)[0] in ItemsOf(db, cart);
    }
  }

  /** A write to the carts table that leaves every row of another cart as it was. */
  predicate OtherCartsKept(before: seq<Cart>, after: seq<Cart>, cart: Uuid) {
    |after| == |before| && forall k :: 0 <= k < |before| && before[k].id != cart ==> after[k] == before[k]
  }

  /** The carts table after the object `cart` was changed to `written` in memory and saved
      only if it changed: the cart's rows then hold `written`, and every other row is kept. */
  predicate SavedIfChanged(before: seq<Cart>, after: seq<Cart>, cart: Cart, written: Cart) {
    |after| == |before|
    && forall k :: 0 <= k < |before| ==>
         after[k] == (if before[k].id == cart.id && written != cart then written else before[k])
  }

  /** The first row `p` holds of, after such a save, is the saved object when `p` held of
      the object before and still holds of it. */
  lemma {:induction false} FirstAfterSave(before: seq<Cart>, after: seq<Cart>, cart: Cart, written: Cart, p: Cart -> bool)
    requires SavedIfChanged(before, after, cart, written)
    requires First(before, p) == Some(cart) && p(written)
    ensures First(after, p) == Some(written)
  {
    assert |before| > 0;
    if !p(before[0]) && !p(after[0]) {
      assert SavedIfChanged(before[1..], after[1..], cart, written) by {
        forall k | 0 <= k < |before[1..]|
          ensures after[1..][k] == (if before[1..][k].id == cart.id && written != cart then written else before[1..][k])
        {
          assert before[1..][k] == before[k + 1] && after[1..][k] == after[k + 1];
        }
      }
      FirstAfterSave(before[1..], after[1..], cart, written, p);
    }
  }

  /** Writing a cart's coupon foreign key (`cart.coupon = ...; cart.save()`). */
  function SetCartCoupon(db: Db, cart: Uuid, coupon: Option<Uuid>): Db {
    db.(carts := Update(db.carts, (c: Cart) => c.id == cart, (c: Cart) => c.(coupon := coupon)))
  }

  /** After the write, the user's cart is the same cart with the new coupon. */
  lemma CartOfAfterSetCoupon(db: Db, user: Uuid, coupon: Option<Uuid>)
    requires CartOf(db, user).Ok?
    ensures CartOf(SetCartCoupon(db, CartOf(db, user).value.id, coupon), user) ==
            Ok(CartOf(db, user).value.(coupon := coupon))
  {
    var cart := CartOf(db, user).value;
    FirstAfterUpdate(db.carts, (c: Cart) => c.id == cart.id, (c: Cart) => c.(coupon := coupon), (c: Cart) => c.user == user);
  }

  /** `CoreService.apply_coupon`: an invalid coupon is ignored before the cart is read;
      a valid one becomes the cart's coupon. Only the carts table changes. */
  function ApplyCoupon(db: Db, user: Uuid, coupon: Coupon, now: DateTime): (r: Result<Db>)
    ensures !IsValid(coupon, now) ==> r == Ok(db)
    ensures IsValid(coupon, now) ==> (r.Err? <==> CartOf(db, user).Err?)
    ensures r.Ok? && IsValid(coupon, now) ==>
      r.value == db.(carts := r.value.carts)
      && OtherCartsKept(db.carts, r.value.carts, CartOf(db, user).value.id)
      && CartOf(r.value, user) == Ok(CartOf(db, user).value.(coupon := Some(coupon.id)))
  {
    if !IsValid(coupon, now) then Ok(db)
    else match CartOf(db, user)
      case Err(e) => Err(e)
      case Ok(cart) =>
        CartOfAfterSetCoupon(db, user, Some(coupon.id));
        Ok(SetCartCoupon(db, cart.id, Some(coupon.id)))
  }

  /** `CoreService.remove_coupon`: the cart is left without a coupon. */
  function RemoveCoupon(db: Db, user: Uuid): (r: Result<Db>)
    ensures r.Err? <==> CartOf(db, user).Err?
    ensures r.Ok? ==>
      r.value == db.(carts := r.value.carts)
      && OtherCartsKept(db.carts, r.value.carts, CartOf(db, user).value.id)
      && CartOf(r.value, user) == Ok(CartOf(db, user).value.(coupon := None))
  {
    match CartOf(db, user)
    case Err(e) => Err(e)
    case Ok(cart) =>
      CartOfAfterSetCoupon(db, user, None);
      Ok(SetCartCoupon(db, cart.id, None))
  }

  /** Removing an applied coupon leaves the cart as if no coupon had ever been applied. */
  lemma ApplyThenRemove(db: Db, user: Uuid, coupon: Coupon, now: DateTime)
    requires IsValid(coupon, now) && ApplyCoupon(db, user, coupon, now).Ok?
    ensures RemoveCoupon(ApplyCoupon(db, user, coupon, now).value, user).Ok?
    ensures CartOf(RemoveCoupon(ApplyCoupon(db, user, coupon, now).value, user).value, user)
         == CartOf(RemoveCoupon(db, user).value, user)
  {
  }

  predicate Matches(i: CartItem, cart: Uuid, course: Uuid) {
    i.cart == cart && i.course == course
  }

  /** At most one item per (cart, course), which `add_to_cart` maintains. */
  predicate AtMostOncePerCourse(items: seq<CartItem>) {
    forall a, b :: 0 <= a < b < |items| ==> !(items[a].cart == items[b].cart && items[a].course == items[b].course)
  }

  /** The cart items `get_or_create` finds for (cart, course). */
  function PairItems(db: Db, cart: Uuid, course: Uuid): (r: seq<CartItem>)
    ensures forall i :: i in r <==> i in db.cartItems && Matches(i, cart, course)
  {
    Filter(db.cartItems, (i: CartItem) => Matches(i, cart, course))
  }

  /** `CoreService.add_to_cart`: `get_or_create` on (cart, course). A second row for the
      pair makes the `get` raise. */
  function AddToCart(db: Db, user: Uuid, course: Uuid, now: DateTime): (r: Result<Db>)
    ensures CartOf(db, user).Err? ==> r == Err(DoesNotExist("Cart"))
    ensures r.Ok? ==> r.value == db.(cartItems := r.value.cartItems)
    ensures r.Ok? ==> exists i :: i in r.value.cartItems && Matches(i, CartOf(db, user).value.id, course)
    ensures CartOf(db, user).Ok? && |PairItems(db, CartOf(db, user).value.id, course)| == 1 ==> r == Ok(db)
    ensures CartOf(db, user).Ok? && |PairItems(db, CartOf(db, user).value.id, course)| > 1 ==>
      r == Err(MultipleObjectsReturned("CartItem"))
    ensures CartOf(db, user).Ok? && (forall i :: i in db.cartItems ==> !Matches(i, CartOf(db, user).value.id, course)) ==>
      r == Ok(db.(cartItems := db.cartItems + [CartItem(CartOf(db, user).value.id, course, now)]))
  {
    match CartOf(db, user)
    case Err(e) => Err(e)
    case Ok(cart) =>
      var found := PairItems(db, cart.id, course);
      assert |found| > 0 ==> found[0] in found;
      if |found| == 0 then
        var item := CartItem(cart.id, course, now);
        assert item in db.cartItems + [item];
        Ok(db.(cartItems := db.cartItems + [item]))
      else if |found| == 1 then Ok(db)
      else Err(MultipleObjectsReturned("CartItem"))
  }

  /** Under the one-item-per-course invariant a pair is found at most once. */
  lemma {:induction false} AtMostOneMatch(items: seq<CartItem>, cart: Uuid, course: Uuid)
    requires AtMostOncePerCourse(items)
    ensures |Filter(items, (i: CartItem) => Matches(i, cart, course))| <= 1
  {
    if |items| > 0 {
      var rest := items[1..];
      assert AtMostOncePerCourse(rest) by {
        forall a, b | 0 <= a < b < |rest|
          ensures !(rest[a].cart == rest[b].cart && rest[a].course == rest[b].course)
        {
          assert rest[a] == items[a + 1] && rest[b] == items[b + 1];
        }
      }
      AtMostOneMatch(rest, cart, course);
      if Matches(items[0], cart, course) {
        forall x | x in rest
          ensures !Matches(x, cart, course)
        {
          var k :| 0 <= k < |rest| && rest[k] == x;
          assert items[k + 1] == x;
        }
        FilterNone(rest, (i: CartItem) => Matches(i, cart, course));
      }
    }
  }

  /** Adding keeps at most one item per course, never fails once the cart exists, and
      adding the same course again leaves the database unchanged. */
  lemma AddToCartIdempotent(db: Db, user: Uuid, course: Uuid, now: DateTime, later: DateTime)
    requires AtMostOncePerCourse(db.cartItems) && CartOf(db, user).Ok?
    ensures AddToCart(db, user, course, now).Ok?
    ensures AtMostOncePerCourse(AddToCart(db, user, course, now).value.cartItems)
    ensures AddToCart(AddToCart(db, user, course, now).value, user, course, later) == AddToCart(db, user, course, now)
  {
    var cart := CartOf(db, user).value;
    AtMostOneMatch(db.cartItems, cart.id, course);
    var r := AddToCart(db, user, course, now).value;
    if forall i :: i in db.cartItems ==> !Matches(i, cart.id, course) {
      var s := r.cartItems;
      forall a, b | 0 <= a < b < |s|
        ensures !(s[a].cart == s[b].cart && s[a].course == s[b].course)
      {
        if b == |db.cartItems| {
          assert s[a] == db.cartItems[a] && s[a] in db.cartItems;
        } else {
          assert s[a] == db.cartItems[a] && s[b] == db.cartItems[b];
        }
      }
    }
    assert CartOf(r, user) == CartOf(db, user);
    AtMostOneMatch(r.cartItems, cart.id, course);
  }

  /** `CoreService.remove_from_cart`: every item of that course in the user's cart goes. */
  function RemoveFromCart(db: Db, user: Uuid, course: Uuid): (r: Result<Db>)
    ensures r.Err? <==> CartOf(db, user).Err?
    ensures r.Ok? ==> r.value == db.(cartItems := r.value.cartItems)
    ensures r.Ok? ==> forall i :: i in r.value.cartItems <==>
      i in db.cartItems && !Matches(i, CartOf(db, user).value.id, course)
    ensures r.Ok? && (forall i :: i in db.cartItems ==> !Matches(i, CartOf(db, user).value.id, course)) ==>
      r.value == db
  {
    match CartOf(db, user)
    case Err(e) => Err(e)
    case Ok(cart) =>
      var keep := (i: CartItem) => !Matches(i, cart.id, course);
      FilterAll(db.cartItems, keep);
      Ok(db.(cartItems := Filter(db.cartItems, keep)))
  }

  /** Adding a course the cart does not hold and removing it again gives back the store
      as it was. */
  lemma AddThenRemoveRestores(db: Db, user: Uuid, course: Uuid, now: DateTime)
    requires CartOf(db, user).Ok?
    requires forall i :: i in db.cartItems ==> !Matches(i, CartOf(db, user).value.id, course)
    ensures AddToCart(db, user, course, now).Ok?
    ensures RemoveFromCart(AddToCart(db, user, course, now).value, user, course) == Ok(db)
  {
    var cart := CartOf(db, user).value;
    var item := CartItem(cart.id, course, now);
    var db1 := AddToCart(db, user, course, now).value;
    assert db1.carts == db.carts;
    assert CartOf(db1, user) == CartOf(db, user);
    var keep := (i: CartItem) => !Matches(i, cart.id, course);
    FilterAppend(db.cartItems, [item], keep);
    FilterAll(db.cartItems, keep);
    assert Filter([item], keep) == [];
    assert Filter(db1.cartItems, keep) == db.cartItems;
  }

  /** `Cart.clear`: the items of this cart go, every other item stays. */
  function ClearCart(db: Db, cart: Uuid): (r: Db)
    ensures r == db.(cartItems := r.cartItems)
    ensures IsEmpty(r, cart)
    ensures forall i :: i in r.cartItems <==> i in db.cartItems && i.cart != cart
  {
    var r := db.(cartItems := Filter(db.cartItems, (i: CartItem) => i.cart != cart));
    IsEmptyMeansNoItem(r, cart);
    r
  }

  // ---------------------------------------------------------------------
  // Orders

  /** The order `CartItem`s come in: `-created_at`, newest first. */
  function NewestFirst(items: seq<CartItem>): (r: seq<CartItem>)
    ensures multiset(r) == multiset(items) && |r| == |items|
    ensures forall a, b :: 0 <= a < b < |r| ==> Ord(r[b].createdAt) <= Ord(r[a].createdAt)
  {
    SortBy(items, (i: CartItem) => -Ord(i.createdAt))
  }

  /** The coupon object after some items were priced: the same coupon with no more uses. */
  predicate SpentFrom(before: Option<Coupon>, after: Option<Coupon>) {
    && (before.None? ==> after.None?)
    && (before.Some? ==>
         && after.Some? && after.value.(uses := before.value.uses) == before.value
         && (before.value.uses.None? ==> after.value.uses.None?)
         && (before.value.uses.Some? ==> after.value.uses.Some? && after.value.uses.value <= before.value.uses.value))
  }

  /** Pricing an item leaves the coupon object as it was, or with fewer uses. */
  lemma PricingSpends(live: Option<Coupon>, course: Course, now: DateTime)
    ensures SpentFrom(live, SaveItemPrice(None, live, course, now).1)
  {
  }

  lemma SpentFromTrans(a: Option<Coupon>, b: Option<Coupon>, c: Option<Coupon>)
    requires SpentFrom(a, b) && SpentFrom(b, c)
    ensures SpentFrom(a, c)
  {
  }

  /** The `OrderItem.objects.create(order=self, course=item.course)` calls of
      `Order.create_order`, in iteration order, all sharing the order's coupon object. */
  function MakeItems(order: Uuid, items: seq<CartItem>, courses: seq<Course>, live: Option<Coupon>, now: DateTime)
    : (r: Result<(seq<OrderItem>, Option<Coupon>)>)
    ensures r.Ok? <==> AllCoursesKnown(items, courses)
    ensures r.Err? ==> r.error == DoesNotExist("Course")
    ensures r.Ok? ==> |r.value.0| == |items|
    ensures r.Ok? ==> forall k :: 0 <= k < |items| ==>
      r.value.0[k].order == order && r.value.0[k].course == items[k].course && r.value.0[k].createdAt == now
    ensures r.Ok? ==> SpentFrom(live, r.value.1)
  {
    if |items| == 0 then Ok(([], live))
    else
      AllCoursesKnownSplit(items, courses);
      match First(courses, (c: Course) => c.id == items[0].course)
      case None => Err(DoesNotExist("Course"))
      case Some(course) =>
        var (price, live1) := SaveItemPrice(None, live, course, now);
        match MakeItems(order, items[1..], courses, live1, now)
        case Err(e) => Err(e)
        case Ok((rows, live2)) =>
          PricingSpends(live, course, now);
          SpentFromTrans(live, live1, live2);
          RowsShift(order, items, OrderItem(order, course.id, price, now), rows, now);
          Ok(([OrderItem(order, course.id, price, now)] + rows, live2))
  }

  predicate CourseIdIn(courses: seq<Course>, id: Uuid) {
    exists c :: c in courses && c.id == id
  }

  predicate AllCoursesKnown(items: seq<CartItem>, courses: seq<Course>) {
    forall k :: 0 <= k < |items| ==> CourseIdIn(courses, items[k].course)
  }

  /** Every item's course is known exactly when the first one's is and the rest's are. */
  lemma AllCoursesKnownSplit(items: seq<CartItem>, courses: seq<Course>)
    requires |items| > 0
    ensures AllCoursesKnown(items, courses) <==>
      CourseIdIn(courses, items[0].course) && AllCoursesKnown(items[1..], courses)
  {
    assert forall k :: 1 <= k < |items| ==> items[k] == items[1..][k - 1];
  }

  /** The rows of the remaining items, after the first item's row. */
  lemma RowsShift(order: Uuid, items: seq<CartItem>, first: OrderItem, rows: seq<OrderItem>, now: DateTime)
    requires |items| > 0 && |rows| == |items| - 1
    requires first.order == order && first.course == items[0].course && first.createdAt == now
    requires forall k :: 0 <= k < |items[1..]| ==>
      rows[k].order == order && rows[k].course == items[1..][k].course && rows[k].createdAt == now
    ensures forall k :: 0 <= k < |items| ==>
      ([first] + rows)[k].order == order && ([first] + rows)[k].course == items[k].course && ([first] + rows)[k].createdAt == now
  {
    forall k | 0 <= k < |items|
      ensures ([first] + rows)[k].order == order && ([first] + rows)[k].course == items[k].course && ([first] + rows)[k].createdAt == now
    {
      if k > 0 { assert ([first] + rows)[k] == rows[k - 1] && items[k] == items[1..][k - 1]; }
    }
  }

  /** With no coupon or an unlimited one, every item is charged exactly what the cart
      showed for it: checkout agrees with `CartItem.discounted_price`. */
  lemma {:induction false} UnlimitedCouponPricesAsCart(order: Uuid, items: seq<CartItem>, courses: seq<Course>,
                                                    live: Option<Coupon>, now: DateTime)
    requires live.None? || live.value.uses.None?
    requires MakeItems(order, items, courses, live, now).Ok?
    ensures forall k :: 0 <= k < |items| ==>
      MakeItems(order, items, courses, live, now).value.0[k].price
        == CartItemPrice(live, First(courses, (c: Course) => c.id == items[k].course).value, now)
  {
    if |items| > 0 {
      var course := First(courses, (c: Course) => c.id == items[0].course).value;
      var live1 := SaveItemPrice(None, live, course, now).1;
      assert live1 == live;
      UnlimitedCouponPricesAsCart(order, items[1..], courses, live1, now);
      var rows := MakeItems(order, items, courses, live, now).value.0;
      forall k | 1 <= k < |items|
        ensures rows[k].price == CartItemPrice(live, First(courses, (c: Course) => c.id == items[k].course).value, now)
      {
        assert items[k] == items[1..][k - 1];
      }
    }
  }

  /** `Order.total_price`: the sum of the order's item prices, None with no item. */
  function TotalPrice(items: seq<OrderItem>, order: Uuid): (r: Option<real>)
    ensures r.None? <==> forall i :: i in items ==> i.order != order
  {
    var mine := Filter(items, OfOrder(order));
    if |mine| == 0 then None
    else
      assert mine[0] in mine;
      Some(SumBy(mine, PriceOf))
  }

  function OfOrder(order: Uuid): OrderItem -> bool {
    (i: OrderItem) => i.order == order
  }

  function PriceOf(i: OrderItem): real {
    i.price
  }

  /** Writing a coupon object back to its row (`coupon.save()`). */
  function SaveCoupon(db: Db, c: Coupon): (r: Db)
    ensures r == db.(coupons := r.coupons)
    ensures CouponById(db, c.id).Some? ==> CouponById(r, c.id) == Some(c)
  {
    var r := db.(coupons := Update(db.coupons, (x: Coupon) => x.id == c.id, (x: Coupon) => c));
    FirstAfterUpdate(db.coupons, (x: Coupon) => x.id == c.id, (x: Coupon) => c, (x: Coupon) => x.id == c.id);
    r
  }

  /** The items `Order.create_order` creates for `cart`, newest cart item first, and the
      order's coupon object once they are priced. */
  function PlannedItems(db: Db, order: Order, cart: Cart, now: DateTime): Result<(seq<OrderItem>, Option<Coupon>)> {
    MakeItems(order.id, NewestFirst(ItemsOf(db, cart.id)), db.courses, CouponOf(db, order.coupon), now)
  }

  /** `Order.create_order` (atomic): one item per cart item, then the cart's coupon is
      revalidated against the shared coupon object, then the cart is emptied. As written
      (`persist` false) the coupon object's redemptions are never saved; with `persist`
      the coupon object is saved, which is the intended behaviour. */
  function PlaceItems(db: Db, order: Order, cart: Cart, now: DateTime, persist: bool): (r: Result<Db>)
    ensures r.Ok? <==> PlannedItems(db, order, cart, now).Ok?
    ensures r.Err? ==> r.error == DoesNotExist("Course")
    ensures r.Ok? ==> r.value.orderItems == db.orderItems + PlannedItems(db, order, cart, now).value.0
    ensures r.Ok? ==> r.value.orders == db.orders && r.value.transactions == db.transactions
                      && r.value.students == db.students
    ensures r.Ok? && !persist ==> r.value.coupons == db.coupons
    ensures r.Ok? && persist && PlannedItems(db, order, cart, now).value.1.Some? ==>
      r.value.coupons == SaveCoupon(db, PlannedItems(db, order, cart, now).value.1.value).coupons
    ensures r.Ok? ==> IsEmpty(r.value, cart.id)
    ensures r.Ok? ==> r.value == db.(orderItems := r.value.orderItems, carts := r.value.carts,
                                     cartItems := r.value.cartItems, coupons := r.value.coupons)
    ensures r.Ok? ==> SavedIfChanged(db.carts, r.value.carts, cart, RevalidateCoupon(cart, PlannedItems(db, order, cart, now).value.1, now))
  {
    match PlannedItems(db, order, cart, now)
    case Err(e) => Err(e)
    case Ok((rows, after)) =>
      var db1 := db.(orderItems := db.orderItems + rows);
      var revalidated := RevalidateCoupon(cart, after, now);
      var db2 := if revalidated == cart then db1
                 else db1.(carts := Update(db1.carts, (c: Cart) => c.id == cart.id, (c: Cart) => revalidated));
      var db3 := if persist && after.Some? then SaveCoupon(db2, after.value) else db2;
      Ok(ClearCart(db3, cart.id))
  }

  /** After the items of the user's cart are placed, the user's cart is the cart as
      `revalidate_coupon` left it. */
  lemma CartOfAfterPlaceItems(db: Db, order: Order, cart: Cart, user: Uuid, now: DateTime, persist: bool)
    requires CartOf(db, user) == Ok(cart)
    requires PlaceItems(db, order, cart, now, persist).Ok?
    ensures CartOf(PlaceItems(db, order, cart, now, persist).value, user)
         == Ok(RevalidateCoupon(cart, PlannedItems(db, order, cart, now).value.1, now))
  {
    var after := PlaceItems(db, order, cart, now, persist).value;
    var written := RevalidateCoupon(cart, PlannedItems(db, order, cart, now).value.1, now);
    FirstAfterSave(db.carts, after.carts, cart, written, (c: Cart) => c.user == user);
  }

  /** Draws that contain a free order ref and a free transaction ref. */
  predicate RefsAvailable(db: Db, orderDraws: seq<string>, txDraws: seq<string>) {
    DrawRef("", orderDraws, OrderRefs(db)).Some? && DrawRef("", txDraws, TxRefs(db)).Some?
  }

  /** `CoreService.create_order`, with the coupon object saved or not (see PlaceItems).
      The order's and the transaction's `save` each draw a ref from `orderDraws` and
      `txDraws` (see DrawRef); the loops in the source retry until a free ref comes up, so
      callers supply draws that contain one. */
  function CreateOrderWith(db: Db, user: Uuid, payment: PaymentMethod, now: DateTime,
                           orderId: Uuid, orderDraws: seq<string>, txDraws: seq<string>, persist: bool)
    : (r: (Db, Result<(Order, Transaction)>))
    requires RefsAvailable(db, orderDraws, txDraws)
    ensures r.1.Ok? ==> r.1.value.0.ref != "" && r.1.value.0.ref !in OrderRefs(db) && r.1.value.0.ref in orderDraws
    ensures r.1.Ok? ==> r.1.value.1.ref != "" && r.1.value.1.ref !in TxRefs(db) && r.1.value.1.ref in txDraws
    ensures CartOf(db, user).Err? ==> r == (db, Err(DoesNotExist("Cart")))
    ensures CartOf(db, user).Ok? && IsEmpty(db, CartOf(db, user).value.id) ==> r == (db, Err(CartIsEmpty))
    ensures r.1 == Err(CartIsEmpty) ==> r.0 == db
    ensures r.1.Ok? ==> CartOf(db, user).Ok? && !IsEmpty(db, CartOf(db, user).value.id)
    ensures r.1.Ok? ==> r.1.value.0 == Order(orderId, user, r.1.value.0.ref, CartOf(db, user).value.coupon, New, now)
                        && r.0.orders == db.orders + [r.1.value.0]
    ensures r.1.Ok? ==> TotalPrice(r.0.orderItems, orderId) == Some(r.1.value.1.amount)
                        && r.1.value.1 == Transaction(r.1.value.1.ref, ForOrder(orderId), r.1.value.1.amount, Initialized, payment, OrderPay)
                        && r.0.transactions == db.transactions + [r.1.value.1]
    ensures r.1.Ok? ==> IsEmpty(r.0, CartOf(db, user).value.id) && r.0.students == db.students
    ensures r.1.Ok? ==> r.0 == db.(orders := r.0.orders, orderItems := r.0.orderItems, carts := r.0.carts,
                                   cartItems := r.0.cartItems, coupons := r.0.coupons, transactions := r.0.transactions)
    ensures r.1.Ok? ==>
      PlaceItems(db.(orders := db.orders + [r.1.value.0]), r.1.value.0, CartOf(db, user).value, now, persist)
        == Ok(r.0.(transactions := db.transactions))
  {
    match CartOf(db, user)
    case Err(e) => (db, Err(e))
    case Ok(cart) =>
      if IsEmpty(db, cart.id) then (db, Err(CartIsEmpty))
      else
        var order := Order(orderId, user, DrawRef("", orderDraws, OrderRefs(db)).value, cart.coupon, New, now);
        var db1 := db.(orders := db.orders + [order]);
        match PlaceItems(db1, order, cart, now, persist)
        case Err(e) => (db1, Err(e))
        case Ok(db2) =>
          match TotalPrice(db2.orderItems, orderId)
          case None => (db2, Err(IntegrityError("amount")))
          case Some(total) =>
            assert TxRefs(db2) == TxRefs(db);
            var tx := Transaction(DrawRef("", txDraws, TxRefs(db2)).value, ForOrder(orderId), total, Initialized, payment, OrderPay);
            (db2.(transactions := db2.transactions + [tx]), Ok((order, tx)))
  }

  /** After a checkout the user's cart keeps its coupon exactly when the order's coupon
      object is still valid once the items are priced (`cart.revalidate_coupon()`). */
  lemma CheckoutRevalidatesCartCoupon(db: Db, user: Uuid, payment: PaymentMethod, now: DateTime,
                                      orderId: Uuid, orderDraws: seq<string>, txDraws: seq<string>, persist: bool)
    requires RefsAvailable(db, orderDraws, txDraws)
    requires CreateOrderWith(db, user, payment, now, orderId, orderDraws, txDraws, persist).1.Ok?
    ensures var r := CreateOrderWith(db, user, payment, now, orderId, orderDraws, txDraws, persist);
      var cart := CartOf(db, user).value;
      var priced := PlannedItems(db, r.1.value.0, cart, now).value.1;
      CartOf(r.0, user) == Ok(RevalidateCoupon(cart, priced, now))
      && (CartOf(r.0, user).value.coupon.None? <==> cart.coupon.None? || (priced.Some? && !IsValid(priced.value, now)))
  {
    var r := CreateOrderWith(db, user, payment, now, orderId, orderDraws, txDraws, persist);
    var cart := CartOf(db, user).value;
    var order := r.1.value.0;
    var db1 := db.(orders := db.orders + [order]);
    assert CartOf(db1, user) == Ok(cart);
    CartOfAfterPlaceItems(db1, order, cart, user, now, persist);
    assert PlannedItems(db1, order, cart, now) == PlannedItems(db, order, cart, now);
  }

  /** `CoreService.create_order` as written: the coupons table is never written, so the
      uses a checkout redeems are not recorded. */
  function CreateOrder(db: Db, user: Uuid, payment: PaymentMethod, now: DateTime,
                       orderId: Uuid, orderDraws: seq<string>, txDraws: seq<string>): (r: (Db, Result<(Order, Transaction)>))
    requires RefsAvailable(db, orderDraws, txDraws)
    ensures r.1.Ok? ==> r.0.coupons == db.coupons
    ensures r.1 == Err(CartIsEmpty) ==> r.0 == db
  {
    CreateOrderWith(db, user, payment, now, orderId, orderDraws, txDraws, false)
  }

  /** `CoreService.create_order` with the redeemed coupon saved. */
  function CreateOrderSavingCoupon(db: Db, user: Uuid, payment: PaymentMethod, now: DateTime,
                                   orderId: Uuid, orderDraws: seq<string>, txDraws: seq<string>): (r: (Db, Result<(Order, Transaction)>))
    requires RefsAvailable(db, orderDraws, txDraws)
    ensures r.1 == Err(CartIsEmpty) ==> r.0 == db
  {
    CreateOrderWith(db, user, payment, now, orderId, orderDraws, txDraws, true)
  }

  /** Saving the coupon object is the only difference between the two checkouts: the
      outcome is the same and so is every table but the coupons. */
  lemma PlaceItemsSavingOnlyCoupons(db: Db, order: Order, cart: Cart, now: DateTime)
    ensures PlaceItems(db, order, cart, now, false).Ok? == PlaceItems(db, order, cart, now, true).Ok?
    ensures PlaceItems(db, order, cart, now, false).Ok? ==>
      PlaceItems(db, order, cart, now, false).value
        == PlaceItems(db, order, cart, now, true).value.(coupons := db.coupons)
  {
  }

  /** The checkout as written (`persist` false, CreateOrder) differs from one that saves the
      coupon in the coupons table alone: same outcome, same order, transaction, items, cart
      and enrolments. */
  lemma CheckoutAsWrittenOnlyMissesCoupons(db: Db, user: Uuid, payment: PaymentMethod, now: DateTime,
                                           orderId: Uuid, orderDraws: seq<string>, txDraws: seq<string>)
    requires RefsAvailable(db, orderDraws, txDraws)
    ensures var a := CreateOrderWith(db, user, payment, now, orderId, orderDraws, txDraws, false);
      var b := CreateOrderWith(db, user, payment, now, orderId, orderDraws, txDraws, true);
      a.1 == b.1 && (a.1.Ok? ==> a.0 == b.0.(coupons := db.coupons))
  {
    var a := CreateOrderWith(db, user, payment, now, orderId, orderDraws, txDraws, false);
    var b := CreateOrderWith(db, user, payment, now, orderId, orderDraws, txDraws, true);
    if CartOf(db, user).Ok? && !IsEmpty(db, CartOf(db, user).value.id) {
      var cart := CartOf(db, user).value;
      var order := Order(orderId, user, DrawRef("", orderDraws, OrderRefs(db)).value, cart.coupon, New, now);
      var db1 := db.(orders := db.orders + [order]);
      PlaceItemsSavingOnlyCoupons(db1, order, cart, now);
      var pa := PlaceItems(db1, order, cart, now, false);
      var pb := PlaceItems(db1, order, cart, now, true);
      if pa.Ok? {
        assert pa.value.orderItems == pb.value.orderItems && TxRefs(pa.value) == TxRefs(pb.value);
        if TotalPrice(pa.value.orderItems, orderId).Some? {
          var total := TotalPrice(pa.value.orderItems, orderId).value;
          var tx := Transaction(DrawRef("", txDraws, TxRefs(pa.value)).value, ForOrder(orderId), total, Initialized, payment, OrderPay);
          assert a.1 == Ok((order, tx));
          assert b.1 == Ok((order, tx));
          assert a.0 == pa.value.(transactions := pa.value.transactions + [tx]);
          assert b.0 == pb.value.(transactions := pb.value.transactions + [tx]);
        }
      }
    }
  }

  // ---------------------------------------------------------------------
  // What a checkout produces

  /** `rows` are the order items created for `items`: one each, for the same course, all
      belonging to `order` and created at `now`. */
  predicate OneItemPerCartItem(rows: seq<OrderItem>, items: seq<CartItem>, order: Uuid, now: DateTime) {
    && |rows| == |items|
    && (forall k :: 0 <= k < |rows| ==> rows[k].order == order && rows[k].createdAt == now)
    && RowCourses(rows) == CartCourses(items)
  }

  /** Placing the items of a cart creates exactly one order item per cart item, for the
      same course; they are the order's only items. */
  lemma PlaceItemsOnePerCartItem(db: Db, order: Order, cart: Cart, now: DateTime, persist: bool)
    requires forall i :: i in db.orderItems ==> i.order != order.id
    requires PlaceItems(db, order, cart, now, persist).Ok?
    ensures var after := PlaceItems(db, order, cart, now, persist).value.orderItems;
      && |db.orderItems| <= |after| && after[..|db.orderItems|] == db.orderItems
      && OneItemPerCartItem(after[|db.orderItems|..], ItemsOf(db, cart.id), order.id, now)
      && Filter(after, OfOrder(order.id)) == after[|db.orderItems|..]
  {
    var after := PlaceItems(db, order, cart, now, persist).value.orderItems;
    var items := ItemsOf(db, cart.id);
    var rows := PlannedItems(db, order, cart, now).value.0;
    assert after == db.orderItems + rows;
    assert after[|db.orderItems|..] == rows;
    assert after[..|db.orderItems|] == db.orderItems;
    RowsFollowItems(rows, NewestFirst(items), items);
    OwnRows(db.orderItems, rows, order.id);
  }

  /** Rows made one per item of a reordering of `items` cover exactly the courses of `items`. */
  lemma RowsFollowItems(rows: seq<OrderItem>, sorted: seq<CartItem>, items: seq<CartItem>)
    requires |rows| == |sorted| && multiset(sorted) == multiset(items)
    requires forall k :: 0 <= k < |sorted| ==> rows[k].course == sorted[k].course
    ensures RowCourses(rows) == CartCourses(items)
  {
    forall x | x in RowCourses(rows)
      ensures x in CartCourses(items)
    {
      var k :| 0 <= k < |rows| && rows[k].course == x;
      assert sorted[k] in sorted;
      InPermutation(sorted, items, sorted[k]);
    }
    forall x | x in CartCourses(items)
      ensures x in RowCourses(rows)
    {
      var ci :| ci in items && ci.course == x;
      InPermutation(sorted, items, ci);
      var k :| 0 <= k < |sorted| && sorted[k] == ci;
      assert rows[k] in rows;
    }
  }

  function RowCourses(rows: seq<OrderItem>): set<Uuid> {
    set r | r in rows :: r.course
  }

  function CartCourses(items: seq<CartItem>): set<Uuid> {
    set i | i in items :: i.course
  }

  /** Appending the rows of a new order: that order's items are exactly those rows. */
  lemma OwnRows(before: seq<OrderItem>, rows: seq<OrderItem>, order: Uuid)
    requires forall i :: i in before ==> i.order != order
    requires forall k :: 0 <= k < |rows| ==> rows[k].order == order
    ensures Filter(before + rows, OfOrder(order)) == rows
  {
    forall x | x in before ensures !OfOrder(order)(x) { }
    forall x | x in rows ensures OfOrder(order)(x) {
      var k :| 0 <= k < |rows| && rows[k] == x;
    }
    FilterAppend(before, rows, OfOrder(order));
    FilterNone(before, OfOrder(order));
    FilterAll(rows, OfOrder(order));
  }

  /** A checkout creates exactly one order item per cart item, for the same course, and
      the transaction is for the sum of their prices. */
  lemma CreateOrderOneItemPerCartItem(db: Db, user: Uuid, payment: PaymentMethod, now: DateTime,
                                      orderId: Uuid, orderDraws: seq<string>, txDraws: seq<string>, persist: bool)
    requires RefsAvailable(db, orderDraws, txDraws)
    requires forall i :: i in db.orderItems ==> i.order != orderId
    requires CreateOrderWith(db, user, payment, now, orderId, orderDraws, txDraws, persist).1.Ok?
    ensures var r := CreateOrderWith(db, user, payment, now, orderId, orderDraws, txDraws, persist);
      var rows := r.0.orderItems[|db.orderItems|..];
      && |db.orderItems| <= |r.0.orderItems| && r.0.orderItems[..|db.orderItems|] == db.orderItems
      && OneItemPerCartItem(rows, ItemsOf(db, CartOf(db, user).value.id), orderId, now)
      && r.1.value.1.amount == SumBy(rows, PriceOf)
  {
    var r := CreateOrderWith(db, user, payment, now, orderId, orderDraws, txDraws, persist);
    var cart := CartOf(db, user).value;
    var order := r.1.value.0;
    var db1 := db.(orders := db.orders + [order]);
    assert ItemsOf(db1, cart.id) == ItemsOf(db, cart.id);
    PlaceItemsOnePerCartItem(db1, order, cart, now, persist);
    assert PlaceItems(db1, order, cart, now, persist).value.orderItems == r.0.orderItems;
  }

  /** Pricing items against a limited coupon that discounts at least one of them uses it up
      at least once. */
  lemma {:induction false} MakeItemsRedeems(order: Uuid, items: seq<CartItem>, courses: seq<Course>,
                                            live: Option<Coupon>, now: DateTime)
    requires MakeItems(order, items, courses, live, now).Ok?
    requires live.Some? && live.value.uses.Some?
    requires exists k :: 0 <= k < |items| && Discounts(live, items[k].course, now)
    ensures var after := MakeItems(order, items, courses, live, now).value.1;
      after.Some? && after.value.uses.Some? && after.value.uses.value < live.value.uses.value
  {
    var k :| 0 <= k < |items| && Discounts(live, items[k].course, now);
    var course := First(courses, (c: Course) => c.id == items[0].course).value;
    var live1 := SaveItemPrice(None, live, course, now).1;
    if Discounts(live, items[0].course, now) {
      assert live1.value.uses.value == live.value.uses.value - 1;
    } else {
      assert live1 == live;
      assert items[1..][k - 1] == items[k];
      MakeItemsRedeems(order, items[1..], courses, live1, now);
    }
  }

  /** As written, a checkout never records the uses it redeems: the stored coupon is the
      same afterwards, so a coupon valid for this order stays valid for the next one even
      when its last use was just redeemed. */
  lemma CouponNeverConsumed(db: Db, user: Uuid, payment: PaymentMethod, now: DateTime,
                            orderId: Uuid, orderDraws: seq<string>, txDraws: seq<string>, c: Coupon)
    requires RefsAvailable(db, orderDraws, txDraws)
    requires CreateOrder(db, user, payment, now, orderId, orderDraws, txDraws).1.Ok?
    requires CouponById(db, c.id) == Some(c) && IsValid(c, now) && c.uses == Some(1)
    ensures CouponById(CreateOrder(db, user, payment, now, orderId, orderDraws, txDraws).0, c.id) == Some(c)
    ensures IsValid(CouponById(CreateOrder(db, user, payment, now, orderId, orderDraws, txDraws).0, c.id).value, now)
  {
  }

  /** Pricing a cart's items against a limited coupon that discounts one of them leaves
      the coupon object with fewer uses. */
  lemma PlannedConsumesCoupon(db: Db, order: Order, cart: Cart, now: DateTime, c: Coupon)
    requires PlannedItems(db, order, cart, now).Ok?
    requires CouponOf(db, order.coupon) == Some(c) && c.uses.Some?
    requires exists ci :: ci in ItemsOf(db, cart.id) && Discounts(Some(c), ci.course, now)
    ensures var after := PlannedItems(db, order, cart, now).value.1;
      && after.Some? && after.value.id == c.id
      && after.value.uses.Some? && after.value.uses.value < c.uses.value
  {
    var items := ItemsOf(db, cart.id);
    var sorted := NewestFirst(items);
    var ci :| ci in items && Discounts(Some(c), ci.course, now);
    InPermutation(sorted, items, ci);
    var k :| 0 <= k < |sorted| && sorted[k] == ci;
    MakeItemsRedeems(order.id, sorted, db.courses, Some(c), now);
  }

  /** Placing items with the coupon saved: when the order's limited coupon discounts some
      cart item, the stored coupon has fewer uses left afterwards. */
  lemma PlaceItemsConsumesCoupon(db: Db, order: Order, cart: Cart, now: DateTime, c: Coupon, placed: Db)
    requires PlaceItems(db, order, cart, now, true) == Ok(placed)
    requires order.coupon == Some(c.id) && CouponById(db, c.id) == Some(c) && c.uses.Some?
    requires exists ci :: ci in ItemsOf(db, cart.id) && Discounts(Some(c), ci.course, now)
    ensures var stored := CouponById(placed, c.id);
      stored.Some? && stored.value.uses.Some? && stored.value.uses.value < c.uses.value
  {
    PlannedConsumesCoupon(db, order, cart, now, c);
    var after := PlannedItems(db, order, cart, now).value.1.value;
    SameCoupons(placed, SaveCoupon(db, after), c.id);
  }

  lemma SameCoupons(a: Db, b: Db, id: Uuid)
    requires a.coupons == b.coupons
    ensures CouponById(a, id) == CouponById(b, id)
  {
  }

  /** With the coupon saved, a checkout that discounts some item consumes a use of the
      stored coupon. */
  lemma SavedCouponIsConsumed(db: Db, user: Uuid, payment: PaymentMethod, now: DateTime,
                              orderId: Uuid, orderDraws: seq<string>, txDraws: seq<string>, c: Coupon)
    requires RefsAvailable(db, orderDraws, txDraws)
    requires CreateOrderSavingCoupon(db, user, payment, now, orderId, orderDraws, txDraws).1.Ok?
    requires CartOf(db, user).Ok? && CartOf(db, user).value.coupon == Some(c.id)
    requires CouponById(db, c.id) == Some(c) && c.uses.Some?
    requires exists ci :: ci in ItemsOf(db, CartOf(db, user).value.id) && Discounts(Some(c), ci.course, now)
    ensures var stored := CouponById(CreateOrderSavingCoupon(db, user, payment, now, orderId, orderDraws, txDraws).0, c.id);
      stored.Some? && stored.value.uses.Some? && stored.value.uses.value < c.uses.value
  {
    var r := CreateOrderWith(db, user, payment, now, orderId, orderDraws, txDraws, true);
    var cart := CartOf(db, user).value;
    var db1 := db.(orders := db.orders + [r.1.value.0]);
    SameCoupons(db1, db, c.id);
    assert ItemsOf(db1, cart.id) == ItemsOf(db, cart.id);
    var placed := r.0.(transactions := db.transactions);
    PlaceItemsConsumesCoupon(db1, r.1.value.0, cart, now, c, placed);
    SameCoupons(r.0, placed, c.id);
  }
}

=== FILE: common.dfy ===
/**
  Shared vocabulary of the model: optional values, results carrying the
  exceptions the Django code raises, calendar instants, and the handful of
  query operations (filter, first, exists, update, order_by) that the ORM
  performs on a table, here a sequence of rows.
 */
module Common {

  datatype Option<T> = None | Some(value: T)

  /** The exceptions of the source that the model keeps apart. */
  datatype Error =
    | NotFound                                // Http404 from get_object_or_404
    | DoesNotExist(model: string)             // Model.DoesNotExist reaching the caller
    | MultipleObjectsReturned(model: string)
    | IntegrityError(constraint: string)      // a database constraint refused a write
    | FieldError(keyword: string)             // a queryset filter names an unknown field
    | KeyError(key: string)
    | TypeError(message: string)
    | AttributeError(name: string)
    | ImportError(name: string)               // `from m import name` when m defines no `name`
    | AssertionError(message: string)
    | ValueError(message: string)
    | FileExistsError                         // a path that is not in the storage
    | MalformedId                             // Django's ValidationError for a non-UUID id
    | ValidationError(detail: string)         // ValidationError({"detail": detail}), or a model validator's message
    | NonFieldError(message: string)          // ValidationError(message) from `validate`: {"non_field_errors": [message]}
    | FieldErrors(fields: map<string, string>) // a serializer's per-field errors
    | DetailOf(cause: Error)                  // ValidationError({"detail": str(cause)})
    | AuthenticationFailed(key: string, message: string) // AuthenticationFailed({key: message})
    | NotAuthenticated                        // a denial answered to an anonymous request
    | PermissionDenied
    | ActionNotAllowed
    | CartIsEmpty
    | CouponIsInvalid
    | InvalidTransaction
    | InvalidSession
    | InvalidCode
    | StopConsumer

  datatype Result<T> = Ok(value: T) | Err(error: Error)

  /** A timezone-aware instant, to the microsecond as `timezone.now()` gives it. */
  datatype DateTime = DateTime(year: int, month: int, day: int, hour: int, minute: int, second: int, micro: int)

  predicate ValidDateTime(t: DateTime) {
    && 1000 <= t.year <= 9999 && 1 <= t.month <= 12 && 1 <= t.day <= 31
    && 0 <= t.hour < 24 && 0 <= t.minute < 60 && 0 <= t.second < 60 && 0 <= t.micro < 1_000_000
  }

  /** Position of an instant on the time line; comparisons of instants go through it. */
  function Ord(t: DateTime): int {
    (((((t.year * 12 + t.month) * 31 + t.day) * 24 + t.hour) * 60 + t.minute) * 60 + t.second) * 1_000_000 + t.micro
  }

  /** The instant with its microseconds dropped. */
  function ToSecond(t: DateTime): DateTime {
    t.(micro := 0)
  }

  predicate Before(a: DateTime, b: DateTime) {
    Ord(a) < Ord(b)
  }

  // ---------------------------------------------------------------------
  // Queries over a table

  /** `objects.filter(...)`: the rows satisfying `p`, in table order. */
  function Filter<T(==,!new)>(s: seq<T>, p: T -> bool): (r: seq<T>)
    ensures |r| <= |s|
    ensures forall x :: x in r <==> x in s && p(x)
  {
    if |s| == 0 then []
    else
      if p(s[0]) then [s[0]] + Filter(s[1..], p) else Filter(s[1..], p)
  }

  /** Filtering with a predicate every row satisfies keeps the table as it is. */
  lemma {:induction false} FilterAll<T(!new)>(s: seq<T>, p: T -> bool)
    ensures (forall x :: x in s ==> p(x)) ==> Filter(s, p) == s
  {
    if |s| > 0 {
      assert s == [s[0]] + s[1..];
      FilterAll(s[1..], p);
    }
  }

  /** Filtering with a predicate no row satisfies gives nothing. */
  lemma {:induction false} FilterNone<T(!new)>(s: seq<T>, p: T -> bool)
    ensures (forall x :: x in s ==> !p(x)) ==> Filter(s, p) == []
  {
    if |s| > 0 {
      assert s[0] in s;
      assert forall x :: x in s[1..] ==> x in s;
      FilterNone(s[1..], p);
    }
  }

  /** Filtering a concatenation filters each part. */
  lemma {:induction false} FilterAppend<T(!new)>(a: seq<T>, b: seq<T>, p: T -> bool)
    ensures Filter(a + b, p) == Filter(a, p) + Filter(b, p)
  {
    if |a| == 0 {
      assert a + b == b;
    } else {
      assert (a + b)[0] == a[0] && (a + b)[1..] == a[1..] + b;
      FilterAppend(a[1..], b, p);
    }
  }

  /** The first row satisfying `q` after an update that does not change `q`. */
  lemma {:induction false} FirstAfterUpdate<T(!new)>(s: seq<T>, p: T -> bool, f: T -> T, q: T -> bool)
    requires forall x :: p(x) ==> q(f(x)) == q(x)
    ensures First(Update(s, p, f), q) ==
      (match First(s, q) case None => None case Some(x) => Some(if p(x) then f(x) else x))
  {
    if |s| > 0 {
      assert Update(s, p, f)[1..] == Update(s[1..], p, f);
      FirstAfterUpdate(s[1..], p, f, q);
    }
  }

  /** Tables that agree row by row on `q` have as many rows satisfying `q`. */
  lemma {:induction false} FilterLengthPointwise<T(!new)>(a: seq<T>, b: seq<T>, q: T -> bool)
    requires |a| == |b| && forall k :: 0 <= k < |a| ==> q(a[k]) == q(b[k])
    ensures |Filter(a, q)| == |Filter(b, q)|
  {
    if |a| > 0 {
      assert forall k :: 0 <= k < |a| - 1 ==> a[1..][k] == a[k + 1] && b[1..][k] == b[k + 1];
      FilterLengthPointwise(a[1..], b[1..], q);
    }
  }

  /** `objects.filter(...).first()` in table order. */
  function First<T(==,!new)>(s: seq<T>, p: T -> bool): (r: Option<T>)
    ensures r.Some? ==> r.value in s && p(r.value)
    ensures r.None? <==> forall x :: x in s ==> !p(x)
    ensures r.Some? ==> r.value == s[FirstIndex(s, p)]
  {
    if |s| == 0 then None
    else if p(s[0]) then Some(s[0])
    else First(s[1..], p)
  }

  /** The first match in a table extended by a row no earlier row matches is that row. */
  lemma {:induction false} FirstOfAppend<T(!new)>(s: seq<T>, x: T, p: T -> bool)
    requires forall y :: y in s ==> !p(y)
    requires p(x)
    ensures First(s + [x], p) == Some(x)
  {
    if |s| > 0 {
      assert (s + [x])[1..] == s[1..] + [x];
      FirstOfAppend(s[1..], x, p);
    }
  }

  /** Index of the first row satisfying `p`, or |s| when there is none. */
  function FirstIndex<T>(s: seq<T>, p: T -> bool): (k: nat)
    ensures k <= |s|
    ensures forall i :: 0 <= i < k ==> !p(s[i])
    ensures k < |s| ==> p(s[k])
  {
    if |s| == 0 then 0
    else if p(s[0]) then 0
    else 1 + FirstIndex(s[1..], p)
  }

  /** `objects.filter(...).exists()`. */
  predicate Exists<T(==,!new)>(s: seq<T>, p: T -> bool) {
    exists x :: x in s && p(x)
  }

  /** `objects.filter(...).update(...)`: rows satisfying `p` are rewritten by `f`. */
  function Update<T>(s: seq<T>, p: T -> bool, f: T -> T): (r: seq<T>)
    ensures |r| == |s|
    ensures forall i :: 0 <= i < |s| ==> r[i] == (if p(s[i]) then f(s[i]) else s[i])
  {
    if |s| == 0 then []
    else [if p(s[0]) then f(s[0]) else s[0]] + Update(s[1..], p, f)
  }

  /** Sum of `f` over the rows, `aggregate(Sum(...))` without the None case. */
  function SumBy<T>(s: seq<T>, f: T -> real): real {
    if |s| == 0 then 0.0 else f(s[0]) + SumBy(s[1..], f)
  }

  // ---------------------------------------------------------------------
  // order_by

  ghost predicate SortedBy<T>(s: seq<T>, key: T -> int) {
    forall i, j :: 0 <= i < j < |s| ==> key(s[i]) <= key(s[j])
  }

  function InsertBy<T(==)>(x: T, s: seq<T>, key: T -> int): (r: seq<T>)
    requires SortedBy(s, key)
    ensures SortedBy(r, key)
    ensures multiset(r) == multiset(s) + multiset{x}
  {
    if |s| == 0 then [x]
    else if key(x) <= key(s[0]) then [x] + s
    else
      var rest := InsertBy(x, s[1..], key);
      assert s == [s[0]] + s[1..];
      LeastFirst(s[0], s[1..], x, rest, key);
      [s[0]] + rest
  }

  /** A row no greater than every row of a sorted sequence can precede it. */
  lemma LeastFirst<T>(h: T, t: seq<T>, x: T, rest: seq<T>, key: T -> int)
    requires SortedBy([h] + t, key) && key(h) < key(x)
    requires SortedBy(rest, key) && multiset(rest) == multiset(t) + multiset{x}
    ensures SortedBy([h] + rest, key)
  {
    forall y | y in rest ensures key(h) <= key(y) {
      assert y in multiset(rest);
      if y != x {
        assert y in multiset(t);
        var k :| 0 <= k < |t| && t[k] == y;
        assert ([h] + t)[0] == h && ([h] + t)[k + 1] == y;
      }
    }
    forall i, j | 0 <= i < j < |[h] + rest| ensures key(([h] + rest)[i]) <= key(([h] + rest)[j]) {
      if i == 0 {
        assert ([h] + rest)[j] == rest[j - 1] && rest[j - 1] in rest;
      } else {
        assert ([h] + rest)[i] == rest[i - 1] && ([h] + rest)[j] == rest[j - 1];
      }
    }
  }

  /** `order_by(key)`: a permutation of the rows in ascending key order; the order of
      rows with equal keys is left open, as the database leaves it. */
  function SortBy<T(==)>(s: seq<T>, key: T -> int): (r: seq<T>)
    ensures SortedBy(r, key)
    ensures multiset(r) == multiset(s)
    ensures |r| == |s|
  {
    if |s| == 0 then []
    else
      assert s == [s[0]] + s[1..];
      InsertBy(s[0], SortBy(s[1..], key), key)
  }

  /** Two orderings of the same rows have the same members. */
  lemma SameMembers<T>(a: seq<T>, b: seq<T>)
    requires multiset(a) == multiset(b)
    ensures forall x :: x in a <==> x in b
  {
    forall x ensures x in a <==> x in b {
      InPermutation(a, b, x);
    }
  }

  /** `x in s` follows from multiset equality, for callers of SortBy. */
  lemma InPermutation<T>(a: seq<T>, b: seq<T>, x: T)
    requires multiset(a) == multiset(b)
    ensures x in a <==> x in b
  {
    assert x in a <==> x in multiset(a);
    assert x in b <==> x in multiset(b);
  }
}

=== FILE: consumer.dfy ===
/**
  The websocket consumer of a course (backend/core/consumers/course.py): the
  shape an incoming event must have, the admission check, and what
  `connect` and `disconnect` do to the channel layer's groups.

  The groups are a set of (group name, channel name) pairs; joining and
  leaving are adding and removing a pair. The scope's user is `NoUser`
  (no `user` key), the anonymous user, or a signed-in user. The socket's
  `accept` and `close` are recorded as steps, in order.
 */
module CourseConsumer {
  import opened Common
  import opened Base
  import opened UserModel
  import opened CourseModel
  import opened Db
  import opened Utils
  import opened ConsumerService

  // ---------------------------------------------------------------------
  // CourseEvent

  /** A JSON value as far as the event's validation looks at it. */
  datatype Raw = RawStr(s: string) | RawDict(fields: map<string, Value>) | RawOther

  datatype CourseEvent = CourseEvent(kind: EventType, data: map<string, Value>)

  /** `CourseEvent` (a pydantic model): `type` is one of the five event names and `data`
      is a dictionary. */
  function ValidateEvent(msg: map<string, Raw>): (r: Result<CourseEvent>)
    ensures r.Ok? <==> "type" in msg && msg["type"].RawStr? && msg["type"].s in EVENT_NAMES
                       && "data" in msg && msg["data"].RawDict?
    ensures r.Ok? ==> EventName(r.value.kind) == msg["type"].s && r.value.data == msg["data"].fields
    ensures r.Err? ==> r.error == ValidationError("CourseEvent")
  {
    if "type" !in msg || !msg["type"].RawStr? || "data" !in msg || !msg["data"].RawDict? then Err(ValidationError("CourseEvent"))
    else match ParseEventType(msg["type"].s)
      case None => Err(ValidationError("CourseEvent"))
      case Some(k) => Ok(CourseEvent(k, msg["data"].fields))
  }

  /** A valid event is accepted back from the message it would be sent as. */
  lemma EventRoundTrip(e: CourseEvent)
    ensures ValidateEvent(map["type" := RawStr(EventName(e.kind)), "data" := RawDict(e.data)]) == Ok(e)
  {
    EventNameRoundTrip(e.kind);
  }

  // ---------------------------------------------------------------------
  // is_course_participant

  datatype Visitor = NoUser | Anonymous | SignedIn(user: User)

  /** `is_course_participant`: an unknown course and a non-participant stop the consumer.
      With no user, `user.id` raises; the anonymous user is no student, and then
      `user.is_instructor` raises. A flagged instructor without an Instructor row makes
      `is_participant` raise. */
  function IsCourseParticipant(db: Db, course: Uuid, visitor: Visitor): (r: Result<Course>)
    ensures CourseById(db, course).None? ==> r == Err(StopConsumer)
    ensures r.Ok? <==> CourseById(db, course).Some? && visitor.SignedIn?
                       && IsParticipant(CourseById(db, course).value, visitor.user, db.students, db.instructors) == Ok(true)
    ensures r.Ok? ==> r.value == CourseById(db, course).value
    ensures CourseById(db, course).Some? && !visitor.SignedIn? ==> r.Err? && r.error.AttributeError?
    ensures CourseById(db, course).Some? && visitor.SignedIn?
            && IsParticipant(CourseById(db, course).value, visitor.user, db.students, db.instructors) == Ok(false) ==>
      r == Err(StopConsumer)
  {
    match CourseById(db, course)
    case None => Err(StopConsumer)
    case Some(c) =>
      match visitor
      case NoUser => Err(AttributeError("id"))
      case Anonymous => Err(AttributeError("is_instructor"))
      case SignedIn(u) =>
        match IsParticipant(c, u, db.students, db.instructors)
        case Err(e) => Err(e)
        case Ok(false) => Err(StopConsumer)
        case Ok(true) => Ok(c)
  }

  // ---------------------------------------------------------------------
  // connect and disconnect

  datatype Step = GroupAdd(group: string) | Accept | GroupDiscard(group: string)

  /** The consumer after `connect`: the groups, the group it joined (the `course_name`
      attribute), the socket steps taken, and how the admission ended. */
  datatype Connection = Connection(groups: set<(string, string)>, courseName: Option<string>,
                                   steps: seq<Step>, admission: Result<Course>)

  /** `connect`. The `self.close()` for a missing or anonymous user is not awaited and has
      no effect. The admission check runs first; only when it returns is the channel added
      to the course's group, and only then is the socket accepted. The final log line is
      not modelled. */
  function Connect(db: Db, groups: set<(string, string)>, course: Uuid, visitor: Visitor, channel: string): (r: Connection)
    ensures r.admission == IsCourseParticipant(db, course, visitor)
    ensures r.admission.Err? ==> r.groups == groups && r.courseName.None? && r.steps == []
    ensures r.admission.Ok? ==>
      && r.courseName == Some(ChannelName(IdStr(course)))
      && r.groups == groups + {(ChannelName(IdStr(course)), channel)}
      && r.steps == [GroupAdd(ChannelName(IdStr(course))), Accept]
  {
    match IsCourseParticipant(db, course, visitor)
    case Err(e) => Connection(groups, None, [], Err(e))
    case Ok(c) =>
      var name := ChannelName(IdStr(course));
      Connection(groups + {(name, channel)}, Some(name), [GroupAdd(name), Accept], Ok(c))
  }

  /** A visitor who is not a participant of the course never joins its group, and a
      participant joins exactly that course's group. */
  lemma OnlyParticipantsJoin(db: Db, groups: set<(string, string)>, course: Uuid, other: Uuid, visitor: Visitor, channel: string)
    requires (ChannelName(IdStr(other)), channel) !in groups
    ensures (ChannelName(IdStr(other)), channel) in Connect(db, groups, course, visitor, channel).groups ==>
      other == course && visitor.SignedIn? && CourseById(db, course).Some?
      && IsParticipant(CourseById(db, course).value, visitor.user, db.students, db.instructors) == Ok(true)
  {
    var name := ChannelName(IdStr(course));
    if (ChannelName(IdStr(other)), channel) in Connect(db, groups, course, visitor, channel).groups {
      ChannelNameInjective(IdStr(other), IdStr(course));
      IdStrInjective(other, course);
    }
  }

  /** `disconnect`: the channel leaves the group it joined. After a refused connect the
      `course_name` attribute was never set, and reading it raises. */
  function Disconnect(c: Connection, channel: string): (r: Result<(set<(string, string)>, seq<Step>)>)
    ensures c.courseName.None? ==> r == Err(AttributeError("course_name"))
    ensures c.courseName.Some? ==> r.Ok? && r.value.0 == c.groups - {(c.courseName.value, channel)}
                                   && r.value.1 == c.steps + [GroupDiscard(c.courseName.value)]
  {
    match c.courseName
    case None => Err(AttributeError("course_name"))
    case Some(name) => Ok((c.groups - {(name, channel)}, c.steps + [GroupDiscard(name)]))
  }

  /** Connecting and then disconnecting leaves the groups as they were, provided the
      channel was not already in the course's group. */
  lemma ConnectDisconnectRestores(db: Db, groups: set<(string, string)>, course: Uuid, visitor: Visitor, channel: string)
    requires (ChannelName(IdStr(course)), channel) !in groups
    requires IsCourseParticipant(db, course, visitor).Ok?
    ensures Disconnect(Connect(db, groups, course, visitor, channel), channel).Ok?
    ensures Disconnect(Connect(db, groups, course, visitor, channel), channel).value.0 == groups
  {
  }

  /** `send_message` of the consumer: the client receives the group message's `data`
      unchanged. */
  function ToClient(m: GroupMessage): (r: Envelope)
    ensures r == m.data
  {
    m.data
  }

  /** What a service sends for a course reaches its clients as the envelope of the event
      type and the data, through the group the course's consumers joined. */
  lemma BroadcastReachesClients(course: Uuid, eventType: string, data: map<string, string>)
    ensures SendMessage(IdStr(course), eventType, data).group == ChannelName(IdStr(course))
    ensures ToClient(SendMessage(IdStr(course), eventType, data)) == Envelope(eventType, data)
  {
  }
}

=== FILE: consumer_service.dfy ===
/**
  The event handlers of backend/core/consumers/service.py: the chat handler
  with its fixed ladder of error replies, the chat payload it builds from an
  event, the question-comment handler, the table of handled events, and the
  envelope `SocketService.send_message` hands to the channel layer.

  An event's `data` is a dictionary whose values are strings, except `user`,
  which the caller is expected to fill with a User object; a value of the
  wrong kind is kept so that the errors it causes are modelled. Writing a
  base64 upload to storage is the parameter `toFile(blob, prefix)`, which
  answers the stored path. Both handlers run inside one database transaction;
  an exception caught inside the handler does not roll it back.
 */
module ConsumerService {
  import opened Common
  import opened Base
  import opened UserModel
  import opened CourseModel
  import opened Db
  import opened Utils

  // ---------------------------------------------------------------------
  // Loading the module

  /** What the module imports from `core.utils`, in order. */
  const UTILS_IMPORTS: seq<string> := ["get_course_channel_name", "base64_to_file"]

  /** As written, loading the module fails: `core/utils.py` defines no `base64_to_file`,
      so the import raises ImportError before any handler exists. The handlers below are
      modelled as if the import resolved. */
  lemma ServiceImportFailsAsWritten()
    ensures "base64_to_file" !in UTILS_NAMES
    ensures ImportFrom(UTILS_NAMES, UTILS_IMPORTS) == Err(ImportError("base64_to_file"))
  {
    assert UTILS_IMPORTS[0] in UTILS_NAMES && UTILS_IMPORTS[1] !in UTILS_NAMES;
    assert FirstIndex(UTILS_IMPORTS, (n: string) => n !in UTILS_NAMES) == 1;
  }

  /** With a `base64_to_file` defined in `core/utils.py`, the module loads, whatever else
      the file defines. */
  lemma ServiceImportResolves(defined: set<string>)
    requires UTILS_NAMES <= defined
    ensures ImportFrom(defined + {"base64_to_file"}, UTILS_IMPORTS) == Ok(())
  {
    assert UTILS_IMPORTS[0] in UTILS_NAMES;
    assert forall i :: 0 <= i < |UTILS_IMPORTS| ==> UTILS_IMPORTS[i] in defined + {"base64_to_file"};
    var r := ImportFrom(defined + {"base64_to_file"}, UTILS_IMPORTS);
    assert r.Ok? && r.value == ();
  }

  // ---------------------------------------------------------------------
  // created_at.strftime("%d/%m/%Y, %H:%M:%S")

  function Pow10(n: nat): (r: nat)
    ensures r >= 1
  {
    if n == 0 then 1 else 10 * Pow10(n - 1)
  }

  function DigitChar(d: nat): char
    requires d < 10
  {
    ('0' as int + d) as char
  }

  /** `n` in decimal, zero-padded on the left to `width` digits (the last `width` digits
      when `n` is wider). */
  function Pad(n: nat, width: nat): (r: string)
    ensures |r| == width
  {
    if width == 0 then "" else Pad(n / 10, width - 1) + [DigitChar(n % 10)]
  }

  /** A string of decimal digits read back as a number; None when some character is not
      a digit. */
  function ParseDigits(s: string): (r: Option<nat>) {
    if |s| == 0 then Some(0)
    else
      var last := s[|s| - 1];
      match ParseDigits(s[..|s| - 1])
      case None => None
      case Some(v) => if '0' <= last <= '9' then Some(v * 10 + (last as int - '0' as int)) else None
  }

  /** Padding loses nothing for numbers that fit in the width. */
  lemma {:induction false} ParsePad(n: nat, width: nat)
    requires n < Pow10(width)
    ensures ParseDigits(Pad(n, width)) == Some(n)
  {
    if width > 0 {
      var s := Pad(n, width);
      assert s[..|s| - 1] == Pad(n / 10, width - 1);
      ParsePad(n / 10, width - 1);
    }
  }

  /** The `created_at` field of a reply: `strftime` drops the microseconds. */
  function Timestamp(t: DateTime): (r: string)
    requires ValidDateTime(t)
    ensures |r| == 20
  {
    Pad(t.day, 2) + "/" + Pad(t.month, 2) + "/" + Pad(t.year, 4) + ", "
      + Pad(t.hour, 2) + ":" + Pad(t.minute, 2) + ":" + Pad(t.second, 2)
  }

  /** `datetime.strptime(s, "%d/%m/%Y, %H:%M:%S")` for the fixed-width form. */
  function ParseTimestamp(s: string): Option<DateTime> {
    if |s| != 20 || s[2] != '/' || s[5] != '/' || s[10] != ',' || s[11] != ' ' || s[14] != ':' || s[17] != ':' then None
    else
      var d := ParseDigits(s[0..2]);
      var mo := ParseDigits(s[3..5]);
      var y := ParseDigits(s[6..10]);
      var h := ParseDigits(s[12..14]);
      var mi := ParseDigits(s[15..17]);
      var se := ParseDigits(s[18..20]);
      if d.None? || mo.None? || y.None? || h.None? || mi.None? || se.None? then None
      else Some(DateTime(y.value, mo.value, d.value, h.value, mi.value, se.value, 0))
  }

  /** The reply's timestamp determines the instant up to the second: reading it back gives
      the instant without its microseconds, so two instants render alike exactly when they
      fall in the same second. */
  lemma TimestampRoundTrip(t: DateTime)
    requires ValidDateTime(t)
    ensures ParseTimestamp(Timestamp(t)) == Some(ToSecond(t))
  {
    assert Pow10(2) == 100 && Pow10(4) == 10000;
    StampLayout(Pad(t.day, 2), Pad(t.month, 2), Pad(t.year, 4), Pad(t.hour, 2), Pad(t.minute, 2), Pad(t.second, 2));
    ParsePad(t.day, 2);
    ParsePad(t.month, 2);
    ParsePad(t.year, 4);
    ParsePad(t.hour, 2);
    ParsePad(t.minute, 2);
    ParsePad(t.second, 2);
  }

  /** Where the fields and separators of the fixed-width form sit. */
  lemma StampLayout(d: string, mo: string, y: string, h: string, mi: string, se: string)
    requires |d| == 2 && |mo| == 2 && |y| == 4 && |h| == 2 && |mi| == 2 && |se| == 2
    ensures var s := d + "/" + mo + "/" + y + ", " + h + ":" + mi + ":" + se;
      && |s| == 20 && s[2] == '/' && s[5] == '/' && s[10] == ',' && s[11] == ' ' && s[14] == ':' && s[17] == ':'
      && s[0..2] == d && s[3..5] == mo && s[6..10] == y && s[12..14] == h && s[15..17] == mi && s[18..20] == se
  {
    var left := d + "/" + mo + "/" + y;
    var right := h + ":" + mi + ":" + se;
    var s := left + ", " + right;
    assert s == d + "/" + mo + "/" + y + ", " + h + ":" + mi + ":" + se;
    assert |left| == 10 && left[0..2] == d && left[3..5] == mo && left[6..10] == y && left[2] == '/' && left[5] == '/';
    assert |right| == 8 && right[0..2] == h && right[3..5] == mi && right[6..8] == se && right[2] == ':' && right[5] == ':';
    assert s[0..10] == left && s[12..20] == right && s[10] == ',' && s[11] == ' ';
    assert s[0..2] == left[0..2] && s[3..5] == left[3..5] && s[6..10] == left[6..10];
    assert s[12..14] == right[0..2] && s[15..17] == right[3..5] && s[18..20] == right[6..8];
  }

  // ---------------------------------------------------------------------
  // Event data and replies

  /** A value of an event's `data`: a string, or the User object of `user`. */
  datatype Value = Str(text: string) | Account(user: User)

  /** `str(value)`; a user prints as its full name. */
  function Show(v: Value): string {
    match v
    case Str(s) => s
    case Account(u) => FullName(u)
  }

  const INVALID: string := "provided data is invalid"
  const NO_CHAT: string := "course chat does not exist"
  const NO_QUESTION: string := "course question does not exist"
  const UNKNOWN: string := "unknown"

  /** What a handler answers: `{"type": "error", "data": message}` or the created
      object's fields. */
  datatype Reply = ErrorReply(message: string) | Created(fields: map<string, string>)

  /** The dictionary a reply is sent as. */
  function AsJson(r: Reply): (m: map<string, string>)
    ensures r.ErrorReply? ==> m.Keys == {"type", "data"} && m["type"] == "error" && m["data"] == r.message
    ensures r.Created? ==> m == r.fields
  {
    match r
    case ErrorReply(msg) => map["type" := "error", "data" := msg]
    case Created(f) => f
  }

  /** `objects.get(id=value)`: a value that is not a UUID string raises Django's
      ValidationError; an unknown id raises DoesNotExist. */
  function LookupId<T(==,!new)>(rows: seq<T>, idOf: T -> Uuid, v: Value, model: string): (r: Result<T>)
    ensures r.Ok? ==> v.Str? && ParseUuid(v.text).Some? && r.value in rows && idOf(r.value) == ParseUuid(v.text).value
    ensures r == Err(MalformedId) <==> !v.Str? || ParseUuid(v.text).None?
    ensures r == Err(DoesNotExist(model)) <==>
      v.Str? && ParseUuid(v.text).Some? && forall x :: x in rows ==> idOf(x) != ParseUuid(v.text).value
    ensures r.Err? ==> r.error == MalformedId || r.error == DoesNotExist(model)
  {
    if !v.Str? then Err(MalformedId)
    else match ParseUuid(v.text)
      case None => Err(MalformedId)
      case Some(id) =>
        match First(rows, (x: T) => idOf(x) == id)
        case None => Err(DoesNotExist(model))
        case Some(x) => Ok(x)
  }

  function RoomId(r: ChatRoom): Uuid { r.id }
  function QuestionId(q: CourseQuestion): Uuid { q.id }

  // ---------------------------------------------------------------------
  // ChatHandler

  /** The first three steps of `ChatHandler.process_data`: read `room_id`, fetch the room
      by that id alone, read `user`. */
  function ChatStart(db: Db, data: map<string, Value>): (r: Result<(ChatRoom, Value)>)
    ensures r.Ok? ==> "room_id" in data && "user" in data && r.value.0 in db.rooms && r.value.1 == data["user"]
                      && LookupId(db.rooms, RoomId, data["room_id"], "CourseChatRoom") == Ok(r.value.0)
  {
    if "room_id" !in data then Err(KeyError("room_id"))
    else match LookupId(db.rooms, RoomId, data["room_id"], "CourseChatRoom")
      case Err(e) => Err(e)
      case Ok(room) =>
        if "user" !in data then Err(KeyError("user"))
        else Ok((room, data["user"]))
  }

  /** The `except` clauses of `ChatHandler.process_data`, in order. */
  function ChatCatch(e: Error): (r: Reply)
    ensures r.ErrorReply?
    ensures e == DoesNotExist("CourseChatRoom") ==> r.message == NO_CHAT
    ensures e.KeyError? ==> r.message == INVALID
    ensures r.message in {NO_CHAT, INVALID, UNKNOWN}
  {
    if e == DoesNotExist("CourseChatRoom") then ErrorReply(NO_CHAT)
    else if e.KeyError? then ErrorReply(INVALID)
    else ErrorReply(UNKNOWN)
  }

  /** `ChatHandler.process_data` as written. `create_chat_data` is a classmethod declared
      with the one parameter `data`, so `cls.create_chat_data(data)` passes two arguments
      and raises TypeError, which the catch-all turns into "unknown". The course id is
      never consulted, and nothing is ever written. This assumes the module loaded, which
      as written it does not (see ServiceImportFailsAsWritten). */
  function ChatHandlerAsWritten(db: Db, courseId: string, data: map<string, Value>): (r: (Db, Reply))
    ensures r.0 == db && r.1.ErrorReply?
    ensures "room_id" !in data ==> r.1 == ErrorReply(INVALID)
    ensures "room_id" in data && LookupId(db.rooms, RoomId, data["room_id"], "CourseChatRoom").Err? ==>
      r.1 == ErrorReply(if LookupId(db.rooms, RoomId, data["room_id"], "CourseChatRoom").error == MalformedId then UNKNOWN else NO_CHAT)
    ensures ChatStart(db, data).Ok? ==> r.1 == ErrorReply(UNKNOWN)
  {
    match ChatStart(db, data)
    case Err(e) => (db, ChatCatch(e))
    case Ok(_) => (db, ChatCatch(TypeError("create_chat_data() takes 1 positional argument but 2 were given")))
  }

  /** `create_chat_data` as evidently intended (a one-argument function of the event): the
      payload named by `type`, or None for any other type. */
  function CreateChatData(data: map<string, Value>, toFile: (string, string) -> string): (r: Result<Option<ChatPayload>>)
    ensures "type" !in data ==> r == Err(KeyError("type"))
    ensures r.Err? ==> r.error.KeyError?
    ensures r.Ok? && r.value.Some? ==> data["type"] == Str(MessageType(r.value.value))
    ensures r.Ok? && r.value.None? <==> "type" in data && data["type"] !in {Str("audio"), Str("text"), Str("file")}
    ensures r.Ok? && r.value.Some? && r.value.value.Text? ==> "content" in data && r.value.value.content == Show(data["content"])
    ensures r.Ok? && r.value.Some? && r.value.value.Audio? ==> "file" in data && r.value.value.file == toFile(Show(data["file"]), "AUDIO_")
    ensures r.Ok? && r.value.Some? && r.value.value.Image? ==> "file" in data && r.value.value.file == toFile(Show(data["file"]), "IMAGE_")
  {
    if "type" !in data then Err(KeyError("type"))
    else if data["type"] == Str("audio") then
      if "file" !in data then Err(KeyError("file")) else Ok(Some(Audio(toFile(Show(data["file"]), "AUDIO_"))))
    else if data["type"] == Str("text") then
      if "content" !in data then Err(KeyError("content")) else Ok(Some(Text(Show(data["content"]))))
    else if data["type"] == Str("file") then
      if "file" !in data then Err(KeyError("file")) else Ok(Some(Image(toFile(Show(data["file"]), "IMAGE_"))))
    else Ok(None)
  }

  /** The fields of a delivered chat message. */
  function MessageFields(id: Uuid, user: User, p: ChatPayload, now: DateTime): (m: map<string, string>)
    requires ValidDateTime(now)
    ensures m.Keys == {"id", "user", "created_at"} + JsonData(p).Keys
  {
    JsonData(p) + map["id" := IdStr(id), "user" := FullName(user), "created_at" := Timestamp(now)]
  }

  /** The handler once `create_chat_data` has been fixed; `renamed` says whether the
      message is created with `room=` (the field's name) rather than `course=`. */
  function ChatWith(db: Db, data: map<string, Value>, payloadId: Uuid, messageId: Uuid, now: DateTime,
                    toFile: (string, string) -> string, renamed: bool): (Db, Reply)
    requires ValidDateTime(now)
  {
    match ChatStart(db, data)
    case Err(e) => (db, ChatCatch(e))
    case Ok((room, user)) =>
      match CreateChatData(data, toFile)
      case Err(e) => (db, ChatCatch(e))
      case Ok(None) => (db, ErrorReply(INVALID))
      case Ok(Some(p)) =>
        var db1 := db.(payloads := db.payloads + [PayloadRow(payloadId, p)]);
        if !renamed then (db1, ChatCatch(TypeError("CourseMessage() got unexpected keyword arguments: 'course'")))
        else match user
          case Str(_) => (db1, ChatCatch(ValueError("CourseMessage.user must be a User instance")))
          case Account(u) =>
            (db1.(messages := db.messages + [CourseMessage(messageId, room.id, u.id, payloadId, now)]),
             Created(MessageFields(messageId, u, p, now)))
  }

  /** The handler with `create_chat_data` fixed but the message still created with
      `course=`: the payload row is written, the message is not, and the reply is "unknown";
      because the exception is caught inside the transaction, the payload row stays. */
  function ChatHandlerWithCourseKeyword(db: Db, courseId: string, data: map<string, Value>, payloadId: Uuid, messageId: Uuid,
                                        now: DateTime, toFile: (string, string) -> string): (r: (Db, Reply))
    requires ValidDateTime(now)
    ensures r.1.ErrorReply? && r.0.messages == db.messages
    ensures ChatStart(db, data).Ok? && CreateChatData(data, toFile).Ok? && CreateChatData(data, toFile).value.Some? ==>
      r == (db.(payloads := db.payloads + [PayloadRow(payloadId, CreateChatData(data, toFile).value.value)]), ErrorReply(UNKNOWN))
  {
    ChatWith(db, data, payloadId, messageId, now, toFile, false)
  }

  /** `ChatHandler.process_data` as evidently intended: a well-formed event from a user
      creates one payload row and one message in the room, and answers the message's
      fields; every failure is one of the three error replies. */
  function ChatHandler(db: Db, courseId: string, data: map<string, Value>, payloadId: Uuid, messageId: Uuid,
                       now: DateTime, toFile: (string, string) -> string): (r: (Db, Reply))
    requires ValidDateTime(now)
    ensures r.1.Created? <==>
      ChatStart(db, data).Ok? && ChatStart(db, data).value.1.Account?
      && CreateChatData(data, toFile).Ok? && CreateChatData(data, toFile).value.Some?
    ensures r.1.Created? ==>
      var (room, user) := ChatStart(db, data).value;
      var p := CreateChatData(data, toFile).value.value;
      && r.0 == db.(payloads := db.payloads + [PayloadRow(payloadId, p)],
                    messages := db.messages + [CourseMessage(messageId, room.id, user.user.id, payloadId, now)])
      && r.1.fields == MessageFields(messageId, user.user, p, now)
    ensures r.1.ErrorReply? ==> r.1.message in {NO_CHAT, INVALID, UNKNOWN} && r.0.messages == db.messages
    ensures ChatStart(db, data).Err? ==> r == (db, ChatCatch(ChatStart(db, data).error))
  {
    ChatWith(db, data, payloadId, messageId, now, toFile, true)
  }

  /** The event of a text message from `u` to `room`. */
  function TextEvent(room: ChatRoom, u: User, text: string): map<string, Value> {
    map["room_id" := Str(IdStr(room.id)), "user" := Account(u), "type" := Str("text"), "content" := Str(text)]
  }

  /** The room of a well-formed text event is found. */
  lemma TextEventStarts(db: Db, room: ChatRoom, u: User, text: string)
    requires room in db.rooms && forall x :: x in db.rooms && x.id == room.id ==> x == room
    ensures ChatStart(db, TextEvent(room, u, text)) == Ok((room, Account(u)))
  {
    IdStrRoundTrip(room.id);
    assert LookupId(db.rooms, RoomId, Str(IdStr(room.id)), "CourseChatRoom") == Ok(room);
  }

  /** The payload of a text event is its content. */
  lemma TextEventPayload(room: ChatRoom, u: User, text: string, toFile: (string, string) -> string)
    ensures CreateChatData(TextEvent(room, u, text), toFile) == Ok(Some(Text(text)))
  {
    assert TextEvent(room, u, text)["type"] == Str("text");
  }

  /** A well-formed text message from a user in an existing room: the handler as written
      answers "unknown" and stores nothing. */
  lemma TextMessageLostAsWritten(db: Db, room: ChatRoom, u: User, text: string)
    requires room in db.rooms && forall x :: x in db.rooms && x.id == room.id ==> x == room
    ensures ChatHandlerAsWritten(db, "", TextEvent(room, u, text)) == (db, ErrorReply(UNKNOWN))
  {
    TextEventStarts(db, room, u, text);
  }

  /** With the `create_chat_data` signature fixed but the `course=` keyword kept, the same
      message answers "unknown" and leaves an orphan payload row. */
  lemma TextMessageOrphanPayload(db: Db, room: ChatRoom, u: User, text: string, payloadId: Uuid, messageId: Uuid,
                                 now: DateTime, toFile: (string, string) -> string)
    requires ValidDateTime(now)
    requires room in db.rooms && forall x :: x in db.rooms && x.id == room.id ==> x == room
    ensures ChatHandlerWithCourseKeyword(db, "", TextEvent(room, u, text), payloadId, messageId, now, toFile)
         == (db.(payloads := db.payloads + [PayloadRow(payloadId, Text(text))]), ErrorReply(UNKNOWN))
  {
    TextEventStarts(db, room, u, text);
    TextEventPayload(room, u, text, toFile);
  }

  /** The intended handler delivers the same message. */
  lemma TextMessageDelivered(db: Db, room: ChatRoom, u: User, text: string, payloadId: Uuid, messageId: Uuid,
                             now: DateTime, toFile: (string, string) -> string)
    requires ValidDateTime(now)
    requires room in db.rooms && forall x :: x in db.rooms && x.id == room.id ==> x == room
    ensures ChatHandler(db, "", TextEvent(room, u, text), payloadId, messageId, now, toFile).1
         == Created(MessageFields(messageId, u, Text(text), now))
  {
    TextEventStarts(db, room, u, text);
    TextEventPayload(room, u, text, toFile);
  }

  /** Two instants render alike exactly when they fall in the same second. */
  lemma TimestampSameSecond(a: DateTime, b: DateTime)
    requires ValidDateTime(a) && ValidDateTime(b)
    ensures Timestamp(a) == Timestamp(b) <==> ToSecond(a) == ToSecond(b)
  {
    TimestampRoundTrip(a);
    TimestampRoundTrip(b);
  }

  /** A delivered message can be read back from its reply: the id, and the instant up to
      the second. */
  lemma ChatReplyReadsBack(id: Uuid, user: User, p: ChatPayload, now: DateTime)
    requires ValidDateTime(now)
    ensures ParseUuid(MessageFields(id, user, p, now)["id"]) == Some(id)
    ensures ParseTimestamp(MessageFields(id, user, p, now)["created_at"]) == Some(ToSecond(now))
  {
    FieldsOfMessage(id, user, p, now);
    IdStrRoundTrip(id);
    TimestampRoundTrip(now);
  }

  lemma FieldsOfMessage(id: Uuid, user: User, p: ChatPayload, now: DateTime)
    requires ValidDateTime(now)
    ensures MessageFields(id, user, p, now)["id"] == IdStr(id)
    ensures MessageFields(id, user, p, now)["created_at"] == Timestamp(now)
  {
  }

  /** The reply also determines the payload, given the message's type. */
  lemma ChatReplyDeterminesPayload(id: Uuid, user: User, p: ChatPayload, q: ChatPayload, now: DateTime)
    requires ValidDateTime(now)
    ensures MessageType(p) == MessageType(q) && MessageFields(id, user, p, now) == MessageFields(id, user, q, now) ==> p == q
  {
    if MessageType(p) == MessageType(q) && MessageFields(id, user, p, now) == MessageFields(id, user, q, now) {
      var k := if p.Text? then "content" else "file";
      PayloadField(id, user, p, now, k);
      PayloadField(id, user, q, now, k);
      JsonDataDetermines(p, q);
    }
  }

  /** A payload key of a reply holds the payload's value: the payload's keys are none of
      the message's own. */
  lemma PayloadField(id: Uuid, user: User, p: ChatPayload, now: DateTime, k: string)
    requires ValidDateTime(now)
    requires k == (if p.Text? then "content" else "file")
    ensures k in JsonData(p) && MessageFields(id, user, p, now)[k] == JsonData(p)[k]
  {
    PayloadKeyIsNotOwn(k);
  }

  /** The payload keys differ from the message's own keys. */
  lemma PayloadKeyIsNotOwn(k: string)
    requires k == "content" || k == "file"
    ensures k != "id" && k != "user" && k != "created_at"
  {
    assert |"id"| == 2 && |"created_at"| == 10 && "user"[0] == 'u';
    if k == "content" { assert |k| == 7; } else { assert k[0] == 'f'; }
  }

  // ---------------------------------------------------------------------
  // QuestionCommentHandler

  /** `QuestionCommentHandler.process_data`. A missing key is "provided data is invalid"
      and an unknown question its own reply; there is no catch-all, so a malformed id and
      a `user` that is not a User object escape as exceptions (and the transaction rolls
      back). The comment is created only once all three keys have been read. */
  function QuestionCommentHandler(db: Db, courseId: string, data: map<string, Value>, commentId: Uuid, now: DateTime)
    : (r: Result<(Db, Reply)>)
    requires ValidDateTime(now)
    ensures "question_id" !in data ==> r == Ok((db, ErrorReply(INVALID)))
    ensures "question_id" in data && LookupId(db.questions, QuestionId, data["question_id"], "CourseQuestion") == Err(MalformedId) ==>
      r == Err(MalformedId)
    ensures "question_id" in data && LookupId(db.questions, QuestionId, data["question_id"], "CourseQuestion") == Err(DoesNotExist("CourseQuestion")) ==>
      r == Ok((db, ErrorReply(NO_QUESTION)))
    ensures r.Err? ==> r.error == MalformedId || r.error.ValueError?
    ensures r.Ok? && r.value.1.ErrorReply? ==> r.value.0 == db && r.value.1.message in {INVALID, NO_QUESTION}
    ensures r.Ok? && r.value.1.Created? <==>
      "question_id" in data && "user" in data && "message" in data && data["user"].Account?
      && LookupId(db.questions, QuestionId, data["question_id"], "CourseQuestion").Ok?
    ensures r.Ok? && r.value.1.Created? ==>
      var q := LookupId(db.questions, QuestionId, data["question_id"], "CourseQuestion").value;
      var u := data["user"].user;
      var c := QuestionComment(commentId, u.id, q.id, Show(data["message"]), now);
      && r.value.0 == db.(comments := db.comments + [c])
      && r.value.1.fields == map["id" := IdStr(commentId), "user" := FullName(u), "question" := IdStr(q.id),
                                 "message" := c.message, "created_at" := Timestamp(now)]
  {
    if "question_id" !in data then Ok((db, ErrorReply(INVALID)))
    else match LookupId(db.questions, QuestionId, data["question_id"], "CourseQuestion")
      case Err(MalformedId) => Err(MalformedId)
      case Err(_) => Ok((db, ErrorReply(NO_QUESTION)))
      case Ok(q) =>
        if "user" !in data || "message" !in data then Ok((db, ErrorReply(INVALID)))
        else match data["user"]
          case Str(_) => Err(ValueError("CourseQuestionComment.user must be a User instance"))
          case Account(u) =>
            var c := QuestionComment(commentId, u.id, q.id, Show(data["message"]), now);
            Ok((db.(comments := db.comments + [c]),
                Created(map["id" := IdStr(commentId), "user" := FullName(u), "question" := IdStr(q.id),
                            "message" := c.message, "created_at" := Timestamp(now)])))
  }

  /** The comment lands under the question named by the event, whichever course the event
      was sent to. */
  lemma CommentUnderNamedQuestion(db: Db, q: CourseQuestion, u: User, msg: string, c1: string, c2: string,
                                  commentId: Uuid, now: DateTime)
    requires ValidDateTime(now)
    requires q in db.questions && forall x :: x in db.questions && x.id == q.id ==> x == q
    ensures var data := map["question_id" := Str(IdStr(q.id)), "user" := Account(u), "message" := Str(msg)];
      && QuestionCommentHandler(db, c1, data, commentId, now) == QuestionCommentHandler(db, c2, data, commentId, now)
      && QuestionCommentHandler(db, c1, data, commentId, now).Ok?
      && QuestionCommentHandler(db, c1, data, commentId, now).value.0.comments
         == db.comments + [QuestionComment(commentId, u.id, q.id, msg, now)]
  {
    var data := map["question_id" := Str(IdStr(q.id)), "user" := Account(u), "message" := Str(msg)];
    IdStrRoundTrip(q.id);
    assert LookupId(db.questions, QuestionId, data["question_id"], "CourseQuestion") == Ok(q);
  }

  // ---------------------------------------------------------------------
  // Event names, EVENT_HANDLERS and send_message

  /** The five event types of `HANDLERS_DICT` (a set, despite its name). */
  datatype EventType = ChatEvent | AnnouncementEvent | AnnouncementCommentEvent | QuestionEvent | QuestionCommentEvent

  function EventName(e: EventType): string {
    match e
    case ChatEvent => "chat"
    case AnnouncementEvent => "announcement"
    case AnnouncementCommentEvent => "announcement_comment"
    case QuestionEvent => "question"
    case QuestionCommentEvent => "question_comment"
  }

  const EVENT_NAMES: set<string> := {"chat", "announcement", "announcement_comment", "question", "question_comment"}

  function ParseEventType(s: string): (r: Option<EventType>)
    ensures r.Some? <==> s in EVENT_NAMES
    ensures r.Some? ==> EventName(r.value) == s
  {
    if s == "chat" then Some(ChatEvent)
    else if s == "announcement" then Some(AnnouncementEvent)
    else if s == "announcement_comment" then Some(AnnouncementCommentEvent)
    else if s == "question" then Some(QuestionEvent)
    else if s == "question_comment" then Some(QuestionCommentEvent)
    else None
  }

  /** Every event type is named, and by a name of its own. */
  lemma EventNameRoundTrip(e: EventType)
    ensures EventName(e) in EVENT_NAMES
    ensures ParseEventType(EventName(e)) == Some(e)
  {
  }

  datatype Handler = HandlesChat | HandlesQuestionComment

  /** `EVENT_HANDLERS`: only chat and question comments have a handler. */
  function EventHandler(name: string): (r: Option<Handler>)
    ensures r.Some? <==> name == "chat" || name == "question_comment"
    ensures r.Some? ==> name in EVENT_NAMES
  {
    if name == "chat" then Some(HandlesChat)
    else if name == "question_comment" then Some(HandlesQuestionComment)
    else None
  }

  /** The `data` of a group message: the event type's string and the payload. */
  datatype Envelope = Envelope(eventType: string, data: map<string, string>)

  datatype GroupMessage = GroupMessage(group: string, kind: string, data: Envelope)

  /** `SocketService.send_message`: what is handed to `group_send`. */
  function SendMessage(courseId: string, eventType: string, data: map<string, string>): (r: GroupMessage)
    ensures r.group == ChannelName(courseId)
    ensures r.kind == "send.message"
    ensures r.data == Envelope(eventType, data)
  {
    GroupMessage(ChannelName(courseId), "send.message", Envelope(eventType, data))
  }

  /** Messages for different courses go to different groups. */
  lemma SendMessageReachesOneCourse(c1: string, c2: string, t: string, d: map<string, string>)
    ensures SendMessage(c1, t, d).group == SendMessage(c2, t, d).group ==> c1 == c2
  {
    ChannelNameInjective(c1, c2);
  }
}

=== FILE: course_model.dfy ===
/**
  Rows and row-level rules of backend/core/models/course.py: courses and who
  takes part in them, modules and contents, reviews, questions and their
  comments, categories, and the chat room with its polymorphic messages.
 */
module CourseModel {
  import opened Common
  import opened Base
  import opened UserModel

  /** `price` in cents; `owner` and `coInstructors` are Instructor ids. */
  datatype Course = Course(id: Uuid, owner: Uuid, title: string, price: int, coInstructors: set<Uuid>)

  /** The `through` row of `Course.students`; unique per (user, course). */
  datatype CourseStudent = CourseStudent(user: Uuid, course: Uuid)

  datatype CourseModule = CourseModule(id: Uuid, course: Uuid, order: nat)
  datatype Content = Content(id: Uuid, courseModule: Uuid, order: nat)
  datatype CourseQuestion = CourseQuestion(id: Uuid, user: Uuid, course: Uuid, createdAt: DateTime)
  datatype QuestionComment = QuestionComment(id: Uuid, user: Uuid, question: Uuid, message: string, createdAt: DateTime)
  datatype CourseCategory = CourseCategory(name: string, slug: string)

  /** CourseChatRoom: one per course. */
  datatype ChatRoom = ChatRoom(id: Uuid, course: Uuid)

  /** MessageText, MessageAudio and MessageImage: exactly one payload per message.
      `file` is the stored file's path. */
  datatype ChatPayload = Text(content: string) | Audio(file: string) | Image(file: string)
  datatype PayloadRow = PayloadRow(id: Uuid, payload: ChatPayload)

  /** CourseMessage: the payload is referenced through its generic foreign key. */
  datatype CourseMessage = CourseMessage(id: Uuid, room: Uuid, user: Uuid, payload: Uuid, createdAt: DateTime)

  /** The values of CourseMessageType. */
  const MessageTypes: seq<string> := ["audio", "text", "file"]

  /** The CourseMessageType a payload kind stands for. */
  function MessageType(p: ChatPayload): (t: string)
    ensures t in MessageTypes
  {
    match p
    case Text(_) => "text"
    case Audio(_) => "audio"
    case Image(_) => "file"
  }

  /** `json_data` of the three payload models. */
  function JsonData(p: ChatPayload): (m: map<string, string>)
    ensures p.Text? ==> m == map["content" := p.content]
    ensures !p.Text? ==> m == map["file" := p.file]
  {
    match p
    case Text(c) => map["content" := c]
    case Audio(f) => map["file" := f]
    case Image(f) => map["file" := f]
  }

  /** The payload can be told from its JSON keys and type, and read back from them. */
  lemma JsonDataDetermines(p: ChatPayload, q: ChatPayload)
    ensures MessageType(p) == MessageType(q) && JsonData(p) == JsonData(q) ==> p == q
  {
    if MessageType(p) == MessageType(q) && JsonData(p) == JsonData(q) {
      match p
      case Text(c) => assert JsonData(q)["content"] == c;
      case Audio(f) => assert JsonData(q)["file"] == f;
      case Image(f) => assert JsonData(q)["file"] == f;
    }
  }

  // ---------------------------------------------------------------------
  // Who takes part in a course

  /** `Course.is_instructor`: the instructor owns the course. */
  predicate IsCourseInstructor(c: Course, i: Instructor) {
    c.owner == i.id
  }

  /** `Course.is_co_instructor`: the instructor is among the co-instructors. */
  predicate IsCoInstructor(c: Course, i: Instructor) {
    i.id in c.coInstructors
  }

  predicate Enrolled(students: seq<CourseStudent>, course: Uuid, user: Uuid) {
    CourseStudent(user, course) in students
  }

  /** The instructor row of a user (the `user.instructor` one-to-one accessor). */
  function InstructorOf(instructors: seq<Instructor>, user: Uuid): (r: Option<Instructor>)
    ensures r.Some? ==> r.value in instructors && r.value.user == user
    ensures r.None? ==> forall i :: i in instructors ==> i.user != user
  {
    First(instructors, (i: Instructor) => i.user == user)
  }

  /** `Course.is_participant`. An enrolled student is a participant; otherwise only a
      user flagged `is_instructor` who owns or co-instructs the course is. A flagged
      user without an Instructor row makes `user.instructor` raise. */
  function IsParticipant(c: Course, u: User, students: seq<CourseStudent>, instructors: seq<Instructor>): (r: Result<bool>)
    ensures r == Ok(true) <==>
      Enrolled(students, c.id, u.id)
      || (u.isInstructor && exists i :: i in instructors && i.user == u.id && i == InstructorOf(instructors, u.id).value
                             && (IsCourseInstructor(c, i) || IsCoInstructor(c, i)))
    ensures r.Err? <==> !Enrolled(students, c.id, u.id) && u.isInstructor && InstructorOf(instructors, u.id).None?
    ensures r.Err? ==> r.error == DoesNotExist("Instructor")
    ensures !u.isInstructor ==> r == Ok(Enrolled(students, c.id, u.id))
  {
    if Enrolled(students, c.id, u.id) then Ok(true)
    else if u.isInstructor then
      match InstructorOf(instructors, u.id)
      case None => Err(DoesNotExist("Instructor"))
      case Some(i) => Ok(IsCourseInstructor(c, i) || IsCoInstructor(c, i))
    else Ok(false)
  }

  /** With one Instructor row per user, participation is exactly: enrolled, or an
      instructor who owns or co-instructs the course. */
  lemma ParticipantRule(c: Course, u: User, students: seq<CourseStudent>, instructors: seq<Instructor>, i: Instructor)
    requires i in instructors && i.user == u.id
    requires forall j :: j in instructors && j.user == u.id ==> j == i
    ensures IsParticipant(c, u, students, instructors) ==
      Ok(Enrolled(students, c.id, u.id) || (u.isInstructor && (c.owner == i.id || i.id in c.coInstructors)))
  {
  }

  /** No two rows for the same (user, course): the `user_course_unique` constraint. */
  predicate UniqueEnrolment(students: seq<CourseStudent>) {
    forall a, b :: 0 <= a < b < |students| ==> students[a] != students[b]
  }

  // ---------------------------------------------------------------------
  // Validators and save hooks

  /** The validators of `CourseReview.rating`. */
  function ValidateRating(rating: int): (r: Result<int>)
    ensures r.Ok? <==> 1 <= rating <= 5
    ensures r.Ok? ==> r.value == rating
    ensures rating < 1 ==> r == Err(ValidationError("Ensure this value is greater than or equal to 1."))
    ensures rating > 5 ==> r == Err(ValidationError("Ensure this value is less than or equal to 5."))
  {
    if rating < 1 then Err(ValidationError("Ensure this value is greater than or equal to 1."))
    else if rating > 5 then Err(ValidationError("Ensure this value is less than or equal to 5."))
    else Ok(rating)
  }

  /** `CourseCategory.save`: the slug is derived from the name only when it is empty. */
  function SaveCategory(cat: CourseCategory, slugify: string -> string): (r: CourseCategory)
    ensures r.name == cat.name
    ensures cat.slug != "" ==> r == cat
    ensures cat.slug == "" ==> r.slug == slugify(cat.name)
  {
    if cat.slug == "" then cat.(slug := slugify(cat.name)) else cat
  }

  /** Saving twice is saving once. */
  lemma SaveCategoryIdempotent(cat: CourseCategory, slugify: string -> string)
    ensures SaveCategory(SaveCategory(cat, slugify), slugify) == SaveCategory(cat, slugify)
  {
  }
}

=== FILE: db.dfy ===
/**
  The database the services work on: one sequence of rows per table, in
  insertion order. Rows are appended by `create`, rewritten by `save`/`update`
  and removed by `delete`; lookups by primary key take the first match.
 */
module Db {
  import opened Common
  import opened Base
  import opened UserModel
  import opened CourseModel
  import opened Sales
  import opened Withdrawal

  datatype Db = Db(
    users: seq<User>,
    instructors: seq<Instructor>,
    otps: seq<OtpToken>,
    wallets: seq<InstructorWallet>,
    walletTxs: seq<WalletTransaction>,
    transactions: seq<Transaction>,
    courses: seq<Course>,
    students: seq<CourseStudent>,
    modules: seq<CourseModule>,
    contents: seq<Content>,
    questions: seq<CourseQuestion>,
    comments: seq<QuestionComment>,
    rooms: seq<ChatRoom>,
    messages: seq<CourseMessage>,
    payloads: seq<PayloadRow>,
    coupons: seq<Coupon>,
    carts: seq<Cart>,
    cartItems: seq<CartItem>,
    orders: seq<Order>,
    orderItems: seq<OrderItem>,
    infos: seq<InfoRow>,
    withdrawals: seq<WithdrawalRequest>)

  // ---------------------------------------------------------------------
  // Lookups by primary key

  function UserById(db: Db, id: Uuid): (r: Option<User>)
    ensures r.Some? ==> r.value in db.users && r.value.id == id
    ensures r.None? ==> forall u :: u in db.users ==> u.id != id
  {
    First(db.users, (u: User) => u.id == id)
  }

  function CourseById(db: Db, id: Uuid): (r: Option<Course>)
    ensures r.Some? ==> r.value in db.courses && r.value.id == id
    ensures r.None? ==> forall c :: c in db.courses ==> c.id != id
  {
    First(db.courses, (c: Course) => c.id == id)
  }

  function CouponById(db: Db, id: Uuid): (r: Option<Coupon>)
    ensures r.Some? ==> r.value in db.coupons && r.value.id == id
    ensures r.None? ==> forall c :: c in db.coupons ==> c.id != id
  {
    First(db.coupons, (c: Coupon) => c.id == id)
  }

  /** The refs the stored orders hold, which the `unique` ref column keeps apart. */
  function OrderRefs(db: Db): set<string> {
    set o | o in db.orders :: o.ref
  }

  /** The refs the stored transactions hold. */
  function TxRefs(db: Db): set<string> {
    set t | t in db.transactions :: t.ref
  }

  function OrderById(db: Db, id: Uuid): (r: Option<Order>)
    ensures r.Some? ==> r.value in db.orders && r.value.id == id
    ensures r.None? ==> forall o :: o in db.orders ==> o.id != id
  {
    First(db.orders, (o: Order) => o.id == id)
  }

  function WalletById(db: Db, id: Uuid): (r: Option<InstructorWallet>)
    ensures r.Some? ==> r.value in db.wallets && r.value.id == id
    ensures r.None? ==> forall w :: w in db.wallets ==> w.id != id
  {
    First(db.wallets, (w: InstructorWallet) => w.id == id)
  }

  function WalletTxById(db: Db, id: Uuid): (r: Option<WalletTransaction>)
    ensures r.Some? ==> r.value in db.walletTxs && r.value.id == id
    ensures r.None? ==> forall t :: t in db.walletTxs ==> t.id != id
  {
    First(db.walletTxs, (t: WalletTransaction) => t.id == id)
  }

  /** The object a nullable coupon foreign key resolves to. */
  function CouponOf(db: Db, id: Option<Uuid>): (r: Option<Coupon>)
    ensures id.None? ==> r.None?
    ensures id.Some? ==> r == CouponById(db, id.value)
  {
    if id.None? then None else CouponById(db, id.value)
  }

  // ---------------------------------------------------------------------
  // CourseStudent.objects.create

  /** Creating an enrolment row; the `user_course_unique` constraint refuses a second
      row for the same (user, course). */
  function Enrol(db: Db, user: Uuid, course: Uuid): (r: Result<Db>)
    ensures r.Err? <==> Enrolled(db.students, course, user)
    ensures r.Err? ==> r.error == IntegrityError("user_course_unique")
    ensures r.Ok? ==> r.value == db.(students := db.students + [CourseStudent(user, course)])
  {
    if Enrolled(db.students, course, user) then Err(IntegrityError("user_course_unique"))
    else Ok(db.(students := db.students + [CourseStudent(user, course)]))
  }

  /** Enrolling keeps the enrolment table free of duplicates, and the user is enrolled afterwards. */
  lemma EnrolKeepsUnique(db: Db, user: Uuid, course: Uuid)
    requires UniqueEnrolment(db.students)
    ensures Enrol(db, user, course).Ok? ==> UniqueEnrolment(Enrol(db, user, course).value.students)
    ensures Enrol(db, user, course).Ok? ==> Enrolled(Enrol(db, user, course).value.students, course, user)
  {
    if Enrol(db, user, course).Ok? {
      var s := db.students;
      var s' := s + [CourseStudent(user, course)];
      forall a, b | 0 <= a < b < |s'|
        ensures s'[a] != s'[b]
      {
        if b == |s| {
          assert s'[a] == s[a] && s[a] in s;
        } else {
          assert s'[a] == s[a] && s'[b] == s[b];
        }
      }
    }
  }
}

=== FILE: field_checks.dfy ===
/**
  The DRF field checks the request serializers are declared with. A request body
  is a map from field names to the text sent; a field's check gives the message
  it reports, None when it accepts. DRF checks every declared field and reports
  the failing ones together, keyed by field name, before a serializer's own
  `validate` runs.
 */
module FieldChecks {
  import opened Common
  import opened Base
  import opened UserModel

  const REQUIRED: string := "This field is required."
  const BLANK: string := "This field may not be blank."
  const NULL_CHARACTERS: string := "Null characters are not allowed."
  const INVALID_UUID: string := "Must be a valid UUID."

  function InvalidChoice(v: string): string {
    "\"" + v + "\" is not a valid choice."
  }

  /** What a `CharField()` accepts: present, not blank, and without NUL characters. */
  predicate CharFieldOk(data: map<string, string>, key: string) {
    key in data && Strip(data[key]) != "" && '\0' !in data[key]
  }

  /** A `CharField()`: present, not blank once whitespace is trimmed, and free of NUL
      characters (the validator every CharField carries; it sees the trimmed value, which
      holds a NUL exactly when the raw one does). */
  function CharError(data: map<string, string>, key: string): (e: Option<string>)
    ensures e.None? <==> CharFieldOk(data, key)
    ensures key !in data ==> e == Some(REQUIRED)
    ensures key in data && Strip(data[key]) == "" ==> e == Some(BLANK)
    ensures key in data && Strip(data[key]) != "" && '\0' in data[key] ==> e == Some(NULL_CHARACTERS)
  {
    if key !in data then Some(REQUIRED)
    else if Strip(data[key]) == "" then Some(BLANK)
    else if '\0' in data[key] then Some(NULL_CHARACTERS)
    else None
  }

  /** A `CharField(required=False)`: absent is fine, present must not be blank. */
  function OptionalCharError(data: map<string, string>, key: string): (e: Option<string>)
    ensures e.None? <==> key !in data || CharFieldOk(data, key)
  {
    if key !in data then None else CharError(data, key)
  }

  /** A `CharField()` on its own: the trimmed value, or the serializer's error dictionary
      naming the field. */
  function CharField(data: map<string, string>, key: string): (r: Result<string>)
    ensures r.Ok? <==> CharFieldOk(data, key)
    ensures r.Ok? ==> r.value == Strip(data[key])
    ensures r.Err? ==> r.error == FieldErrors(map[key := CharError(data, key).value])
  {
    match CharError(data, key)
    case Some(m) => Err(FieldErrors(map[key := m]))
    case None => Ok(Strip(data[key]))
  }

  /** A `ChoiceField(choices)`: present and one of the choices (no trimming). */
  function ChoiceError(data: map<string, string>, key: string, choices: set<string>): (e: Option<string>)
    ensures e.None? <==> key in data && data[key] in choices
    ensures key !in data ==> e == Some(REQUIRED)
    ensures key in data && data[key] !in choices ==> e == Some(InvalidChoice(data[key]))
  {
    if key !in data then Some(REQUIRED)
    else if data[key] !in choices then Some(InvalidChoice(data[key]))
    else None
  }

  /** A `UUIDField()`. */
  function UuidError(data: map<string, string>, key: string): (e: Option<string>)
    ensures e.None? <==> key in data && ParseUuid(data[key]).Some?
    ensures key !in data ==> e == Some(REQUIRED)
  {
    if key !in data then Some(REQUIRED)
    else if ParseUuid(data[key]).None? then Some(INVALID_UUID)
    else None
  }

  /** Records a field's error in a serializer's error dictionary. */
  function AddError(m: map<string, string>, key: string, e: Option<string>): (r: map<string, string>)
    ensures e.Some? ==> key in r && r[key] == e.value
    ensures e.None? ==> r == m
    ensures m.Keys <= r.Keys && r.Keys <= m.Keys + {key}
  {
    if e.Some? then m[key := e.value] else m
  }
}

=== FILE: payment.dfy ===
/**
  Paying for an item: what verifying a transaction does to the order or wallet
  transaction it is for (`Order.tx_verify`, `WalletTransaction.tx_verify`,
  `Transaction.verify`) and how `CoreService.verify_transaction` reports a failure.
 */
module Payment {
  import opened Common
  import opened Base
  import opened UserModel
  import opened CourseModel
  import opened Sales
  import opened Db
  import opened Commerce
  import opened WalletService

  /** No value twice. */
  predicate Distinct(s: seq<Uuid>) {
    forall a, b :: 0 <= a < b < |s| ==> s[a] != s[b]
  }

  /** The enrolment rows for `user` in `courses`, in that order. */
  function EnrolmentRows(user: Uuid, courses: seq<Uuid>): (r: seq<CourseStudent>)
    ensures |r| == |courses|
    ensures forall k :: 0 <= k < |courses| ==> r[k] == CourseStudent(user, courses[k])
  {
    seq(|courses|, k requires 0 <= k < |courses| => CourseStudent(user, courses[k]))
  }

  /** `CourseStudent.objects.create(course=c, user=user)` for each course in turn, on the
      enrolment table. The first refused row stops the loop; the rows created before it stay. */
  function EnrolEach(students: seq<CourseStudent>, user: Uuid, courses: seq<Uuid>)
    : (r: (seq<CourseStudent>, Result<()>))
    ensures |students| <= |r.0| && r.0[..|students|] == students
    ensures r.1.Err? ==> r.1.error == IntegrityError("user_course_unique")
    ensures r.1.Ok? <==> Distinct(courses) && NoneEnrolled(students, user, courses)
    ensures r.1.Ok? ==> r.0 == students + EnrolmentRows(user, courses)
    decreases |courses|
  {
    if |courses| == 0 then (students, Ok(()))
    else if Enrolled(students, courses[0], user) then (students, Err(IntegrityError("user_course_unique")))
    else
      var tail := courses[1..];
      var more := students + [CourseStudent(user, courses[0])];
      var r := EnrolEach(more, user, tail);
      DistinctCons(courses);
      NoneEnrolledCons(students, user, courses);
      assert r.1.Ok? ==> EnrolmentRows(user, courses) == [CourseStudent(user, courses[0])] + EnrolmentRows(user, tail);
      assert r.0[..|more|] == more;
      assert more[..|students|] == students;
      r
  }

  /** None of `courses` already has a row for `user`. */
  predicate NoneEnrolled(students: seq<CourseStudent>, user: Uuid, courses: seq<Uuid>) {
    forall k :: 0 <= k < |courses| ==> !Enrolled(students, courses[k], user)
  }

  lemma DistinctCons(s: seq<Uuid>)
    requires |s| > 0
    ensures Distinct(s) <==> Distinct(s[1..]) && forall k :: 0 <= k < |s| - 1 ==> s[1..][k] != s[0]
  {
    var tail := s[1..];
    if Distinct(tail) && forall k :: 0 <= k < |tail| ==> tail[k] != s[0] {
      forall a, b | 0 <= a < b < |s| ensures s[a] != s[b] {
        if a == 0 { assert s[b] == tail[b - 1]; }
        else { assert s[a] == tail[a - 1] && s[b] == tail[b - 1]; }
      }
    }
  }

  /** Creating the row for the first course: the rest must be distinct from it and not
      enrolled before. */
  lemma NoneEnrolledCons(students: seq<CourseStudent>, user: Uuid, courses: seq<Uuid>)
    requires |courses| > 0
    ensures NoneEnrolled(students, user, courses) <==>
      !Enrolled(students, courses[0], user) && NoneEnrolled(students, user, courses[1..])
    ensures NoneEnrolled(students + [CourseStudent(user, courses[0])], user, courses[1..]) <==>
      NoneEnrolled(students, user, courses[1..]) && forall k :: 0 <= k < |courses| - 1 ==> courses[1..][k] != courses[0]
  {
    var tail := courses[1..];
    if NoneEnrolled(students, user, tail) {
      forall k | 1 <= k < |courses| ensures !Enrolled(students, courses[k], user) {
        assert courses[k] == tail[k - 1];
      }
    }
  }

  // ---------------------------------------------------------------------
  // Order.tx_verify

  /** `order.orderitem_set.all()`: the order's items, newest first. */
  function ItemsOfOrder(db: Db, order: Uuid): (r: seq<OrderItem>)
    ensures forall i :: i in r <==> i in db.orderItems && i.order == order
    ensures multiset(r) == multiset(Filter(db.orderItems, OfOrder(order)))
  {
    var mine := Filter(db.orderItems, OfOrder(order));
    var r := SortBy(mine, (i: OrderItem) => -Ord(i.createdAt));
    SameMembers(r, mine);
    r
  }

  function CourseIds(items: seq<OrderItem>): (r: seq<Uuid>)
    ensures |r| == |items|
    ensures forall k :: 0 <= k < |items| ==> r[k] == items[k].course
  {
    seq(|items|, k requires 0 <= k < |items| => items[k].course)
  }

  /** `Order.tx_verify`: the order is saved as PAID, then its buyer is enrolled in the
      course of each of its items. A refused enrolment ends it there; the status and the
      rows created before it stay. */
  function OrderTxVerify(db: Db, order: Order): (r: (Db, Result<()>))
    ensures r.0 == db.(orders := r.0.orders, students := r.0.students)
    ensures OrderById(db, order.id).Some? ==> OrderById(r.0, order.id) == Some(order.(status := Paid))
    ensures |db.students| <= |r.0.students| && r.0.students[..|db.students|] == db.students
    ensures r.1.Err? ==> r.1.error == IntegrityError("user_course_unique")
    ensures r.1.Ok? <==>
      Distinct(CourseIds(ItemsOfOrder(db, order.id))) && NoneEnrolled(db.students, order.user, CourseIds(ItemsOfOrder(db, order.id)))
    ensures r.1.Ok? ==> r.0.students == db.students + EnrolmentRows(order.user, CourseIds(ItemsOfOrder(db, order.id)))
  {
    var paid := order.(status := Paid);
    var sameId := (o: Order) => o.id == order.id;
    FirstAfterUpdate(db.orders, sameId, (o: Order) => paid, sameId);
    var db1 := db.(orders := Update(db.orders, sameId, (o: Order) => paid));
    var (students, result) := EnrolEach(db.students, order.user, CourseIds(ItemsOfOrder(db, order.id)));
    (db1.(students := students), result)
  }

  /** After a successful payment the buyer is enrolled in the course of every item of the
      order. */
  lemma PaidOrderEnrols(db: Db, order: Order, i: OrderItem)
    requires OrderTxVerify(db, order).1.Ok?
    requires i in db.orderItems && i.order == order.id
    ensures Enrolled(OrderTxVerify(db, order).0.students, i.course, order.user)
  {
    var items := ItemsOfOrder(db, order.id);
    var k :| 0 <= k < |items| && items[k] == i;
    var rows := EnrolmentRows(order.user, CourseIds(items));
    assert rows[k] == CourseStudent(order.user, i.course);
    assert (db.students + rows)[|db.students| + k] == rows[k];
  }

  /** ... and so takes part in each of those courses. */
  lemma PaidOrderMakesParticipant(db: Db, order: Order, i: OrderItem, c: Course, u: User)
    requires OrderTxVerify(db, order).1.Ok?
    requires i in db.orderItems && i.order == order.id
    requires c.id == i.course && u.id == order.user
    ensures IsParticipant(c, u, OrderTxVerify(db, order).0.students, OrderTxVerify(db, order).0.instructors) == Ok(true)
  {
    PaidOrderEnrols(db, order, i);
  }

  /** Paying an order a second time fails: its first course is already taken. */
  lemma PayingTwiceFails(db: Db, order: Order)
    requires OrderTxVerify(db, order).1.Ok?
    requires exists i :: i in db.orderItems && i.order == order.id
    ensures OrderTxVerify(OrderTxVerify(db, order).0, order).1 == Err(IntegrityError("user_course_unique"))
  {
    var r := OrderTxVerify(db, order).0;
    var i :| i in db.orderItems && i.order == order.id;
    PaidOrderEnrols(db, order, i);
    assert r.orderItems == db.orderItems;
    var items := ItemsOfOrder(r, order.id);
    assert i in items;
    var k :| 0 <= k < |items| && items[k] == i;
    assert !NoneEnrolled(r.students, order.user, CourseIds(items));
  }

  // ---------------------------------------------------------------------
  // WalletTransaction.tx_verify on the store

  /** `WalletTransaction.tx_verify` for the stored transaction `id` (atomic). A pending
      one is saved as SUCCESS and its wallet's stored amount is raised by its amount,
      credit or debit alike; any other status writes nothing. A missing wallet rolls the
      status change back. */
  function WalletTxVerifyStored(db: Db, t: WalletTransaction): (r: (Db, Result<()>))
    ensures r.0 == db.(walletTxs := r.0.walletTxs, wallets := r.0.wallets)
    ensures t.status != Pending ==> r == (db, Ok(()))
    ensures t.status == Pending && WalletById(db, t.wallet).None? ==>
      r == (db, Err(DoesNotExist("InstructorWallet")))
    ensures t.status == Pending && WalletById(db, t.wallet).Some? ==>
      && r.1.Ok?
      && (WalletTxById(db, t.id).Some? ==> WalletTxById(r.0, t.id) == Some(t.(status := Success)))
      && WalletById(r.0, t.wallet).Some?
      && WalletById(r.0, t.wallet).value.amount == WalletById(db, t.wallet).value.amount + t.amount
  {
    if t.status != Pending then (db, Ok(()))
    else match WalletById(db, t.wallet)
      case None => (db, Err(DoesNotExist("InstructorWallet")))
      case Some(w) =>
        var (t1, w1) := WalletTxVerify(t, w);
        var sameTx := (x: WalletTransaction) => x.id == t.id;
        var sameWallet := (x: InstructorWallet) => x.id == w.id;
        FirstAfterUpdate(db.walletTxs, sameTx, (x: WalletTransaction) => t1, sameTx);
        FirstAfterUpdate(db.wallets, sameWallet, (x: InstructorWallet) => w1, sameWallet);
        (db.(walletTxs := Update(db.walletTxs, sameTx, (x: WalletTransaction) => t1),
             wallets := Update(db.wallets, sameWallet, (x: InstructorWallet) => w1)), Ok(()))
  }

  /** A wallet transaction credits its wallet once: verifying the stored transaction again
      writes nothing. */
  lemma WalletTxCreditsOnce(db: Db, t: WalletTransaction)
    requires WalletTxById(db, t.id) == Some(t)
    requires WalletTxVerifyStored(db, t).1.Ok?
    ensures var db1 := WalletTxVerifyStored(db, t).0;
      WalletTxById(db1, t.id).Some? && WalletTxVerifyStored(db1, WalletTxById(db1, t.id).value) == (db1, Ok(()))
  {
  }

  /** Wallet ids are primary keys. */
  predicate UniqueWalletIds(ws: seq<InstructorWallet>) {
    forall a, b :: 0 <= a < b < |ws| ==> ws[a].id != ws[b].id
  }

  /** The wallet rows after a pending wallet transaction is verified: every row with the
      wallet's id is the credited wallet, the rest are as they were. */
  lemma VerifiedWalletRows(db: Db, t: WalletTransaction, w: InstructorWallet)
    requires t.status == Pending && WalletById(db, t.wallet) == Some(w)
    ensures var nw := WalletTxVerifyStored(db, t).0.wallets;
      |nw| == |db.wallets|
      && forall k :: 0 <= k < |nw| ==> nw[k] == (if db.wallets[k].id == w.id then AddBalance(w, t.amount) else db.wallets[k])
  {
  }

  /** Writing one wallet back by its id replaces exactly that row. */
  lemma WriteBackOneWallet(ws: seq<InstructorWallet>, nw: seq<InstructorWallet>, j: nat, w1: InstructorWallet)
    requires UniqueWalletIds(ws) && j < |ws| && |nw| == |ws|
    requires forall k :: 0 <= k < |nw| ==> nw[k] == (if ws[k].id == ws[j].id then w1 else ws[k])
    ensures nw == ws[j := w1]
  {
    forall k | 0 <= k < |ws| ensures nw[k] == ws[j := w1][k] {
      if k < j { assert ws[k].id != ws[j].id; }
      if j < k { assert ws[j].id != ws[k].id; }
    }
  }

  /** With one wallet per instructor, replacing it by a wallet of the same instructor
      leaves that one as the instructor's wallet. */
  lemma OwnerAfterReplace(ws: seq<InstructorWallet>, j: nat, w1: InstructorWallet, instructor: Uuid)
    requires UniqueWalletIds(ws) && j < |ws|
    requires Filter(ws, OwnedBy(instructor)) == [ws[j]] && w1.instructor == instructor
    ensures Filter(ws[j := w1], OwnedBy(instructor)) == [w1]
  {
    var nw := ws[j := w1];
    forall k | 0 <= k < |ws| && k != j ensures !OwnedBy(instructor)(ws[k]) {
      assert ws[k].id != ws[j].id by {
        if k < j { assert ws[k].id != ws[j].id; } else { assert ws[j].id != ws[k].id; }
      }
      assert ws[k] in ws;
    }
    FilterLengthPointwise(ws, nw, OwnedBy(instructor));
    var f := Filter(nw, OwnedBy(instructor));
    assert f[0] in f;
    var k :| 0 <= k < |nw| && nw[k] == f[0];
    assert f == [w1];
  }

  /** The wallet `get(instructor=...)` returns is the instructor's only wallet. */
  lemma SoleWallet(db: Db, instructor: Uuid)
    requires WalletOf(db, instructor).Ok?
    ensures Filter(db.wallets, OwnedBy(instructor)) == [WalletOf(db, instructor).value]
  {
    var mine := Filter(db.wallets, OwnedBy(instructor));
    assert WalletOf(db, instructor).value in mine;
  }

  /** With unique ids, a stored wallet is the one its id finds, at its position. */
  lemma WalletIndex(db: Db, id: Uuid, w: InstructorWallet) returns (j: nat)
    requires UniqueWalletIds(db.wallets) && w in db.wallets && w.id == id
    ensures WalletById(db, id) == Some(w) && j < |db.wallets| && db.wallets[j] == w
  {
    var ws := db.wallets;
    var found := WalletById(db, id).value;
    j :| 0 <= j < |ws| && ws[j] == found;
    var i :| 0 <= i < |ws| && ws[i] == w;
    SameIdSameWallet(ws, i, j);
  }

  /** Two rows with the same wallet id are the same row. */
  lemma SameIdSameWallet(ws: seq<InstructorWallet>, i: nat, j: nat)
    requires UniqueWalletIds(ws) && i < |ws| && j < |ws| && ws[i].id == ws[j].id
    ensures i == j
  {
  }

  /** An instructor with exactly one wallet has that wallet's balance, so replacing it
      by a wallet holding `x` more raises the balance by `x`. */
  lemma SoleWalletBalance(db: Db, db1: Db, instructor: Uuid, w: InstructorWallet, w1: InstructorWallet, x: int)
    requires Filter(db.wallets, OwnedBy(instructor)) == [w]
    requires Filter(db1.wallets, OwnedBy(instructor)) == [w1] && w1.amount == w.amount + x
    ensures WalletBalance(db, instructor) == Ok(w.amount)
    ensures WalletBalance(db1, instructor).Ok? && WalletBalance(db1, instructor).value == WalletBalance(db, instructor).value + x
  {
  }

  /** After a pending wallet transaction is verified, the instructor still has exactly one
      wallet, the old one credited with the amount. */
  lemma CreditedSoleWallet(db: Db, t: WalletTransaction, instructor: Uuid)
    requires UniqueWalletIds(db.wallets) && t.status == Pending
    requires WalletOf(db, instructor).Ok? && WalletOf(db, instructor).value.id == t.wallet
    ensures Filter(db.wallets, OwnedBy(instructor)) == [WalletOf(db, instructor).value]
    ensures Filter(WalletTxVerifyStored(db, t).0.wallets, OwnedBy(instructor))
         == [AddBalance(WalletOf(db, instructor).value, t.amount)]
  {
    var w := WalletOf(db, instructor).value;
    var w1 := AddBalance(w, t.amount);
    var ws := db.wallets;
    SoleWallet(db, instructor);
    var j := WalletIndex(db, t.wallet, w);
    VerifiedWalletRows(db, t, w);
    WriteBackOneWallet(ws, WalletTxVerifyStored(db, t).0.wallets, j, w1);
    OwnerAfterReplace(ws, j, w1, instructor);
  }

  /** Verifying a pending wallet transaction raises the balance `get_wallet_balance`
      reports for the wallet's instructor by exactly the transaction's amount. */
  lemma CreditRaisesWalletBalance(db: Db, t: WalletTransaction, instructor: Uuid)
    requires UniqueWalletIds(db.wallets) && t.status == Pending
    requires WalletOf(db, instructor).Ok? && WalletOf(db, instructor).value.id == t.wallet
    ensures WalletBalance(db, instructor).Ok?
    ensures WalletBalance(WalletTxVerifyStored(db, t).0, instructor).Ok?
    ensures WalletBalance(WalletTxVerifyStored(db, t).0, instructor).value == WalletBalance(db, instructor).value + t.amount
  {
    var w := WalletOf(db, instructor).value;
    CreditedSoleWallet(db, t, instructor);
    SoleWalletBalance(db, WalletTxVerifyStored(db, t).0, instructor, w, AddBalance(w, t.amount), t.amount);
  }

  // ---------------------------------------------------------------------
  // Transaction.verify and CoreService.verify_transaction

  /** `Transaction.verify`: calls `tx_verify` on the item the transaction points at. A
      dangling item reads as `None`, which has no `tx_verify`. The transaction row itself
      is never written. */
  function TxVerify(db: Db, tx: Transaction): (r: (Db, Result<()>))
    ensures r.0.transactions == db.transactions
    ensures tx.item.ForOrder? && OrderById(db, tx.item.order).None? ==> r == (db, Err(AttributeError("tx_verify")))
    ensures tx.item.ForOrder? && OrderById(db, tx.item.order).Some? ==>
      r == OrderTxVerify(db, OrderById(db, tx.item.order).value)
    ensures tx.item.ForWalletTransaction? && WalletTxById(db, tx.item.walletTx).None? ==>
      r == (db, Err(AttributeError("tx_verify")))
    ensures tx.item.ForWalletTransaction? && WalletTxById(db, tx.item.walletTx).Some? ==>
      r == WalletTxVerifyStored(db, WalletTxById(db, tx.item.walletTx).value)
  {
    match tx.item
    case ForOrder(id) =>
      (match OrderById(db, id)
       case None => (db, Err(AttributeError("tx_verify")))
       case Some(o) => OrderTxVerify(db, o))
    case ForWalletTransaction(id) =>
      (match WalletTxById(db, id)
       case None => (db, Err(AttributeError("tx_verify")))
       case Some(t) => WalletTxVerifyStored(db, t))
  }

  /** `CoreService.verify_transaction` as written: any failure of `tx.verify()` becomes a
      validation error carrying it under "detail"; whatever the item wrote before failing
      stays, and the transaction keeps its status. */
  function VerifyTransaction(db: Db, tx: Transaction): (r: (Db, Result<()>))
    ensures r.0 == TxVerify(db, tx).0 && r.0.transactions == db.transactions
    ensures r.1.Ok? <==> TxVerify(db, tx).1.Ok?
    ensures r.1.Err? ==> r.1.error == DetailOf(TxVerify(db, tx).1.error)
  {
    var (db1, result) := TxVerify(db, tx);
    match result
    case Ok(_) => (db1, Ok(()))
    case Err(e) => (db1, Err(DetailOf(e)))
  }

  /** `after` is `before` with every transaction of reference `ref` VERIFIED. */
  predicate MarkedVerified(before: seq<Transaction>, after: seq<Transaction>, ref: string) {
    && |after| == |before|
    && (forall k :: 0 <= k < |before| ==>
          after[k] == if before[k].ref == ref then before[k].(status := Verified) else before[k])
  }

  function MarkVerified(txs: seq<Transaction>, ref: string): (r: seq<Transaction>)
    ensures MarkedVerified(txs, r, ref)
  {
    Update(txs, HasRef(ref), SetVerified)
  }

  /** `Transaction.objects.filter(ref=ref)`. */
  function HasRef(ref: string): Transaction -> bool {
    (t: Transaction) => t.ref == ref
  }

  function SetVerified(t: Transaction): Transaction {
    t.(status := Verified)
  }

  /** `CoreService.verify_transaction` with the transaction marked VERIFIED once its item
      is paid, which the status gate of the verify request relies on. */
  function VerifyTransactionMarking(db: Db, tx: Transaction): (r: (Db, Result<()>))
    ensures r.1 == VerifyTransaction(db, tx).1
    ensures r.1.Err? ==> r.0 == VerifyTransaction(db, tx).0
    ensures r.1.Ok? ==> r.0 == VerifyTransaction(db, tx).0.(transactions := r.0.transactions)
    ensures r.1.Ok? ==> MarkedVerified(db.transactions, r.0.transactions, tx.ref)
  {
    var v := VerifyTransaction(db, tx);
    if v.1.Err? then v
    else (v.0.(transactions := MarkVerified(v.0.transactions, tx.ref)), v.1)
  }
}

=== FILE: permissions.dfy ===
/**
  The permission gates of backend/account/permissions.py (students of a
  course) and backend/instructor/permissions.py (instructors of a course),
  and the view mixins that resolve the course from the URL before the view's
  own permission classes run.

  The requester is `None` for an anonymous request and `Some(user)` for an
  authenticated one. The view's own permission classes are a parameter
  `base`: whether all of them grant the request. DRF answers a denial with
  `NotAuthenticated` when the request carries no credentials and with
  `PermissionDenied` otherwise.
 */
module Permissions {
  import opened Common
  import opened Base
  import opened UserModel
  import opened CourseModel
  import opened Db

  /** `IsActiveUser.has_permission` (both files): a user is present and authenticated.
      `is_active` is not consulted. */
  predicate IsActiveUser(requester: Option<User>) {
    requester.Some?
  }

  /** `permission_denied` of a DRF view. */
  function Denied(requester: Option<User>): (e: Error)
    ensures requester.None? <==> e == NotAuthenticated
    ensures requester.Some? <==> e == PermissionDenied
  {
    if requester.None? then NotAuthenticated else PermissionDenied
  }

  // ---------------------------------------------------------------------
  // The course from the URL

  /** `get_course` of both mixins: a missing `course` kwarg and an unknown course are both
      `ActionNotAllowed`. */
  function GetCourse(db: Db, kwargs: map<string, Uuid>): (r: Result<Course>)
    ensures r.Ok? <==> "course" in kwargs && CourseById(db, kwargs["course"]).Some?
    ensures r.Ok? ==> r.value in db.courses && r.value.id == kwargs["course"]
    ensures r.Err? ==> r.error == ActionNotAllowed
  {
    if "course" !in kwargs then Err(ActionNotAllowed)
    else match CourseById(db, kwargs["course"])
      case None => Err(ActionNotAllowed)
      case Some(c) => Ok(c)
  }

  // ---------------------------------------------------------------------
  // IsCourseStudent

  /** `IsCourseStudent.has_object_permission` as written: an anonymous requester is refused
      without a query; for anyone else `obj.students.filter(user=user)` filters the *User*
      rows of the many-to-many, which have no field `user`, and raises. */
  function IsCourseStudentAsWritten(db: Db, requester: Option<User>, course: Course): (r: Result<bool>)
    ensures r == Ok(false) <==> !IsActiveUser(requester)
    ensures r.Err? <==> IsActiveUser(requester)
    ensures r.Err? ==> r.error == FieldError("user")
  {
    if !IsActiveUser(requester) then Ok(false)
    else Err(FieldError("user"))
  }

  /** `IsCourseStudent.has_object_permission` as evidently intended: an authenticated
      requester enrolled in the course. */
  function IsCourseStudent(db: Db, requester: Option<User>, course: Course): (r: bool)
    ensures r ==> IsActiveUser(requester)
    ensures IsActiveUser(requester) ==> (r <==> Enrolled(db.students, course.id, requester.value.id))
  {
    IsActiveUser(requester) && Enrolled(db.students, course.id, requester.value.id)
  }

  /** An enrolled student passes the intended gate, and the gate agrees with the
      participant rule for users who are not instructors. */
  lemma StudentGateIsParticipantRule(db: Db, u: User, course: Course)
    requires !u.isInstructor
    ensures IsParticipant(course, u, db.students, db.instructors) == Ok(IsCourseStudent(db, Some(u), course))
  {
  }

  /** `CourseStudentPermissionMixin.check_permissions` with a given object check: the
      course is resolved first, then the object check, and only then the view's own
      permission classes. The answer is the course the view keeps. */
  function CheckStudentWith(db: Db, kwargs: map<string, Uuid>, requester: Option<User>, base: bool,
                            check: Result<bool>): Result<Course>
  {
    match GetCourse(db, kwargs)
    case Err(e) => Err(e)
    case Ok(course) =>
      match check
      case Err(e) => Err(e)
      case Ok(false) => Err(Denied(requester))
      case Ok(true) => if base then Ok(course) else Err(Denied(requester))
  }

  /** The mixin as written. */
  function CheckStudentPermissionsAsWritten(db: Db, kwargs: map<string, Uuid>, requester: Option<User>, base: bool): (r: Result<Course>)
    ensures GetCourse(db, kwargs).Err? ==> r == Err(ActionNotAllowed)
    ensures GetCourse(db, kwargs).Ok? && requester.None? ==> r == Err(NotAuthenticated)
    ensures GetCourse(db, kwargs).Ok? && requester.Some? ==> r == Err(FieldError("user"))
  {
    var check := if GetCourse(db, kwargs).Ok? then IsCourseStudentAsWritten(db, requester, GetCourse(db, kwargs).value) else Ok(false);
    CheckStudentWith(db, kwargs, requester, base, check)
  }

  /** The mixin with the intended object check: admitted exactly when the course exists,
      the requester is enrolled in it and the view's own classes agree; a failing course
      lookup wins over everything, and a failing student check wins over the view's
      classes. */
  function CheckStudentPermissions(db: Db, kwargs: map<string, Uuid>, requester: Option<User>, base: bool): (r: Result<Course>)
    ensures r.Ok? <==> GetCourse(db, kwargs).Ok? && IsActiveUser(requester)
                       && Enrolled(db.students, kwargs["course"], requester.value.id) && base
    ensures r.Ok? ==> r.value == GetCourse(db, kwargs).value
    ensures GetCourse(db, kwargs).Err? ==> r == Err(ActionNotAllowed)
    ensures GetCourse(db, kwargs).Ok? && !IsCourseStudent(db, requester, GetCourse(db, kwargs).value) ==>
      r == Err(Denied(requester))
    ensures r.Err? ==> r.error in {ActionNotAllowed, NotAuthenticated, PermissionDenied}
  {
    var check := if GetCourse(db, kwargs).Ok? then Ok(IsCourseStudent(db, requester, GetCourse(db, kwargs).value)) else Ok(false);
    CheckStudentWith(db, kwargs, requester, base, check)
  }

  /** As written, no request with a known course ever gets past the mixin: anonymous
      requesters are refused and everyone else hits the query error, enrolled or not. */
  lemma StudentMixinAdmitsNobody(db: Db, kwargs: map<string, Uuid>, requester: Option<User>, base: bool)
    ensures CheckStudentPermissionsAsWritten(db, kwargs, requester, base).Err?
  {
  }

  /** With the intended check an enrolled student of an existing course is admitted when
      the view's own classes agree. */
  lemma EnrolledStudentAdmitted(db: Db, u: User, c: Course, base: bool)
    requires c in db.courses && Enrolled(db.students, c.id, u.id)
    requires forall x :: x in db.courses && x.id == c.id ==> x == c
    ensures CheckStudentPermissions(db, map["course" := c.id], Some(u), base) == (if base then Ok(c) else Err(PermissionDenied))
  {
  }

  // ---------------------------------------------------------------------
  // IsInstructor and IsCourseInstructor

  /** `IsInstructor.has_permission`: an authenticated requester with an Instructor row.
      The `is_instructor` flag of the user is not consulted. */
  function IsInstructor(db: Db, requester: Option<User>): (r: bool)
    ensures r <==> requester.Some? && exists i :: i in db.instructors && i.user == requester.value.id
  {
    IsActiveUser(requester) && InstructorOf(db.instructors, requester.value.id).Some?
  }

  /** `IsCourseInstructor.has_object_permission` as written: non-instructors are refused;
      for an instructor `obj.instructor` is read from a Course, whose field is `owner`,
      and raises. */
  function IsCourseInstructorAsWritten(db: Db, requester: Option<User>, course: Course): (r: Result<bool>)
    ensures r == Ok(false) <==> !IsInstructor(db, requester)
    ensures r.Err? <==> IsInstructor(db, requester)
    ensures r.Err? ==> r.error == AttributeError("instructor")
  {
    if !IsInstructor(db, requester) then Ok(false)
    else Err(AttributeError("instructor"))
  }

  /** `IsCourseInstructor.has_object_permission` as evidently intended: the requester's
      Instructor row owns the course. Co-instructors are not admitted. */
  function IsCourseInstructor(db: Db, requester: Option<User>, course: Course): (r: bool)
    ensures r ==> IsInstructor(db, requester)
    ensures r <==> IsInstructor(db, requester) && course.owner == InstructorOf(db.instructors, requester.value.id).value.id
  {
    IsInstructor(db, requester) && course.owner == InstructorOf(db.instructors, requester.value.id).value.id
  }

  /** The intended gate is `Course.is_instructor` of the requester's Instructor row; an
      owner flagged as instructor is also a participant of the course. */
  lemma OwnerGateIsParticipant(db: Db, u: User, course: Course)
    requires IsCourseInstructor(db, Some(u), course)
    ensures CourseModel.IsCourseInstructor(course, InstructorOf(db.instructors, u.id).value)
    ensures u.isInstructor ==> IsParticipant(course, u, db.students, db.instructors) == Ok(true)
  {
  }

  /** `CourseInstructorPermissionMixin.check_permissions` with a given object check. */
  function CheckInstructorWith(db: Db, kwargs: map<string, Uuid>, requester: Option<User>, base: bool,
                               check: Result<bool>): Result<Course>
  {
    match GetCourse(db, kwargs)
    case Err(e) => Err(e)
    case Ok(course) =>
      match check
      case Err(e) => Err(e)
      case Ok(false) => Err(Denied(requester))
      case Ok(true) => if base then Ok(course) else Err(Denied(requester))
  }

  /** The instructor mixin as written. */
  function CheckInstructorPermissionsAsWritten(db: Db, kwargs: map<string, Uuid>, requester: Option<User>, base: bool): (r: Result<Course>)
    ensures GetCourse(db, kwargs).Err? ==> r == Err(ActionNotAllowed)
    ensures GetCourse(db, kwargs).Ok? && !IsInstructor(db, requester) ==> r == Err(Denied(requester))
    ensures GetCourse(db, kwargs).Ok? && IsInstructor(db, requester) ==> r == Err(AttributeError("instructor"))
  {
    var check := if GetCourse(db, kwargs).Ok? then IsCourseInstructorAsWritten(db, requester, GetCourse(db, kwargs).value) else Ok(false);
    CheckInstructorWith(db, kwargs, requester, base, check)
  }

  /** The instructor mixin with the intended check: admitted exactly when the course exists,
      the requester's Instructor row owns it and the view's own classes agree. */
  function CheckInstructorPermissions(db: Db, kwargs: map<string, Uuid>, requester: Option<User>, base: bool): (r: Result<Course>)
    ensures r.Ok? <==> GetCourse(db, kwargs).Ok? && IsCourseInstructor(db, requester, GetCourse(db, kwargs).value) && base
    ensures r.Ok? ==> r.value == GetCourse(db, kwargs).value
    ensures GetCourse(db, kwargs).Err? ==> r == Err(ActionNotAllowed)
    ensures GetCourse(db, kwargs).Ok? && !IsCourseInstructor(db, requester, GetCourse(db, kwargs).value) ==>
      r == Err(Denied(requester))
  {
    var check := if GetCourse(db, kwargs).Ok? then Ok(IsCourseInstructor(db, requester, GetCourse(db, kwargs).value)) else Ok(false);
    CheckInstructorWith(db, kwargs, requester, base, check)
  }

  /** As written, no request with a known course gets past the instructor mixin either:
      the owner of the course is refused like everyone else. */
  lemma InstructorMixinAdmitsNobody(db: Db, kwargs: map<string, Uuid>, requester: Option<User>, base: bool)
    ensures CheckInstructorPermissionsAsWritten(db, kwargs, requester, base).Err?
  {
  }

  /** With the intended check the owner of an existing course is admitted when the view's
      own classes agree, and a different instructor is refused. */
  lemma OwnerAdmitted(db: Db, u: User, i: Instructor, c: Course, base: bool)
    requires i in db.instructors && i.user == u.id
    requires forall j :: j in db.instructors && j.user == u.id ==> j == i
    requires c in db.courses && forall x :: x in db.courses && x.id == c.id ==> x == c
    ensures CheckInstructorPermissions(db, map["course" := c.id], Some(u), base) ==
      (if c.owner == i.id && base then Ok(c) else Err(PermissionDenied))
  {
  }
}

=== FILE: sales_model.dfy ===
/**
  Rows and row-level rules of backend/core/models/sales.py: coupons (validity,
  redemption, discount), carts and their items, orders and order items, and
  the price an item is charged.

  Prices are exact rationals: a course price is its amount in cents, and the
  discounted price is `price - discount/100 * price` computed without rounding.
 */
module Sales {
  import opened Common
  import opened Base
  import opened CourseModel

  /** `courses` empty means the coupon applies to every course; `uses` None means unlimited. */
  datatype Coupon = Coupon(
    id: Uuid,
    code: string,
    discount: int,
    validFrom: DateTime,
    validTo: DateTime,
    courses: set<Uuid>,
    uses: Option<nat>)

  /** The validators of `Coupon.discount`. */
  predicate ValidDiscount(c: Coupon) {
    0 <= c.discount <= 100
  }

  /** `Coupon.is_valid` at instant `now`: strictly inside the window, and uses left. */
  predicate IsValid(c: Coupon, now: DateTime) {
    Before(c.validFrom, now) && Before(now, c.validTo) && (c.uses.None? || c.uses.value > 0)
  }

  /** `Coupon.redeem_coupon`: the answer and the coupon object afterwards. */
  function Redeem(c: Coupon, now: DateTime): (r: (bool, Coupon))
    ensures !IsValid(c, now) ==> r == (false, c)
    ensures IsValid(c, now) ==> r.0
    ensures IsValid(c, now) && c.uses.None? ==> r.1 == c
    ensures IsValid(c, now) && c.uses.Some? ==> r.1 == c.(uses := Some(c.uses.value - 1))
  {
    if IsValid(c, now) then
      var after := if c.uses.Some? && c.uses.value != 0 then c.(uses := Some(c.uses.value - 1)) else c;
      (true, after)
    else (false, c)
  }

  /** Redeeming `k` times in a row: how many redemptions succeeded, and the coupon after. */
  function RedeemTimes(c: Coupon, now: DateTime, k: nat): (nat, Coupon)
    decreases k
  {
    if k == 0 then (0, c)
    else
      var (ok, c1) := Redeem(c, now);
      var (n, c2) := RedeemTimes(c1, now, k - 1);
      (if ok then n + 1 else n, c2)
  }

  /** A coupon with `uses == n` inside its window admits exactly `n` redemptions;
      once they are spent it is no longer valid. An unlimited coupon never runs out. */
  lemma {:induction false} RedeemExhausts(c: Coupon, now: DateTime, k: nat)
    requires Before(c.validFrom, now) && Before(now, c.validTo)
    ensures c.uses.Some? ==> RedeemTimes(c, now, k).0 == (if k <= c.uses.value then k else c.uses.value)
    ensures c.uses.Some? && k >= c.uses.value ==> !IsValid(RedeemTimes(c, now, k).1, now)
    ensures c.uses.None? ==> RedeemTimes(c, now, k) == (k, c)
    decreases k
  {
    if k > 0 {
      RedeemExhausts(Redeem(c, now).1, now, k - 1);
    }
  }

  /** `Coupon.discount_price`. */
  function DiscountPrice(c: Coupon, price: real): (r: real)
    ensures ValidDiscount(c) && price >= 0.0 ==> 0.0 <= r <= price
    ensures c.discount == 0 ==> r == price
    ensures c.discount == 100 ==> r == 0.0
  {
    price - (c.discount as real / 100.0) * price
  }

  /** The discounted price is the share `100 - discount` percent of the price, and a larger
      discount never gives a higher price. */
  lemma DiscountShare(c: Coupon, d: Coupon, price: real)
    ensures DiscountPrice(c, price) * 100.0 == (100 - c.discount) as real * price
    ensures price >= 0.0 && c.discount <= d.discount ==> DiscountPrice(d, price) <= DiscountPrice(c, price)
  {
    assert (d.discount - c.discount) as real * price >= 0.0 <== price >= 0.0 && c.discount <= d.discount;
  }

  /** When a coupon object gives `course` its discount: it is valid and either
      lists no courses or lists this one. */
  predicate Discounts(coupon: Option<Coupon>, course: Uuid, now: DateTime) {
    coupon.Some? && IsValid(coupon.value, now) && (coupon.value.courses == {} || course in coupon.value.courses)
  }

  /** `CartItem.discounted_price` for a cart whose `coupon` is `coupon`. */
  function CartItemPrice(coupon: Option<Coupon>, course: Course, now: DateTime): (r: real)
    ensures Discounts(coupon, course.id, now) ==> r == DiscountPrice(coupon.value, course.price as real)
    ensures !Discounts(coupon, course.id, now) ==> r == course.price as real
  {
    if coupon.None? then course.price as real
    else if !IsValid(coupon.value, now) then course.price as real
    else if coupon.value.courses != {} then
      if course.id in coupon.value.courses then DiscountPrice(coupon.value, course.price as real)
      else course.price as real
    else DiscountPrice(coupon.value, course.price as real)
  }

  /** `OrderItem.calculate_price` for an order whose coupon object is `coupon`: the
      price, and that coupon object afterwards (it is redeemed in memory). */
  function CalculatePrice(coupon: Option<Coupon>, course: Course, now: DateTime): (r: (real, Option<Coupon>))
    ensures r.0 == CartItemPrice(coupon, course, now)
    ensures Discounts(coupon, course.id, now) ==> r.1 == Some(Redeem(coupon.value, now).1)
    ensures !Discounts(coupon, course.id, now) ==> r.1 == coupon
  {
    if coupon.None? then (course.price as real, coupon)
    else if !IsValid(coupon.value, now) then (course.price as real, coupon)
    else if coupon.value.courses != {} then
      if course.id in coupon.value.courses then
        (DiscountPrice(coupon.value, course.price as real), Some(Redeem(coupon.value, now).1))
      else (course.price as real, coupon)
    else (DiscountPrice(coupon.value, course.price as real), Some(Redeem(coupon.value, now).1))
  }

  /** `OrderItem.save`: a price that is unset or zero is computed; any other is kept. */
  function SaveItemPrice(price: Option<real>, coupon: Option<Coupon>, course: Course, now: DateTime): (r: (real, Option<Coupon>))
    ensures price.Some? && price.value != 0.0 ==> r == (price.value, coupon)
    ensures price.None? || price.value == 0.0 ==> r == CalculatePrice(coupon, course, now)
  {
    if price.None? || price.value == 0.0 then CalculatePrice(coupon, course, now) else (price.value, coupon)
  }

  // ---------------------------------------------------------------------
  // Carts and orders

  /** `coupon` is the id the cart's foreign key holds. */
  datatype Cart = Cart(id: Uuid, user: Uuid, coupon: Option<Uuid>)
  datatype CartItem = CartItem(cart: Uuid, course: Uuid, createdAt: DateTime)

  datatype OrderStatus = New | Paid

  datatype Order = Order(id: Uuid, user: Uuid, ref: string, coupon: Option<Uuid>, status: OrderStatus, createdAt: DateTime)
  datatype OrderItem = OrderItem(order: Uuid, course: Uuid, price: real, createdAt: DateTime)

  /** `Cart.revalidate_coupon`, where `coupon` is the object `cart.coupon` resolves to. */
  function RevalidateCoupon(cart: Cart, coupon: Option<Coupon>, now: DateTime): (r: Cart)
    ensures r.id == cart.id && r.user == cart.user
    ensures coupon.None? ==> r == cart
    ensures coupon.Some? && IsValid(coupon.value, now) ==> r == cart
    ensures coupon.Some? && !IsValid(coupon.value, now) ==> r.coupon.None?
  {
    if coupon.Some? && !IsValid(coupon.value, now) then cart.(coupon := None) else cart
  }

  /** Revalidating twice is revalidating once. */
  lemma RevalidateIdempotent(cart: Cart, coupon: Option<Coupon>, now: DateTime)
    ensures var c1 := RevalidateCoupon(cart, coupon, now);
      RevalidateCoupon(c1, if c1.coupon.None? then None else coupon, now) == c1
  {
  }

  /** The ref the save loop of `Order` (and `Transaction`) settles on: an existing ref is
      kept, otherwise the first non-empty draw not already taken. `draws` stands for the
      successive `token_urlsafe` results; None means the draws given ran out. */
  function DrawRef(ref: string, draws: seq<string>, taken: set<string>): (r: Option<string>)
    ensures ref != "" ==> r == Some(ref)
    ensures ref == "" && r.Some? ==> r.value != "" && r.value !in taken && r.value in draws
    ensures ref == "" && r.None? ==> forall d :: d in draws ==> d == "" || d in taken
  {
    if ref != "" then Some(ref)
    else if |draws| == 0 then None
    else if draws[0] != "" && draws[0] !in taken then Some(draws[0])
    else DrawRef(ref, draws[1..], taken)
  }

  /** Saving again never replaces a ref once it is set. */
  lemma DrawRefStable(ref: string, draws: seq<string>, more: seq<string>, taken: set<string>)
    requires DrawRef(ref, draws, taken).Some?
    ensures DrawRef(DrawRef(ref, draws, taken).value, more, taken) == DrawRef(ref, draws, taken)
  {
  }
}

=== FILE: sales_serializers.dfy ===
/**
  The request serializers of backend/core/serializers/sales.py: what each
  shopping request checks before it calls the service, and what it answers.
 */
module SalesSerializers {
  import opened Common
  import opened Base
  import opened UserModel
  import opened CourseModel
  import opened Sales
  import opened Db
  import opened Commerce
  import opened Payment
  import opened FieldChecks

  /** The `course` field (a `UUIDField`) followed by `get_object_or_404(Course, id=...)`. */
  function CourseField(db: Db, data: map<string, string>): (r: Result<Course>)
    ensures UuidError(data, "course").Some? ==> r == Err(FieldErrors(map["course" := UuidError(data, "course").value]))
    ensures "course" !in data ==> r == Err(FieldErrors(map["course" := REQUIRED]))
    ensures "course" in data && ParseUuid(data["course"]).None? ==> r == Err(FieldErrors(map["course" := INVALID_UUID]))
    ensures UuidError(data, "course").None? && CourseById(db, ParseUuid(data["course"]).value).None? ==> r == Err(NotFound)
    ensures r.Ok? <==> UuidError(data, "course").None? && CourseById(db, ParseUuid(data["course"]).value).Some?
    ensures r.Ok? ==> r.value in db.courses && ParseUuid(data["course"]) == Some(r.value.id)
  {
    match UuidError(data, "course")
    case Some(m) => Err(FieldErrors(map["course" := m]))
    case None =>
      match CourseById(db, ParseUuid(data["course"]).value)
      case None => Err(NotFound)
      case Some(c) => Ok(c)
  }

  /** `AddToCartSerializer`: validate, then `CoreService.add_to_cart`. */
  function AddToCartRequest(db: Db, user: Uuid, data: map<string, string>, now: DateTime): (r: Result<Db>)
    ensures CourseField(db, data).Err? ==> r == Err(CourseField(db, data).error)
    ensures CourseField(db, data).Ok? ==> r == AddToCart(db, user, CourseField(db, data).value.id, now)
    ensures r.Ok? ==> "course" in data && exists c :: c in db.courses && ParseUuid(data["course"]) == Some(c.id)
  {
    match CourseField(db, data)
    case Err(e) => Err(e)
    case Ok(c) => AddToCart(db, user, c.id, now)
  }

  /** `RemoveFromCartSerializer`: validate, then `CoreService.remove_from_cart`. */
  function RemoveFromCartRequest(db: Db, user: Uuid, data: map<string, string>): (r: Result<Db>)
    ensures CourseField(db, data).Err? ==> r == Err(CourseField(db, data).error)
    ensures CourseField(db, data).Ok? ==> r == RemoveFromCart(db, user, CourseField(db, data).value.id)
    ensures r.Ok? ==> "course" in data && exists c :: c in db.courses && ParseUuid(data["course"]) == Some(c.id)
  {
    match CourseField(db, data)
    case Err(e) => Err(e)
    case Ok(c) => RemoveFromCart(db, user, c.id)
  }

  /** A course sent by its canonical id string is the course added. */
  lemma AddByIdString(db: Db, user: Uuid, c: Course, now: DateTime)
    requires c in db.courses
    ensures AddToCartRequest(db, user, map["course" := IdStr(c.id)], now) == AddToCart(db, user, c.id, now)
  {
    IdStrRoundTrip(c.id);
  }

  // ---------------------------------------------------------------------
  // ApplyCouponSerializer

  function CodeIs(code: string): Coupon -> bool {
    (c: Coupon) => c.code == code
  }

  /** `get_object_or_404(Coupon, code=code)` (codes are not unique) and the validity check. */
  function CouponByCode(db: Db, code: string, now: DateTime): (r: Result<Coupon>)
    ensures r.Ok? <==> |Filter(db.coupons, CodeIs(code))| == 1
                       && IsValid(Filter(db.coupons, CodeIs(code))[0], now)
    ensures r.Ok? ==> r.value in db.coupons && r.value.code == code && IsValid(r.value, now)
    ensures (forall c :: c in db.coupons ==> c.code != code) ==> r == Err(NotFound)
    ensures |Filter(db.coupons, CodeIs(code))| > 1 ==> r == Err(MultipleObjectsReturned("Coupon"))
    ensures |Filter(db.coupons, CodeIs(code))| == 1 && !IsValid(Filter(db.coupons, CodeIs(code))[0], now) ==>
      r == Err(CouponIsInvalid)
  {
    var matches := Filter(db.coupons, CodeIs(code));
    if |matches| == 0 then Err(NotFound)
    else
      assert matches[0] in matches;
      if |matches| > 1 then Err(MultipleObjectsReturned("Coupon"))
      else if !IsValid(matches[0], now) then Err(CouponIsInvalid)
      else Ok(matches[0])
  }

  /** The `coupon` field (a `CharField`), then the lookup of its trimmed value. */
  function CouponField(db: Db, data: map<string, string>, now: DateTime): (r: Result<Coupon>)
    ensures !CharFieldOk(data, "coupon") ==> r == Err(FieldErrors(map["coupon" := CharError(data, "coupon").value]))
    ensures CharFieldOk(data, "coupon") ==> r == CouponByCode(db, Strip(data["coupon"]), now)
    ensures r.Ok? ==> CharFieldOk(data, "coupon") && r.value in db.coupons
                      && r.value.code == Strip(data["coupon"]) && IsValid(r.value, now)
  {
    match CharField(data, "coupon")
    case Err(e) => Err(e)
    case Ok(code) => CouponByCode(db, code, now)
  }

  /** `ApplyCouponSerializer`: validate, then `CoreService.apply_coupon`. */
  function ApplyCouponRequest(db: Db, user: Uuid, data: map<string, string>, now: DateTime): (r: Result<Db>)
    ensures CouponField(db, data, now).Err? ==> r == Err(CouponField(db, data, now).error)
    ensures CouponField(db, data, now).Ok? ==> r == ApplyCoupon(db, user, CouponField(db, data, now).value, now)
  {
    match CouponField(db, data, now)
    case Err(e) => Err(e)
    case Ok(c) => ApplyCoupon(db, user, c, now)
  }

  /** An accepted code puts the valid coupon with the trimmed code on the user's cart. */
  lemma ApplyCouponRequestSetsCoupon(db: Db, user: Uuid, data: map<string, string>, now: DateTime)
    requires ApplyCouponRequest(db, user, data, now).Ok?
    ensures CharFieldOk(data, "coupon")
    ensures var c := CouponField(db, data, now).value;
      c in db.coupons && c.code == Strip(data["coupon"]) && IsValid(c, now)
      && CartOf(ApplyCouponRequest(db, user, data, now).value, user).Ok?
      && CartOf(ApplyCouponRequest(db, user, data, now).value, user).value.coupon == Some(c.id)
  {
  }

  /** A code sent with surrounding spaces is the code itself. */
  lemma PaddedCodeApplies(db: Db, user: Uuid, code: string, now: DateTime)
    requires code != "" && !IsSpace(code[0]) && !IsSpace(code[|code| - 1])
    ensures ApplyCouponRequest(db, user, map["coupon" := " " + code + " "], now)
         == ApplyCouponRequest(db, user, map["coupon" := code], now)
  {
    var padded := map["coupon" := " " + code + " "];
    var plain := map["coupon" := code];
    StripPadded(code);
    assert Strip(code) == code;
    assert '\0' in padded["coupon"] <==> '\0' in code;
    assert CharError(padded, "coupon") == CharError(plain, "coupon");
    assert CouponField(db, padded, now) == CouponField(db, plain, now);
  }

  // ---------------------------------------------------------------------
  // CreateOrderSerializer

  /** What a successful order request answers. */
  datatype Receipt = Receipt(ref: string, order: string, paymentMethod: PaymentMethod)

  /** The `validate` loop over the cart items (newest first): an item whose course already
      lists the user among its students is refused, naming the course. */
  function PurchaseCheck(db: Db, user: Uuid, items: seq<CartItem>): (r: Result<()>)
    ensures r.Ok? <==> Purchasable(db, user, items)
    ensures r.Err? ==> r.error == DoesNotExist("Course")
                       || exists c :: c in db.courses && Enrolled(db.students, c.id, user)
                                      && r.error == ValidationError(c.title + " already Purchased")
  {
    if |items| == 0 then Ok(())
    else
      PurchasableSplit(db, user, items);
      match CourseById(db, items[0].course)
      case None => Err(DoesNotExist("Course"))
      case Some(c) =>
        if Enrolled(db.students, c.id, user) then Err(ValidationError(c.title + " already Purchased"))
        else PurchaseCheck(db, user, items[1..])
  }

  /** Every item names a known course the user is not enrolled in. */
  predicate Purchasable(db: Db, user: Uuid, items: seq<CartItem>) {
    forall k :: 0 <= k < |items| ==> CourseIdIn(db.courses, items[k].course) && !Enrolled(db.students, items[k].course, user)
  }

  lemma PurchasableSplit(db: Db, user: Uuid, items: seq<CartItem>)
    requires |items| > 0
    ensures Purchasable(db, user, items) <==>
      CourseIdIn(db.courses, items[0].course) && !Enrolled(db.students, items[0].course, user)
      && Purchasable(db, user, items[1..])
  {
    assert forall k :: 1 <= k < |items| ==> items[k] == items[1..][k - 1];
  }

  /** The `payment_method` field, a `ChoiceField` over the `PaymentMethods` values. */
  function PaymentField(data: map<string, string>): (r: Result<PaymentMethod>)
    ensures r.Ok? <==> "payment_method" in data && data["payment_method"] in PAYMENT_METHOD_VALUES
    ensures r.Ok? ==> PaymentMethodValue(r.value) == data["payment_method"]
    ensures "payment_method" !in data ==> r == Err(FieldErrors(map["payment_method" := REQUIRED]))
    ensures "payment_method" in data && data["payment_method"] !in PAYMENT_METHOD_VALUES ==>
      r == Err(FieldErrors(map["payment_method" := InvalidChoice(data["payment_method"])]))
  {
    match ChoiceError(data, "payment_method", PAYMENT_METHOD_VALUES)
    case Some(m) => Err(FieldErrors(map["payment_method" := m]))
    case None => Ok(ParsePaymentMethod(data["payment_method"]).value)
  }

  /** `CreateOrderSerializer`: the cart the view reads, the `payment_method` field, the
      purchase check, then `CoreService.create_order`, with the redeemed coupon saved or
      not. The receipt carries the freshly drawn transaction ref. */
  function CreateOrderRequestWith(db: Db, user: Uuid, data: map<string, string>, now: DateTime,
                                  orderId: Uuid, orderDraws: seq<string>, txDraws: seq<string>, persist: bool)
    : (r: (Db, Result<Receipt>))
    requires RefsAvailable(db, orderDraws, txDraws)
    ensures CartOf(db, user).Err? ==> r == (db, Err(DoesNotExist("Cart")))
    ensures CartOf(db, user).Ok? && PaymentField(data).Err? ==> r == (db, Err(PaymentField(data).error))
    ensures CartOf(db, user).Ok? && PaymentField(data).Ok?
            && PurchaseCheck(db, user, NewestFirst(ItemsOf(db, CartOf(db, user).value.id))).Err? ==>
      r == (db, Err(PurchaseCheck(db, user, NewestFirst(ItemsOf(db, CartOf(db, user).value.id))).error))
    ensures r.1.Ok? ==> PaymentField(data).Ok? && r.1.value.paymentMethod == PaymentField(data).value
                        && PaymentMethodValue(r.1.value.paymentMethod) == data["payment_method"]
    ensures r.1.Ok? ==> r.1.value.order == IdStr(orderId)
    ensures r.1.Ok? ==> r.1.value.ref != "" && r.1.value.ref !in TxRefs(db) && r.1.value.ref in txDraws
    ensures r.1.Ok? ==> forall i :: i in ItemsOf(db, CartOf(db, user).value.id) ==>
      CourseIdIn(db.courses, i.course) && !Enrolled(db.students, i.course, user)
    ensures r.1.Ok? ==> CreateOrderWith(db, user, PaymentField(data).value, now, orderId, orderDraws, txDraws, persist).1.Ok?
                        && r.0 == CreateOrderWith(db, user, PaymentField(data).value, now, orderId, orderDraws, txDraws, persist).0
  {
    match CartOf(db, user)
    case Err(e) => (db, Err(e))
    case Ok(cart) =>
      match PaymentField(data)
      case Err(e) => (db, Err(e))
      case Ok(payment) =>
      var items := ItemsOf(db, cart.id);
      match PurchaseCheck(db, user, NewestFirst(items))
      case Err(e) => (db, Err(e))
      case Ok(_) =>
        SameMembers(NewestFirst(items), items);
        var (db1, res) := CreateOrderWith(db, user, payment, now, orderId, orderDraws, txDraws, persist);
        match res
        case Err(e) => (db1, Err(e))
        case Ok((order, tx)) => (db1, Ok(Receipt(tx.ref, IdStr(order.id), tx.paymentMethod)))
  }

  /** `CreateOrderSerializer` as written: the checkout never saves the redeemed coupon. */
  function CreateOrderRequestAsWritten(db: Db, user: Uuid, data: map<string, string>, now: DateTime,
                                       orderId: Uuid, orderDraws: seq<string>, txDraws: seq<string>)
    : (r: (Db, Result<Receipt>))
    requires RefsAvailable(db, orderDraws, txDraws)
    ensures r.1.Ok? ==> r.0.coupons == db.coupons
    ensures r.1.Ok? ==> PaymentField(data).Ok? && r.0 == CreateOrder(db, user, PaymentField(data).value, now, orderId, orderDraws, txDraws).0
  {
    CreateOrderRequestWith(db, user, data, now, orderId, orderDraws, txDraws, false)
  }

  /** `CreateOrderSerializer` with the redeemed coupon saved. */
  function CreateOrderRequest(db: Db, user: Uuid, data: map<string, string>, now: DateTime,
                              orderId: Uuid, orderDraws: seq<string>, txDraws: seq<string>)
    : (r: (Db, Result<Receipt>))
    requires RefsAvailable(db, orderDraws, txDraws)
    ensures r.1.Ok? ==> PaymentField(data).Ok? && r.0 == CreateOrderSavingCoupon(db, user, PaymentField(data).value, now, orderId, orderDraws, txDraws).0
  {
    CreateOrderRequestWith(db, user, data, now, orderId, orderDraws, txDraws, true)
  }

  /** The two requests answer alike; as written, the database afterwards differs only in
      the coupons, which keep their old uses. */
  lemma RequestAsWrittenOnlyMissesCoupons(db: Db, user: Uuid, data: map<string, string>, now: DateTime,
                                          orderId: Uuid, orderDraws: seq<string>, txDraws: seq<string>)
    requires RefsAvailable(db, orderDraws, txDraws)
    ensures var a := CreateOrderRequestAsWritten(db, user, data, now, orderId, orderDraws, txDraws);
      var b := CreateOrderRequest(db, user, data, now, orderId, orderDraws, txDraws);
      a.1 == b.1 && (a.1.Ok? ==> a.0 == b.0.(coupons := db.coupons))
  {
    if PaymentField(data).Ok? {
      CheckoutAsWrittenOnlyMissesCoupons(db, user, PaymentField(data).value, now, orderId, orderDraws, txDraws);
    }
  }

  // ---------------------------------------------------------------------
  // VerifyTransactionSerializer

  /** `validate`: the transaction with that reference, refused unless it is still
      INITIALIZED. Only DoesNotExist is turned into InvalidTransaction. */
  function VerifyGate(db: Db, ref: string): (r: Result<Transaction>)
    ensures r.Ok? <==> |Filter(db.transactions, HasRef(ref))| == 1
                       && Filter(db.transactions, HasRef(ref))[0].status == Initialized
    ensures r.Ok? ==> r.value in db.transactions && r.value.ref == ref && r.value.status == Initialized
    ensures (forall t :: t in db.transactions ==> t.ref != ref) ==> r == Err(InvalidTransaction)
    ensures |Filter(db.transactions, HasRef(ref))| > 1 ==> r == Err(MultipleObjectsReturned("Transaction"))
    ensures |Filter(db.transactions, HasRef(ref))| == 1 && Filter(db.transactions, HasRef(ref))[0].status != Initialized ==>
      r == Err(InvalidTransaction)
  {
    var matches := Filter(db.transactions, HasRef(ref));
    if |matches| == 0 then Err(InvalidTransaction)
    else
      assert matches[0] in matches;
      if |matches| > 1 then Err(MultipleObjectsReturned("Transaction"))
      else if matches[0].status != Initialized then Err(InvalidTransaction)
      else Ok(matches[0])
  }

  /** The `transaction` field (a `CharField`), then the gate on its trimmed value. */
  function TransactionField(db: Db, data: map<string, string>): (r: Result<Transaction>)
    ensures !CharFieldOk(data, "transaction") ==>
      r == Err(FieldErrors(map["transaction" := CharError(data, "transaction").value]))
    ensures CharFieldOk(data, "transaction") ==> r == VerifyGate(db, Strip(data["transaction"]))
    ensures r.Ok? ==> r.value in db.transactions && r.value.ref == Strip(data["transaction"])
                      && r.value.status == Initialized
  {
    match CharField(data, "transaction")
    case Err(e) => Err(e)
    case Ok(ref) => VerifyGate(db, ref)
  }

  /** `VerifyTransactionSerializer` as written: the field and the gate, then
      `verify_transaction`. */
  function VerifyRequestAsWritten(db: Db, data: map<string, string>): (r: (Db, Result<()>))
    ensures TransactionField(db, data).Err? ==> r == (db, Err(TransactionField(db, data).error))
    ensures TransactionField(db, data).Ok? ==> r == VerifyTransaction(db, TransactionField(db, data).value)
  {
    match TransactionField(db, data)
    case Err(e) => (db, Err(e))
    case Ok(tx) => VerifyTransaction(db, tx)
  }

  /** `VerifyTransactionSerializer` with the verified transaction marked. */
  function VerifyRequest(db: Db, data: map<string, string>): (r: (Db, Result<()>))
    ensures TransactionField(db, data).Err? ==> r == (db, Err(TransactionField(db, data).error))
    ensures TransactionField(db, data).Ok? ==> r == VerifyTransactionMarking(db, TransactionField(db, data).value)
  {
    match TransactionField(db, data)
    case Err(e) => (db, Err(e))
    case Ok(tx) => VerifyTransactionMarking(db, tx)
  }

  /** As written the gate never closes: after a successful verification the same
      request passes the gate again, so the item's `tx_verify` can be run again. */
  lemma VerifyGateNeverCloses(db: Db, data: map<string, string>)
    requires VerifyRequestAsWritten(db, data).1.Ok?
    ensures TransactionField(VerifyRequestAsWritten(db, data).0, data) == TransactionField(db, data)
    ensures TransactionField(VerifyRequestAsWritten(db, data).0, data).Ok?
  {
  }

  /** With the transaction marked, a reference that was verified once is refused from
      then on. */
  lemma VerifyGateCloses(db: Db, data: map<string, string>)
    requires VerifyRequest(db, data).1.Ok?
    ensures TransactionField(VerifyRequest(db, data).0, data) == Err(InvalidTransaction)
  {
    MarkedRefIsVerified(db.transactions, VerifyRequest(db, data).0.transactions, Strip(data["transaction"]));
  }

  /** Marking keeps the one transaction of a reference, now VERIFIED. */
  lemma MarkedRefIsVerified(before: seq<Transaction>, after: seq<Transaction>, ref: string)
    requires MarkedVerified(before, after, ref) && |Filter(before, HasRef(ref))| == 1
    ensures |Filter(after, HasRef(ref))| == 1 && Filter(after, HasRef(ref))[0].status == Verified
  {
    assert forall k :: 0 <= k < |before| ==> after[k].ref == before[k].ref;
    FilterLengthPointwise(before, after, HasRef(ref));
    var matches := Filter(after, HasRef(ref));
    assert matches[0] in after;
    var k :| 0 <= k < |after| && after[k] == matches[0];
  }
}

=== FILE: user_model.dfy ===
/**
  Rows and row-level rules of backend/core/models/user.py: users and their
  manager, instructors, one-time passwords, instructor wallets, wallet
  transactions and payment transactions.
 */
module UserModel {
  import opened Common
  import opened Base

  // AuthProviders: the stored values of User.auth_provider.
  const GOOGLE: string := "google"
  const EMAIL: string := "email"
  const ETHEREUM: string := "Ethereum"
  const POLKADOT: string := "Polkadot"

  /** The stored password. Hashing is idealised: a hash determines its raw password. */
  datatype Secret = Unset | Unusable | Hashed(raw: string)

  datatype User = User(
    id: Uuid,
    email: Option<string>,
    walletId: Option<string>,
    firstName: string,
    lastName: string,
    isInstructor: bool,
    isActive: bool,
    isStaff: bool,
    isSuperuser: bool,
    authProvider: string,
    password: Secret)

  datatype Instructor = Instructor(id: Uuid, user: Uuid)

  datatype OtpReason = EmailVerification | PasswordReset

  /** `code` is the signed code; verifying it against a raw code is left to the caller. */
  datatype OtpToken = OtpToken(id: Uuid, user: Uuid, reason: OtpReason, code: string, createdAt: DateTime)

  /** `set_password`: None makes the password unusable. */
  function SetPassword(raw: Option<string>): (s: Secret)
    ensures raw.None? <==> s == Unusable
  {
    match raw
    case None => Unusable
    case Some(p) => Hashed(p)
  }

  /** `check_password`: only the password that was set is accepted. */
  predicate CheckPassword(u: User, raw: string) {
    u.password == Hashed(raw)
  }

  lemma SetThenCheck(u: User, raw: string, other: string)
    ensures CheckPassword(u.(password := SetPassword(Some(raw))), raw)
    ensures other != raw ==> !CheckPassword(u.(password := SetPassword(Some(raw))), other)
    ensures !CheckPassword(u.(password := SetPassword(None)), other)
  {
  }

  // ---------------------------------------------------------------------
  // Strings the user model renders

  /** The characters `str.isspace()` holds of, which are those `str.strip()` removes:
      the ASCII controls 9-13 and 28-31, the space, and the Unicode separators. */
  predicate IsSpace(c: char) {
    ('\t' <= c <= '\r') || ('\U{1C}' <= c <= ' ') || c == '\U{85}' || c == '\U{A0}' || c == '\U{1680}'
    || ('\U{2000}' <= c <= '\U{200A}') || c == '\U{2028}' || c == '\U{2029}' || c == '\U{202F}'
    || c == '\U{205F}' || c == '\U{3000}'
  }

  /** `str.strip()`: leading and trailing whitespace removed. */
  function Strip(s: string): (r: string)
    ensures |r| <= |s|
    ensures |r| > 0 ==> !IsSpace(r[0]) && !IsSpace(r[|r| - 1])
    ensures forall c :: !IsSpace(c) ==> (c in r <==> c in s)
  {
    if |s| == 0 then s
    else if IsSpace(s[0]) then Strip(s[1..])
    else if IsSpace(s[|s| - 1]) then Strip(s[..|s| - 1])
    else s
  }

  /** A space on either side of text that starts and ends with no whitespace is trimmed
      away. */
  lemma StripPadded(s: string)
    requires s != "" && !IsSpace(s[0]) && !IsSpace(s[|s| - 1])
    ensures Strip(" " + s + " ") == s
  {
    var padded := " " + s + " ";
    var right := s + " ";
    assert IsSpace(padded[0]) && padded[1..] == right;
    assert Strip(padded) == Strip(right);
    assert !IsSpace(right[0]) && IsSpace(right[|right| - 1]) && right[..|right| - 1] == s;
    assert Strip(right) == Strip(s);
  }

  /** Stripping a stripped string changes nothing. */
  lemma StripIdempotent(s: string)
    ensures Strip(Strip(s)) == Strip(s)
  {
  }

  /** `str(user)`, which is `get_full_name()`: the names joined by a space, stripped. */
  function FullName(u: User): string {
    Strip(u.firstName + " " + u.lastName)
  }

  function LowerAscii(s: string): (r: string)
    ensures |r| == |s|
    ensures forall i :: 0 <= i < |r| ==> !('A' <= r[i] <= 'Z')
  {
    if |s| == 0 then ""
    else [if 'A' <= s[0] <= 'Z' then (s[0] as int + 32) as char else s[0]] + LowerAscii(s[1..])
  }

  function LastIndexOf(s: string, c: char): (r: Option<nat>)
    ensures r.Some? ==> r.value < |s| && s[r.value] == c && c !in s[r.value + 1..]
    ensures r.None? ==> c !in s
  {
    if |s| == 0 then None
    else if s[|s| - 1] == c then Some(|s| - 1)
    else
      var r := LastIndexOf(s[..|s| - 1], c);
      assert r.Some? ==> s[r.value + 1..] == s[..|s| - 1][r.value + 1..] + [s[|s| - 1]];
      assert s == s[..|s| - 1] + [s[|s| - 1]];
      r
  }

  /** `normalize_email`: None becomes ""; when the stripped address has an '@',
      the part after the last '@' is lower-cased; otherwise the input is kept as is. */
  function NormalizeEmail(email: Option<string>): (r: string)
    ensures email.None? ==> r == ""
    ensures email.Some? && '@' !in Strip(email.value) ==> r == email.value
    ensures email.Some? && '@' in Strip(email.value) ==>
      |r| == |Strip(email.value)| && '@' in r
  {
    match email
    case None => ""
    case Some(e) =>
      var t := Strip(e);
      match LastIndexOf(t, '@')
      case None => e
      case Some(i) =>
        var r := t[..i] + "@" + LowerAscii(t[i + 1..]);
        assert r[i] == '@';
        r
  }

  /** The `address_or_email_not_null` constraint as its name states it. */
  predicate AddressOrEmail(u: User) {
    u.walletId.Some? || u.email.Some?
  }

  // ---------------------------------------------------------------------
  // BaseManager

  /** The `**extra_fields` a caller passes: a value for any User field besides the id, the
      email and the password; None where the keyword is not given. */
  datatype ExtraFields = ExtraFields(
    walletId: Option<string>,
    firstName: Option<string>,
    lastName: Option<string>,
    isInstructor: Option<bool>,
    isActive: Option<bool>,
    isStaff: Option<FlagValue>,
    isSuperuser: Option<FlagValue>,
    authProvider: Option<string>)

  /** A keyword value for a boolean field: a Python bool, or another value (`1`, `"t"`)
      that the field converts and stores as `stored`. */
  datatype FlagValue = Bool(b: bool) | NonBool(stored: bool)

  /** What the column holds for a flag value. */
  function Stored(v: FlagValue): bool {
    match v
    case Bool(b) => b
    case NonBool(t) => t
  }

  /** `extra_fields.get(flag) is not True`, after `setdefault(flag, True)`. */
  predicate NotTrue(v: Option<FlagValue>) {
    v.Some? && v.value != Bool(true)
  }

  function OrElse<T>(o: Option<T>, d: T): T {
    match o
    case Some(v) => v
    case None => d
  }

  /** The fields of `u` that were given as keywords hold the given values. */
  predicate TakesGiven(u: User, extra: ExtraFields) {
    && (extra.walletId.Some? ==> u.walletId == extra.walletId)
    && (extra.firstName.Some? ==> u.firstName == extra.firstName.value)
    && (extra.lastName.Some? ==> u.lastName == extra.lastName.value)
    && (extra.isInstructor.Some? ==> u.isInstructor == extra.isInstructor.value)
    && (extra.isActive.Some? ==> u.isActive == extra.isActive.value)
    && (extra.isStaff.Some? ==> u.isStaff == Stored(extra.isStaff.value))
    && (extra.isSuperuser.Some? ==> u.isSuperuser == Stored(extra.isSuperuser.value))
    && (extra.authProvider.Some? ==> u.authProvider == extra.authProvider.value)
  }

  /** The model's defaults for the fields that were not given (the flags and the first
      name have their own defaults in each manager method). */
  predicate ModelDefaults(u: User, extra: ExtraFields) {
    && (extra.walletId.None? ==> u.walletId.None?)
    && (extra.lastName.None? ==> u.lastName == "")
    && (extra.isInstructor.None? ==> !u.isInstructor)
    && (extra.isActive.None? ==> u.isActive)
    && (extra.authProvider.None? ==> u.authProvider == EMAIL)
  }

  /** `_create_user`: the row `self.model(email=..., **extra_fields)` builds, with the
      flags and the first name the manager method settled on. */
  function BuildUser(id: Uuid, email: Option<string>, password: Option<string>, extra: ExtraFields,
                     staff: bool, superuser: bool, firstName: string): User {
    User(id, Some(NormalizeEmail(email)), extra.walletId, firstName, OrElse(extra.lastName, ""),
         OrElse(extra.isInstructor, false), OrElse(extra.isActive, true), staff, superuser,
         OrElse(extra.authProvider, EMAIL), SetPassword(password))
  }

  /** `create_user`: staff and superuser flags default to False. */
  function CreateUser(id: Uuid, email: Option<string>, password: Option<string>, extra: ExtraFields): (u: User)
    ensures extra.isStaff.None? ==> !u.isStaff
    ensures extra.isSuperuser.None? ==> !u.isSuperuser
    ensures extra.firstName.None? ==> u.firstName == ""
    ensures TakesGiven(u, extra) && ModelDefaults(u, extra)
    ensures u.id == id && u.email == Some(NormalizeEmail(email)) && AddressOrEmail(u)
    ensures u.password == SetPassword(password)
  {
    BuildUser(id, email, password, extra, Stored(OrElse(extra.isStaff, Bool(false))),
              Stored(OrElse(extra.isSuperuser, Bool(false))), OrElse(extra.firstName, ""))
  }

  /** `create_superuser`: both flags default to True and any value but True itself (a
      False, or a true value that is not a bool) is a ValueError;
      the default first name is "Admin " followed by a random token. */
  function CreateSuperuser(id: Uuid, email: Option<string>, password: Option<string>, extra: ExtraFields, token: string): (r: Result<User>)
    ensures r.Ok? <==> !NotTrue(extra.isStaff) && !NotTrue(extra.isSuperuser)
    ensures r.Ok? ==> r.value.isStaff && r.value.isSuperuser && r.value.id == id
    ensures r.Ok? && extra.firstName.None? ==> r.value.firstName == "Admin " + token
    ensures r.Ok? ==> TakesGiven(r.value, extra) && ModelDefaults(r.value, extra)
    ensures r.Ok? ==> r.value.email == Some(NormalizeEmail(email)) && r.value.password == SetPassword(password)
    ensures NotTrue(extra.isStaff) ==> r == Err(ValueError("Superuser must have is_staff=True."))
    ensures !NotTrue(extra.isStaff) && NotTrue(extra.isSuperuser) ==>
      r == Err(ValueError("Superuser must have is_superuser=True."))
  {
    if NotTrue(extra.isStaff) then Err(ValueError("Superuser must have is_staff=True."))
    else if NotTrue(extra.isSuperuser) then Err(ValueError("Superuser must have is_superuser=True."))
    else Ok(BuildUser(id, email, password, extra, true, true, OrElse(extra.firstName, "Admin " + token)))
  }

  // ---------------------------------------------------------------------
  // InstructorWallet (amounts in cents)

  datatype InstructorWallet = InstructorWallet(id: Uuid, instructor: Uuid, amount: int, isActive: bool)

  /** `add_balance`: only the amount changes. */
  function AddBalance(w: InstructorWallet, x: int): (r: InstructorWallet)
    ensures r.amount - w.amount == x
    ensures r.id == w.id && r.instructor == w.instructor && r.isActive == w.isActive
  {
    w.(amount := w.amount + x)
  }

  /** `substract_balance`: no lower bound is checked, the balance may go negative. */
  function SubtractBalance(w: InstructorWallet, x: int): (r: InstructorWallet)
    ensures w.amount - r.amount == x
    ensures r.id == w.id && r.instructor == w.instructor && r.isActive == w.isActive
  {
    w.(amount := w.amount - x)
  }

  predicate HasBalance(w: InstructorWallet, x: int) {
    w.amount >= x
  }

  /** Subtracting what was added restores the wallet, and overdrawing is possible. */
  lemma BalanceLaws(w: InstructorWallet, x: int)
    ensures SubtractBalance(AddBalance(w, x), x) == w
    ensures AddBalance(SubtractBalance(w, x), x) == w
    ensures HasBalance(w, x) <==> SubtractBalance(w, x).amount >= 0
    ensures x > w.amount ==> SubtractBalance(w, x).amount < 0
  {
  }

  // ---------------------------------------------------------------------
  // WalletTransaction

  datatype WalletTxType = Credit | Debit
  datatype WalletTxStatus = Pending | Success | Failed

  datatype WalletTransaction = WalletTransaction(id: Uuid, wallet: Uuid, amount: int, kind: WalletTxType, status: WalletTxStatus,
                                               createdAt: DateTime)

  /** `WalletTransaction.tx_verify` on the transaction and its wallet: a pending
      transaction becomes successful and credits its amount, whatever its type;
      in any other status nothing happens. */
  function WalletTxVerify(t: WalletTransaction, w: InstructorWallet): (r: (WalletTransaction, InstructorWallet))
    ensures t.status == Pending ==> r.0 == t.(status := Success) && r.1.amount == w.amount + t.amount
    ensures t.status != Pending ==> r == (t, w)
    ensures r.1.id == w.id && r.1.instructor == w.instructor && r.0.amount == t.amount && r.0.kind == t.kind
  {
    if t.status == Pending then (t.(status := Success), AddBalance(w, t.amount)) else (t, w)
  }

  /** The transition is one-shot: a second verification changes nothing. */
  lemma WalletTxVerifyOnce(t: WalletTransaction, w: InstructorWallet)
    ensures var (t1, w1) := WalletTxVerify(t, w); WalletTxVerify(t1, w1) == (t1, w1)
    ensures t.status == Pending && t.kind == Debit && t.amount > 0 ==> WalletTxVerify(t, w).1.amount > w.amount
  {
  }

  // ---------------------------------------------------------------------
  // Transaction

  datatype TxStatus = Initialized | TxPending | Verified | TxFailed
  datatype TxReason = OrderPay | WalletTransfer | CoursePayment
  datatype PaymentMethod = Fiat | ErcUsdt | ErcUsdc | Dot | BestiaCoin | Internal

  /** The stored value of each `PaymentMethods` choice. */
  function PaymentMethodValue(m: PaymentMethod): string {
    match m
    case Fiat => "fiat"
    case ErcUsdt => "erc_usdt"
    case ErcUsdc => "erc_usdc"
    case Dot => "dot"
    case BestiaCoin => "bestia_coin"
    case Internal => "internal"
  }

  const PAYMENT_METHOD_VALUES: set<string> := {"fiat", "erc_usdt", "erc_usdc", "dot", "bestia_coin", "internal"}

  /** The choice a value names: None for anything but the six stored values. */
  function ParsePaymentMethod(v: string): (r: Option<PaymentMethod>)
    ensures r.Some? <==> v in PAYMENT_METHOD_VALUES
    ensures r.Some? ==> PaymentMethodValue(r.value) == v
  {
    if v == "fiat" then Some(Fiat)
    else if v == "erc_usdt" then Some(ErcUsdt)
    else if v == "erc_usdc" then Some(ErcUsdc)
    else if v == "dot" then Some(Dot)
    else if v == "bestia_coin" then Some(BestiaCoin)
    else if v == "internal" then Some(Internal)
    else None
  }

  /** Every choice is named by its own value. */
  lemma PaymentMethodRoundTrip(m: PaymentMethod)
    ensures PaymentMethodValue(m) in PAYMENT_METHOD_VALUES
    ensures ParsePaymentMethod(PaymentMethodValue(m)) == Some(m)
  {
  }

  /** The generic `item` of a transaction. */
  datatype TxItem = ForOrder(order: Uuid) | ForWalletTransaction(walletTx: Uuid)

  datatype Transaction = Transaction(
    ref: string,
    item: TxItem,
    amount: real,
    status: TxStatus,
    paymentMethod: PaymentMethod,
    reason: TxReason)
}

=== FILE: utils.dfy ===
/**
  The pure helpers of backend/core/utils.py: the name of a course's channel
  group and the checks `move_course_file` makes before it renames an upload.
  The storage is reduced to whether the path exists; reading, writing and
  deleting the file are not modelled.
 */
module Utils {
  import opened Common
  import opened Base
  import opened UserModel

  /** The names `core/utils.py` binds at module level: its imports, its classes, its
      constant and its functions. */
  const UTILS_NAMES: set<string> := {
    "random", "Any", "settings", "File", "default_storage", "SimpleUploadedFile", "slugify",
    "timezone", "pagination", "Response", "CorePagination", "MessagePagination",
    "FILE_EXTENSIONS", "chat_upload_path", "append_chunk_to_file", "file_upload_logic",
    "cleanup_temp_media_files", "move_course_file", "get_course_channel_name"}

  /** `from <module> import n1, n2, ...` against the names the module defines: the names
      are bound in order, and the first one the module lacks raises ImportError. */
  function ImportFrom(defined: set<string>, names: seq<string>): (r: Result<()>)
    ensures r.Ok? <==> forall i :: 0 <= i < |names| ==> names[i] in defined
    ensures r.Err? ==> r.error == ImportError(names[FirstIndex(names, (n: string) => n !in defined)])
  {
    if |names| == 0 then Ok(())
    else if names[0] !in defined then Err(ImportError(names[0]))
    else
      var rest := ImportFrom(defined, names[1..]);
      assert forall i :: 1 <= i < |names| ==> names[i] == names[1..][i - 1];
      rest
  }

  /** `get_course_channel_name`: `"course_%s" % id`. */
  function ChannelName(id: string): (r: string)
    ensures |r| == |id| + 7 && r[..7] == "course_" && r[7..] == id
  {
    "course_" + id
  }

  /** Distinct course ids never share a channel group. */
  lemma ChannelNameInjective(a: string, b: string)
    ensures ChannelName(a) == ChannelName(b) ==> a == b
  {
    if ChannelName(a) == ChannelName(b) {
      assert a == ChannelName(a)[7..];
    }
  }

  /** `FILE_EXTENSIONS`: the extensions accepted for each kind of course file. */
  const FILE_EXTENSIONS: map<string, seq<string>> := map[
    "video" := ["mp4", "webm", "mkv"],
    "audio" := ["mp3", "ogg", "wav"],
    "book" := ["pdf", "epub"]]

  /** `file_path.split(".")[-1]`: the text after the last dot, or the whole path. */
  function Extension(path: string): (r: string)
    ensures '.' !in r
    ensures '.' !in path ==> r == path
  {
    match LastIndexOf(path, '.')
    case None => path
    case Some(k) => path[k + 1..]
  }

  /** The last dot of `a + "." + e` is the one before `e` when `e` has none. */
  lemma {:induction false} LastDotBefore(a: string, e: string)
    requires '.' !in e
    ensures LastIndexOf(a + "." + e, '.') == Some(|a|)
    decreases |e|
  {
    var s := a + "." + e;
    if |e| > 0 {
      var e' := e[..|e| - 1];
      assert s[..|s| - 1] == a + "." + e';
      assert s[|s| - 1] == e[|e| - 1];
      assert e[|e| - 1] in e;
      assert forall x :: x in e' ==> x in e;
      LastDotBefore(a, e');
    }
  }

  /** `move_course_file` up to the storage calls: the path must exist, the kind must be
      listed, and the extension must be one of the kind's. The answer is the new file
      name `<slug>-<id>.<ext>`, where `slug` is the slugified title. */
  function MoveCourseFile(pathExists: bool, path: string, kind: string, slug: string, id: Uuid): (r: Result<string>)
    ensures !pathExists ==> r == Err(FileExistsError)
    ensures pathExists && kind !in FILE_EXTENSIONS ==> r == Err(TypeError("Invalid Type - " + kind))
    ensures pathExists && kind in FILE_EXTENSIONS && Extension(path) !in FILE_EXTENSIONS[kind] ==>
      r == Err(TypeError("Invalid extension for file extension for type " + kind))
    ensures r.Ok? <==> pathExists && kind in FILE_EXTENSIONS && Extension(path) in FILE_EXTENSIONS[kind]
    ensures r.Ok? ==> r.value == slug + "-" + IdStr(id) + "." + Extension(path)
    ensures r.Ok? ==> Extension(r.value) == Extension(path)
  {
    if !pathExists then Err(FileExistsError)
    else if kind !in FILE_EXTENSIONS then Err(TypeError("Invalid Type - " + kind))
    else
      var ext := Extension(path);
      if ext !in FILE_EXTENSIONS[kind] then Err(TypeError("Invalid extension for file extension for type " + kind))
      else
        var stem := slug + "-" + IdStr(id);
        LastDotBefore(stem, ext);
        assert (stem + "." + ext)[|stem| + 1..] == ext;
        Ok(stem + "." + ext)
  }

  /** Renaming keeps the file's kind: a renamed file passes the same checks again. */
  lemma MoveKeepsKind(path: string, kind: string, slug: string, id: Uuid, id2: Uuid)
    requires MoveCourseFile(true, path, kind, slug, id).Ok?
    ensures MoveCourseFile(true, MoveCourseFile(true, path, kind, slug, id).value, kind, slug, id2).Ok?
  {
  }

  /** The new name carries the instance's id right after the slug, in a form that parses
      back to it, so two instances with the same title never share a file name. */
  lemma MovedNameNamesInstance(path: string, kind: string, slug: string, id: Uuid, id2: Uuid)
    requires MoveCourseFile(true, path, kind, slug, id).Ok?
    ensures var name := MoveCourseFile(true, path, kind, slug, id).value;
      |name| > |slug| + 37 && ParseUuid(name[|slug| + 1..|slug| + 37]) == Some(id)
    ensures id2 != id ==> MoveCourseFile(true, path, kind, slug, id2).value != MoveCourseFile(true, path, kind, slug, id).value
  {
    var ext := Extension(path);
    var name := MoveCourseFile(true, path, kind, slug, id).value;
    assert name == slug + "-" + IdStr(id) + "." + ext;
    IdAfterSlug(slug, IdStr(id), ext);
    IdStrRoundTrip(id);
    if id2 != id {
      var name2 := MoveCourseFile(true, path, kind, slug, id2).value;
      assert name2 == slug + "-" + IdStr(id2) + "." + ext;
      IdAfterSlug(slug, IdStr(id2), ext);
      IdStrInjective(id, id2);
    }
  }

  /** The 36 characters after the slug and its hyphen are the id string. */
  lemma IdAfterSlug(slug: string, idStr: string, ext: string)
    requires |idStr| == 36
    ensures var name := slug + "-" + idStr + "." + ext;
      |name| > |slug| + 37 && name[|slug| + 1..|slug| + 37] == idStr
  {
    var name := slug + "-" + idStr + "." + ext;
    assert name == (slug + "-") + idStr + ("." + ext);
  }
}

=== FILE: wallet_service.dfy ===
/**
  backend/instructor/services/wallet.py and the `save` of
  `WithdrawalRequestCreateSerializer`: an instructor's wallet, its transactions
  and the withdrawal requests made against it.
 */
module WalletService {
  import opened Common
  import opened Base
  import opened UserModel
  import opened Withdrawal
  import opened Db

  function OwnedBy(instructor: Uuid): InstructorWallet -> bool {
    (w: InstructorWallet) => w.instructor == instructor
  }

  /** `InstructorWallet.objects.get(instructor=...)`. */
  function WalletOf(db: Db, instructor: Uuid): (r: Result<InstructorWallet>)
    ensures r.Ok? <==> |Filter(db.wallets, OwnedBy(instructor))| == 1
    ensures r.Ok? ==> r.value in db.wallets && r.value.instructor == instructor
    ensures (forall w :: w in db.wallets ==> w.instructor != instructor) ==> r == Err(DoesNotExist("InstructorWallet"))
    ensures |Filter(db.wallets, OwnedBy(instructor))| > 1 ==> r == Err(MultipleObjectsReturned("InstructorWallet"))
  {
    var mine := Filter(db.wallets, OwnedBy(instructor));
    if |mine| == 0 then Err(DoesNotExist("InstructorWallet"))
    else
      assert mine[0] in mine;
      if |mine| > 1 then Err(MultipleObjectsReturned("InstructorWallet"))
      else Ok(mine[0])
  }

  /** `get_instructor_wallet`: `get_or_create(instructor=...)`; a new wallet (id `newId`)
      is empty and active. */
  function GetInstructorWallet(db: Db, instructor: Uuid, newId: Uuid): (r: (Db, Result<InstructorWallet>))
    ensures WalletOf(db, instructor).Ok? ==> r == (db, WalletOf(db, instructor))
    ensures (forall w :: w in db.wallets ==> w.instructor != instructor) ==>
      r.1 == Ok(InstructorWallet(newId, instructor, 0, true))
      && r.0 == db.(wallets := db.wallets + [r.1.value])
    ensures |Filter(db.wallets, OwnedBy(instructor))| > 1 ==> r == (db, Err(MultipleObjectsReturned("InstructorWallet")))
    ensures r.1.Ok? ==> r.1.value.instructor == instructor && WalletOf(r.0, instructor) == r.1
  {
    var mine := Filter(db.wallets, OwnedBy(instructor));
    if |mine| == 0 then
      var w := InstructorWallet(newId, instructor, 0, true);
      var db1 := db.(wallets := db.wallets + [w]);
      FilterAppend(db.wallets, [w], OwnedBy(instructor));
      FilterNone(db.wallets, OwnedBy(instructor));
      assert Filter([w], OwnedBy(instructor)) == [w];
      (db1, Ok(w))
    else (db, WalletOf(db, instructor))
  }

  /** Getting the wallet twice gives the same wallet, and the second call writes nothing. */
  lemma GetWalletTwice(db: Db, instructor: Uuid, newId: Uuid, newId2: Uuid)
    requires GetInstructorWallet(db, instructor, newId).1.Ok?
    ensures var (db1, w) := GetInstructorWallet(db, instructor, newId);
      GetInstructorWallet(db1, instructor, newId2) == (db1, w)
  {
  }

  /** `get_wallet_balance`: the stored amount; no wallet is an error, not zero. */
  function WalletBalance(db: Db, instructor: Uuid): (r: Result<int>)
    ensures r.Ok? <==> WalletOf(db, instructor).Ok?
    ensures r.Ok? ==> r.value == WalletOf(db, instructor).value.amount
    ensures r.Err? ==> r.error == WalletOf(db, instructor).error
  {
    match WalletOf(db, instructor)
    case Err(e) => Err(e)
    case Ok(w) => Ok(w.amount)
  }

  /** A wallet created by the service starts with a zero balance. */
  lemma NewWalletIsEmpty(db: Db, instructor: Uuid, newId: Uuid)
    requires forall w :: w in db.wallets ==> w.instructor != instructor
    ensures WalletBalance(GetInstructorWallet(db, instructor, newId).0, instructor) == Ok(0)
  {
  }

  /** The transactions of `wallet`, of type `kind` when one is given. */
  predicate Listed(t: WalletTransaction, wallet: Uuid, kind: Option<WalletTxType>) {
    t.wallet == wallet && (kind.None? || t.kind == kind.value)
  }

  /** `get_wallet_transactions` (through `get_instructor_wallet`, so it may create the
      wallet). `WalletTransaction` declares no ordering of its own and inherits the base
      model's `-created_at`, so the listing is newest first. */
  function WalletTransactions(db: Db, instructor: Uuid, kind: Option<WalletTxType>, newId: Uuid)
    : (r: (Db, Result<seq<WalletTransaction>>))
    ensures r.0 == GetInstructorWallet(db, instructor, newId).0
    ensures r.1.Ok? <==> GetInstructorWallet(db, instructor, newId).1.Ok?
    ensures r.1.Ok? ==> forall t :: t in r.1.value <==>
      t in db.walletTxs && Listed(t, GetInstructorWallet(db, instructor, newId).1.value.id, kind)
    ensures r.1.Ok? && kind.None? ==> forall t :: t in r.1.value <==>
      t in db.walletTxs && t.wallet == GetInstructorWallet(db, instructor, newId).1.value.id
    ensures r.1.Ok? ==> forall a, b :: 0 <= a < b < |r.1.value| ==>
      Ord(r.1.value[b].createdAt) <= Ord(r.1.value[a].createdAt)
  {
    var (db1, w) := GetInstructorWallet(db, instructor, newId);
    match w
    case Err(e) => (db1, Err(e))
    case Ok(wallet) =>
      var txs := Filter(db1.walletTxs, (t: WalletTransaction) => t.wallet == wallet.id);
      var listed := if kind.None? then txs else Filter(txs, (t: WalletTransaction) => t.kind == kind.value);
      var r := SortBy(listed, (t: WalletTransaction) => -Ord(t.createdAt));
      SameMembers(r, listed);
      (db1, Ok(r))
  }

  /** The listing of one type holds exactly the transactions of that type in the full
      listing, and both are newest first. */
  lemma TypedListingNarrowsFull(db: Db, instructor: Uuid, kind: WalletTxType, newId: Uuid)
    requires WalletTransactions(db, instructor, None, newId).1.Ok?
    ensures var full := WalletTransactions(db, instructor, None, newId).1;
      var typed := WalletTransactions(db, instructor, Some(kind), newId).1;
      typed.Ok? && forall t :: t in typed.value <==> t in full.value && t.kind == kind
  {
  }

  /** `get_withdrawal_requests`: the instructor's requests, newest first. */
  function WithdrawalRequests(db: Db, instructor: Uuid): (r: seq<WithdrawalRequest>)
    ensures forall q :: q in r <==> q in db.withdrawals && q.instructor == instructor
    ensures forall a, b :: 0 <= a < b < |r| ==> Ord(r[b].createdAt) <= Ord(r[a].createdAt)
  {
    var mine := Filter(db.withdrawals, (q: WithdrawalRequest) => q.instructor == instructor);
    var r := SortBy(mine, (q: WithdrawalRequest) => -Ord(q.createdAt));
    SameMembers(r, mine);
    r
  }

  // ---------------------------------------------------------------------
  // WithdrawalRequestCreateSerializer.save

  /** Validation, then (atomically) one details row of the requested kind and one request
      pointing at it. What is answered is the request with its details rendered. */
  function CreateWithdrawal(db: Db, instructor: Uuid, wallet: InstructorWallet, body: WithdrawalBody,
                            coins: set<string>, infoId: Uuid, requestId: Uuid,
                            now: DateTime): (r: Result<(Db, WithdrawalRequest, Rendered)>)
    ensures r.Ok? <==> ValidateWithdrawal(body, wallet, coins).Ok?
    ensures r.Err? ==> r.error == ValidateWithdrawal(body, wallet, coins).error
    ensures r.Ok? ==>
      var (db1, q, shown) := r.value;
      var info := ValidateWithdrawal(body, wallet, coins).value.info;
      && db1 == db.(infos := db.infos + [InfoRow(infoId, info)], withdrawals := db.withdrawals + [q])
      && q == WithdrawalRequest(requestId, instructor, body.amount.value, body.kind.value, infoId, now)
      && KindOf(info) == body.kind.value
      && shown == Fields(FieldsOf(info))
  {
    match ValidateWithdrawal(body, wallet, coins)
    case Err(e) => Err(e)
    case Ok(draft) =>
      var q := WithdrawalRequest(requestId, instructor, draft.amount, draft.kind, infoId, now);
      Ok((db.(infos := db.infos + [InfoRow(infoId, draft.info)], withdrawals := db.withdrawals + [q]),
          q, Render(LinkedInfo(draft.info))))
  }

  /** Requesting a withdrawal reserves nothing: no wallet's balance changes, and the
      request's amount is within the balance it was checked against. */
  lemma WithdrawalKeepsBalance(db: Db, instructor: Uuid, wallet: InstructorWallet, body: WithdrawalBody,
                               coins: set<string>, infoId: Uuid, requestId: Uuid, now: DateTime)
    requires CreateWithdrawal(db, instructor, wallet, body, coins, infoId, requestId, now).Ok?
    ensures var db1 := CreateWithdrawal(db, instructor, wallet, body, coins, infoId, requestId, now).value.0;
      db1.wallets == db.wallets && WalletBalance(db1, instructor) == WalletBalance(db, instructor)
    ensures body.amount.Some? && 0 < body.amount.value <= wallet.amount
  {
  }
}

=== FILE: withdrawal.dfy ===
/**
  Withdrawal requests of an instructor (backend/instructor/serializers/instructor.py):
  the crypto and fiat payout details, how a request body is validated against
  the wallet, and how the stored details are rendered back.

  The WithdrawalRequest, CryptoWithdrawalInfo and FiatWithdrawalInfo models and
  the `Coins` choices are not part of this model's sources; they are kept as
  plain records, and the coin choices are a parameter. Amounts are in cents.
 */
module Withdrawal {
  import opened Common
  import opened Base
  import opened UserModel
  import opened FieldChecks

  /** The payout details a request points to. */
  datatype WithdrawalInfo =
    | CryptoInfo(coinType: string, walletAddress: string)
    | FiatInfo(bankName: string, accountNumber: string, accountName: string)

  datatype InfoRow = InfoRow(id: Uuid, info: WithdrawalInfo)

  /** `paymentType` is "crypto" or "fiat"; `info` is the id of its InfoRow. */
  datatype WithdrawalRequest = WithdrawalRequest(
    id: Uuid, instructor: Uuid, amount: int, paymentType: string, info: Uuid, createdAt: DateTime)

  /** The payment type a kind of details belongs to. */
  function KindOf(i: WithdrawalInfo): (k: string)
    ensures k == "crypto" || k == "fiat"
  {
    if i.CryptoInfo? then "crypto" else "fiat"
  }

  // ---------------------------------------------------------------------
  // Payout details

  predicate CryptoFieldOk(data: map<string, string>, coins: set<string>) {
    "coin_type" in data && data["coin_type"] in coins
  }

  /** `CryptoWithdrawalInfoSerializer`: every failing field is reported. */
  function ValidateCrypto(data: map<string, string>, coins: set<string>): (r: Result<WithdrawalInfo>)
    ensures r.Ok? <==> CryptoFieldOk(data, coins) && CharFieldOk(data, "wallet_address")
    ensures r.Ok? ==> r.value == CryptoInfo(data["coin_type"], Strip(data["wallet_address"]))
    ensures r.Err? ==> r.error.FieldErrors? && r.error.fields.Keys <= {"coin_type", "wallet_address"}
                       && ("coin_type" in r.error.fields <==> !CryptoFieldOk(data, coins))
                       && ("wallet_address" in r.error.fields <==> !CharFieldOk(data, "wallet_address"))
  {
    var e1 := ChoiceError(data, "coin_type", coins);
    var e2 := CharError(data, "wallet_address");
    if e1.None? && e2.None? then Ok(CryptoInfo(data["coin_type"], Strip(data["wallet_address"])))
    else Err(FieldErrors(AddError(AddError(map[], "coin_type", e1), "wallet_address", e2)))
  }

  /** The error dictionary of the fiat details: one entry per failing field. */
  function FiatErrors(data: map<string, string>): (errs: map<string, string>)
    ensures errs.Keys <= {"bank_name", "account_number", "account_name"}
    ensures "bank_name" in errs <==> !CharFieldOk(data, "bank_name")
    ensures "account_number" in errs <==> !CharFieldOk(data, "account_number")
    ensures "account_name" in errs <==> !CharFieldOk(data, "account_name")
  {
    map k | k in {"bank_name", "account_number", "account_name"} && CharError(data, k).Some? :: CharError(data, k).value
  }

  /** `FiatWithdrawalInfoSerializer`: every failing field is reported. */
  function ValidateFiat(data: map<string, string>): (r: Result<WithdrawalInfo>)
    ensures r.Ok? <==> CharFieldOk(data, "bank_name") && CharFieldOk(data, "account_number") && CharFieldOk(data, "account_name")
    ensures r.Ok? ==> r.value == FiatInfo(Strip(data["bank_name"]), Strip(data["account_number"]), Strip(data["account_name"]))
    ensures r.Err? ==> r.error.FieldErrors? && r.error.fields.Keys <= {"bank_name", "account_number", "account_name"}
    ensures r.Err? ==> ("bank_name" in r.error.fields <==> !CharFieldOk(data, "bank_name"))
    ensures r.Err? ==> ("account_number" in r.error.fields <==> !CharFieldOk(data, "account_number"))
    ensures r.Err? ==> ("account_name" in r.error.fields <==> !CharFieldOk(data, "account_name"))
  {
    if CharFieldOk(data, "bank_name") && CharFieldOk(data, "account_number") && CharFieldOk(data, "account_name") then
      Ok(FiatInfo(Strip(data["bank_name"]), Strip(data["account_number"]), Strip(data["account_name"])))
    else
      Err(FieldErrors(FiatErrors(data)))
  }

  /** The details serializer for a request of type `kind` (anything but "crypto" is fiat). */
  function ValidateInfo(kind: string, data: map<string, string>, coins: set<string>): (r: Result<WithdrawalInfo>)
    ensures kind == "crypto" ==> r == ValidateCrypto(data, coins)
    ensures kind != "crypto" ==> r == ValidateFiat(data)
    ensures r.Ok? ==> KindOf(r.value) == (if kind == "crypto" then "crypto" else "fiat")
  {
    if kind == "crypto" then ValidateCrypto(data, coins) else ValidateFiat(data)
  }

  /** The validated request body. */
  datatype WithdrawalDraft = WithdrawalDraft(kind: string, amount: int, info: WithdrawalInfo)

  const MAX_DIGITS: string := "Ensure that there are no more than 12 digits in total."

  /** Ten digits before the point and two after: the bound of the `amount` field, in cents. */
  const AMOUNT_BOUND: int := 1_000_000_000_000

  /** `DecimalField(max_digits=12, decimal_places=2)` on an amount in cents, written with its
      two decimal places: at most twelve digits in all. */
  function AmountError(amount: int): (e: Option<string>)
    ensures e.None? <==> -AMOUNT_BOUND < amount < AMOUNT_BOUND
    ensures e.Some? ==> e == Some(MAX_DIGITS)
  {
    if amount <= -AMOUNT_BOUND || AMOUNT_BOUND <= amount then Some(MAX_DIGITS) else None
  }

  /** A request body as its fields parse it: the `type` text, the `amount` in cents and
      the `info` dictionary, each None when its key is missing. */
  datatype WithdrawalBody = WithdrawalBody(kind: Option<string>, amount: Option<int>, info: Option<map<string, string>>)

  predicate KnownKind(kind: string) {
    kind == "crypto" || kind == "fiat"
  }

  /** The field errors of the request: a missing field, the `type` choice and the `amount`
      digits, reported together. */
  function WithdrawalFieldErrors(body: WithdrawalBody): (errs: map<string, string>)
    ensures errs.Keys <= {"type", "amount", "info"}
    ensures "type" in errs <==> body.kind.None? || !KnownKind(body.kind.value)
    ensures "amount" in errs <==> body.amount.None? || AmountError(body.amount.value).Some?
    ensures "info" in errs <==> body.info.None?
    ensures body.kind.None? ==> errs["type"] == REQUIRED
    ensures body.kind.Some? && !KnownKind(body.kind.value) ==> errs["type"] == InvalidChoice(body.kind.value)
    ensures body.amount.None? ==> errs["amount"] == REQUIRED
    ensures body.amount.Some? && AmountError(body.amount.value).Some? ==> errs["amount"] == MAX_DIGITS
    ensures body.info.None? ==> errs["info"] == REQUIRED
  {
    var kindError := match body.kind
      case None => Some(REQUIRED)
      case Some(k) => if KnownKind(k) then None else Some(InvalidChoice(k));
    var amountError := match body.amount
      case None => Some(REQUIRED)
      case Some(a) => AmountError(a);
    var infoError := if body.info.None? then Some(REQUIRED) else None;
    AddError(AddError(AddError(map[], "type", kindError), "amount", amountError), "info", infoError)
  }

  /** `WithdrawalRequestCreateSerializer` validation: the field errors first, then the
      amount against zero, then against the wallet, then the details for the type. */
  function ValidateWithdrawal(body: WithdrawalBody, wallet: InstructorWallet, coins: set<string>): (r: Result<WithdrawalDraft>)
    ensures r.Ok? <==> WithdrawalFieldErrors(body) == map[] && 0 < body.amount.value <= wallet.amount
                       && ValidateInfo(body.kind.value, body.info.value, coins).Ok?
    ensures WithdrawalFieldErrors(body) == map[] <==>
      body.kind.Some? && KnownKind(body.kind.value) && body.amount.Some? && -AMOUNT_BOUND < body.amount.value < AMOUNT_BOUND
      && body.info.Some?
    ensures WithdrawalFieldErrors(body) != map[] ==> r == Err(FieldErrors(WithdrawalFieldErrors(body)))
    ensures WithdrawalFieldErrors(body) == map[] && body.amount.value <= 0 ==>
      r == Err(NonFieldError("Amount must be greater than zero."))
    ensures WithdrawalFieldErrors(body) == map[] && 0 < body.amount.value && body.amount.value > wallet.amount ==>
      r == Err(NonFieldError("Insufficient wallet balance."))
    ensures r.Ok? ==> r.value == WithdrawalDraft(body.kind.value, body.amount.value, ValidateInfo(body.kind.value, body.info.value, coins).value)
                      && KindOf(r.value.info) == body.kind.value && r.value.amount < AMOUNT_BOUND
  {
    var errs := WithdrawalFieldErrors(body);
    if errs != map[] then Err(FieldErrors(errs))
    else
      assert "type" !in errs && "amount" !in errs && "info" !in errs;
      var amount := body.amount.value;
      if amount <= 0 then Err(NonFieldError("Amount must be greater than zero."))
      else if amount > wallet.amount then Err(NonFieldError("Insufficient wallet balance."))
      else match ValidateInfo(body.kind.value, body.info.value, coins)
        case Ok(info) => Ok(WithdrawalDraft(body.kind.value, amount, info))
        case Err(e) => Err(e)
  }

  /** The whole balance may be withdrawn when it fits the amount field; one cent more may
      not, and a balance past the field's bound can only be withdrawn in parts. */
  lemma WithdrawWholeBalance(kind: string, data: map<string, string>, wallet: InstructorWallet, coins: set<string>)
    requires KnownKind(kind)
    requires wallet.amount > 0 && ValidateInfo(kind, data, coins).Ok?
    ensures ValidateWithdrawal(WithdrawalBody(Some(kind), Some(wallet.amount), Some(data)), wallet, coins).Ok?
        <==> wallet.amount < AMOUNT_BOUND
    ensures wallet.amount + 1 < AMOUNT_BOUND ==>
      ValidateWithdrawal(WithdrawalBody(Some(kind), Some(wallet.amount + 1), Some(data)), wallet, coins)
        == Err(NonFieldError("Insufficient wallet balance."))
    ensures ValidateWithdrawal(WithdrawalBody(Some(kind), Some(AMOUNT_BOUND - 1), Some(data)), wallet, coins).Ok?
        <==> AMOUNT_BOUND - 1 <= wallet.amount
  {
  }

  // ---------------------------------------------------------------------
  // InfoRelatedField

  /** What a request's generic `info` can point at. */
  datatype Linked = LinkedInfo(info: WithdrawalInfo) | OtherObject(text: string)

  datatype Rendered = Fields(fields: map<string, string>) | Plain(text: string)

  /** The serializer data of a details record: its declared fields. */
  function FieldsOf(i: WithdrawalInfo): (m: map<string, string>)
    ensures i.CryptoInfo? ==> m.Keys == {"coin_type", "wallet_address"}
    ensures i.FiatInfo? ==> m.Keys == {"bank_name", "account_number", "account_name"}
  {
    match i
    case CryptoInfo(c, a) => map["coin_type" := c, "wallet_address" := a]
    case FiatInfo(b, n, a) => map["bank_name" := b, "account_number" := n, "account_name" := a]
  }

  /** `InfoRelatedField.to_representation`. */
  function Render(v: Linked): (r: Rendered)
    ensures v.LinkedInfo? ==> r == Fields(FieldsOf(v.info))
    ensures v.OtherObject? ==> r == Plain(v.text)
  {
    match v
    case LinkedInfo(i) => Fields(FieldsOf(i))
    case OtherObject(t) => Plain(t)
  }

  /** Details as validation leaves them: trimmed, not blank, no NUL, a listed coin. */
  predicate WellFormed(i: WithdrawalInfo, coins: set<string>) {
    match i
    case CryptoInfo(c, a) => c in coins && Clean(a)
    case FiatInfo(b, n, a) => Clean(b) && Clean(n) && Clean(a)
  }

  /** A value a `CharField()` gives back unchanged: trimmed, not blank, no NUL. */
  predicate Clean(v: string) {
    v != "" && Strip(v) == v && '\0' !in v
  }

  /** Validation accepts exactly what it produces: rendering well-formed details and
      validating the rendering for their type gives them back. */
  lemma RenderValidateRoundTrip(i: WithdrawalInfo, coins: set<string>)
    requires WellFormed(i, coins)
    ensures Render(LinkedInfo(i)).Fields?
    ensures ValidateInfo(KindOf(i), Render(LinkedInfo(i)).fields, coins) == Ok(i)
  {
    var m := FieldsOf(i);
    match i
    case CryptoInfo(c, a) =>
      assert m["coin_type"] == c && m["wallet_address"] == a;
      assert CharFieldOk(m, "wallet_address");
    case FiatInfo(b, n, a) =>
      assert m["bank_name"] == b && m["account_number"] == n && m["account_name"] == a;
      assert CharFieldOk(m, "bank_name") && CharFieldOk(m, "account_number") && CharFieldOk(m, "account_name");
  }

  /** Every details record validation accepts is well-formed. */
  lemma ValidatedIsWellFormed(kind: string, data: map<string, string>, coins: set<string>)
    requires ValidateInfo(kind, data, coins).Ok?
    ensures WellFormed(ValidateInfo(kind, data, coins).value, coins)
  {
    var i := ValidateInfo(kind, data, coins).value;
    match i
    case CryptoInfo(c, a) => StripIdempotent(data["wallet_address"]);
    case FiatInfo(b, n, a) =>
      StripIdempotent(data["bank_name"]);
      StripIdempotent(data["account_number"]);
      StripIdempotent(data["account_name"]);
  }
}
